=== FILE: README.md ===
# barberiaLopez core in Dafny

The barbershop back office has two parts. The first is an ASP.NET Core web API that keeps:

- customers and staff (`Usuario`);
- the catalog of products and services (`ProductoServicio`) with their pictures (`Imagen`);
- appointment slots (`Turno`);
- completed visits (`Atencion`), their line items (`DetalleAtencion`) and their payments (`Pago`).

The second is a Vue client with a route guard, session helpers over the browser's session storage, and request-payload builders.

The project models that core as pure functions over an immutable store.

- **Store.** Every entity table is a `map<int, Row>` keyed by primary key. The image table is a sequence in storage order, because the controllers take the first matching image without ordering.
- **Endpoints.** Every endpoint is a function from the store and a request to a `Response(status, store')`. An error answer always leaves the store unchanged.
- **Authorization.** The catalog endpoints carry `[Authorize(Roles = …)]`, which runs before model binding. Each is modelled as the filter's answer (401 or 403) in front of an action function holding the controller method's body; the caller's principal is an optional claim list.
- **Inputs.** Anything the code leaves to the environment is passed in:
  - the database's key enumeration order (`scan`);
  - the keys it assigns on insert;
  - the clock;
  - whether an `UPDATE` raises a concurrency failure;
  - whether deleting a folder fails;
  - password verification and token signing;
  - JSON parsing in the browser.

Modules:

- **Foundations.**
  - `Wrappers`: `Option`.
  - `Text`: null/empty/blank tests, trimming, substring, ASCII lower case, ordinal order.
  - `NumberText`: decimal text of integers and `int.TryParse`.
  - `Seqs`: filter, insertion sort under a total preorder.
  - `Pagination`: `Skip`/`Take`, ceiling division, page metadata.
  - `Listing`: tables enumerated in an arbitrary order, counting and ordered pages.
- **Data.** `Models` (records, defaults and data annotations) and `Store` (statuses, the database, update and find).
- **Endpoints.**
  - `Atenciones`, `Turnos`, `Detalles`, `Productos`, `Usuarios`: the CRUD controllers.
  - `Auth`: the login endpoint and token claims.
  - `Claims`: reading the user id and role back from a principal, and the role filter of `[Authorize]`.
  - `Venta`: the sale DTO's derived totals.
- **Integrity.** The cross-table reference invariant and which endpoints keep it.
- **Client.**
  - `JsObjects`: the JavaScript operators the client uses.
  - `UsuarioService`, `ClienteService`: payload builders and query parameters.
  - `Session`: the `auth.service` helpers over a string map.
  - `Router`: the route table and `beforeEach` guard.

## Model

| member | source | states |
|---|---|---|
| Store.SaveUpdate | Backend/Controllers/AtencionController.cs:123-142 | An update succeeds exactly when the row exists and the save does not fail; it then replaces only that row. A missing row answers 404 and a concurrency failure on an existing row propagates; both leave the table unchanged. |
| Store.Find | Backend/Controllers/AtencionController.cs:51-74 | Lookup by id answers Ok with exactly the stored row when the key exists and 404 otherwise. |
| Store.InsertKey | Backend/Controllers/AtencionController.cs:92-93 | An insert keeps a non-zero explicit key and takes the generated key for zero. |
| Pagination.Skip | Backend/Controllers/AtencionController.cs:26 | Skipping n rows drops the first n rows; a non-positive count drops none and a count past the end leaves nothing. |
| Pagination.Take | Backend/Controllers/AtencionController.cs:27 | Taking n rows keeps the first n rows, nothing for a non-positive count, everything for a count past the end. |
| Pagination.CeilDiv | Backend/Controllers/AtencionController.cs:39 | `Math.Ceiling(total / pageSize)` as integers: the smallest page count whose pages hold every row. |
| Pagination.Page | Backend/Controllers/AtencionController.cs:26-27 | Page p holds at most pageSize rows; its i-th row is row (p-1)*pageSize+i of the input; it is empty exactly when the offset reaches the end. |
| Pagination.Paginate | Backend/Controllers/AtencionController.cs:24-41 | The listing's metadata: the total is counted before paging, the current page and size echo the request, and totalPages is the ceiling of total over pageSize. |
| Pagination.PageNonEmptyIff | Backend/Controllers/AtencionController.cs:26-39 | A page has rows exactly when its number is at most totalPages. |
| Pagination.RowOnItsPage | Backend/Controllers/AtencionController.cs:26-39 | Every row appears on exactly the page number and offset that integer division of its position gives, it is a member of that page, and that page is within totalPages. |
| Pagination.RowOnSomePage | Backend/Controllers/AtencionController.cs:26-39 | Every row lies on some page numbered from 1 to totalPages. |
| Pagination.SecondPageOfFifteen | Backend/Controllers/AtencionController.cs:26-39 | With 15 rows and pages of 10, page 2 holds the last five rows and there are 2 pages. |
| Listing.CountIsTableCount | Backend/Controllers/UsuariosController.cs:23-28 | A filtered count equals the number of table rows passing the filter, whatever order the database enumerates them in. |
| Listing.FilteredRows | Backend/Controllers/UsuariosController.cs:23-28 | A filtered enumeration holds exactly the table rows that pass the filter. |
| Listing.OrderedPage | Backend/Controllers/AtencionController.cs:23-39 | `OrderBy`, count, then page: the page is exactly page p of some sorting of the rows (a sorted permutation of them), so it holds input rows only and at most pageSize of them; the metadata counts all rows and echoes page and pageSize. |
| Listing.OrderedPagesCoverRows | Backend/Controllers/AtencionController.cs:23-39 | Paging through pages 1 to totalPages, all cut from one sorting of the rows, shows every input row. |
| Listing.SortingUnique | Backend/Controllers/AtencionController.cs:23 | When no two rows tie on the sort key, any two sortings of the rows are equal. |
| Listing.ContractPagesCoverRows | Backend/Controllers/AtencionController.cs:23-39 | For any listing meeting the page contract, even one that breaks ties differently on every request, paging 1 to totalPages shows every row when no two rows tie on the sort key. |
| Seqs.Filter | Backend/Controllers/ProductosServiciosController.cs:35-60 | `Where`: every kept row passes the predicate, and each row is kept as often as it occurs if it passes and never otherwise. |
| Seqs.FilterPartition | Backend/Controllers/ProductosServiciosController.cs:148 | Filtering by a predicate and by its negation splits a sequence into two parts that together are a permutation of it. |
| Seqs.SortBy | Backend/Controllers/AtencionController.cs:25 | `OrderBy`: the result is sorted by the key order and is a permutation of the input. ORDER BY is not stable, so nothing is promised about ties. |
| Seqs.Insert | Backend/Controllers/AtencionController.cs:25 | Inserting into a sorted sequence keeps it sorted and adds exactly the one element. |
| Seqs.FlipTotalPreorder | Backend/Controllers/ProductosServiciosController.cs:67-68 | `OrderByDescending` uses the reversed order, which is again a total preorder. |
| Text.Contains | Backend/Controllers/ProductosServiciosController.cs:38-50 | `string.Contains`: true exactly when the needle occurs at some position of the text. |
| Text.Utf16Length | Backend/Models/Usuario.cs:11 | `string.Length` counts UTF-16 code units: at least one and at most two per character, exactly one each when no character lies beyond U+FFFF. |
| Text.Utf16LengthAllWide | Backend/Models/Usuario.cs:11 | A string made only of characters beyond U+FFFF is twice as long in code units as in characters. |
| Text.IsWhiteSpace | Backend/Models/Usuario.cs:10 | `char.IsWhiteSpace`: the Zs, Zl and Zp separators, tab through carriage return, and U+0085. |
| Text.IsNullOrWhiteSpace | Backend/Models/Usuario.cs:10 | What `[Required]` rejects on a string: null, or every character white space. |
| Text.TrimStart | backend/Extensions/ClaimsPrincipalExtensions.cs:16 | Dropping leading white space leaves a suffix of the text whose dropped characters are all white and whose first character, if any, is not. |
| Text.TrimEnd | backend/Extensions/ClaimsPrincipalExtensions.cs:16 | Dropping trailing white space leaves a prefix whose dropped characters are all white and whose last character, if any, is not. |
| Text.TrimStartPadded | backend/Extensions/ClaimsPrincipalExtensions.cs:16 | Trimming the start of white padding followed by text that does not start white gives that text back. |
| Text.TrimEndPadded | backend/Extensions/ClaimsPrincipalExtensions.cs:16 | Trimming the end of text that does not end white followed by white padding gives that text back. |
| Text.Lower | Backend/Controllers/ProductosServiciosController.cs:63 | `ToLower` keeps the length and lowers each character. |
| Text.LowerIdempotent | Backend/Controllers/ProductosServiciosController.cs:63 | Lowering twice is lowering once. |
| Text.StrLeTotal | Backend/Controllers/ProductosServiciosController.cs:69 | The ordinal string order used for sorting by name or description is total. |
| Text.StrLeTrans | Backend/Controllers/ProductosServiciosController.cs:69 | The ordinal string order is transitive. |
| NumberText.NatToText | Backend/Controllers/AuthController.cs:104 | `ToString()` of a non-negative id: digits only, no leading zero, denoting the number. |
| NumberText.IntToText | Backend/Controllers/AuthController.cs:104-106 | `ToString()` of any int starts with a sign or a digit and ends with a digit. |
| NumberText.NumberBodyOfPadded | backend/Extensions/ClaimsPrincipalExtensions.cs:16 | The text between permitted leading white space and trailing white space plus NULs is the text the parser reads, unchanged. |
| NumberText.TryParseInt32 | backend/Extensions/ClaimsPrincipalExtensions.cs:16-19 | `int.TryParse` with integer number styles succeeds exactly when, after dropping leading white space (tab to carriage return and space) and trailing white space with NULs after it, the text is an optional sign and at least one ASCII digit denoting a 32-bit integer; the value is then that signed number. |
| NumberText.ParseRejectsNonDigits | backend/Extensions/ClaimsPrincipalExtensions.cs:16-19 | A non-digit inside the number makes the parse fail. |
| NumberText.NoBreakSpaceRejected | backend/Extensions/ClaimsPrincipalExtensions.cs:16 | A leading no-break space makes the parse fail: it is not number white space. |
| NumberText.ParsePaddedIntToText | backend/Extensions/ClaimsPrincipalExtensions.cs:16-17 | The decimal text of any 32-bit integer, with any number white space around it and NULs after it, parses back to the integer. |
| NumberText.ParseIntToText | backend/Extensions/ClaimsPrincipalExtensions.cs:16-17 | Parsing the decimal text of any 32-bit integer gives the integer back. |
| Models.NewUsuario | Backend/Models/Usuario.cs:5-28 | A new user is active and has no system access; only the required name and email fail validation. |
| Models.UsuarioErrors | Backend/Models/Usuario.cs:10-16 | The name fails exactly when null, blank under `char.IsWhiteSpace` or longer than 100 UTF-16 code units; validation passes exactly when the name passes and the email is present and email-shaped; no other field is ever reported. |
| Models.IdeographicSpaceNameRejected | Backend/Models/Usuario.cs:10-12 | A name that is only an ideographic space (U+3000) is blank, so it is reported missing. |
| Models.WideNameTooLong | Backend/Models/Usuario.cs:11-12 | A name of 60 characters beyond U+FFFF is 120 UTF-16 code units, so it is too long. |
| Models.IsEmailShaped | Backend/Models/Usuario.cs:14-15 | What `[EmailAddress]` accepts: exactly one '@', neither the first nor the last character. |
| Models.ServiceIffNotStorable | Backend/Controllers/ProductosServiciosController.cs:148 | An item is a service exactly when it is not storable (`false` or null storable flag). |
| Models.StockRule | Backend/Controllers/ProductosServiciosController.cs:263-265 | An item that is not storable (false or null) may not carry a positive quantity; a null quantity is not positive. The update repeats the rule at line 347. |
| Models.ProductoErrors | Backend/Models/ProductoServicio.cs:10-18 | The name fails exactly when null, blank or longer than 100 UTF-16 code units. The price fails exactly when null or outside -0.50..10000.50, since `[Range(0, 10000)]` rounds it half-to-even to whole units first. Nothing else is reported. |
| Models.NewProductoServicio | Backend/Models/ProductoServicio.cs:14-22 | A new catalog item is a non-storable service with quantity 0 and no description, so it already satisfies the stock rule. |
| Models.AtencionErrors | Backend/Models/Atencion.cs:13-24 | Only the total can fail: exactly when outside -0.50..10000.50, the amounts that round half-to-even into 0..10000. `[Required]` on value-typed ids and the date always passes. |
| Models.DefaultFechaPassesAnnotations | Backend/Models/Atencion.cs:13-33 | For any attendance whose total the range check accepts, the annotations pass, and they still pass with the date set to the default: `[Required]` never rejects a date, slot or payment. |
| Models.DetalleErrors | Backend/Models/DetalleAtencion.cs:10-22 | The quantity fails exactly when outside 1..Int32.MaxValue. The unit price fails exactly when outside -0.50..10000.50, after half-to-even rounding to whole units. Nothing else is reported. |
| Models.NewDetalleAtencion | Backend/Models/DetalleAtencion.cs:16-22 | A new line item has quantity 1 and passes its range checks. |
| Models.RoundToUnits | Backend/Models/Atencion.cs:23-24 | `decimal.Round(v, 0)`, which `Convert.ToInt32` applies before `[Range(0, 10000)]` compares: the result is within half a unit of the amount, and even when the amount sits exactly on a midpoint. |
| Models.RoundToUnitsUnique | Backend/Models/Atencion.cs:23-24 | Any whole number within half a unit of the amount, and even on a midpoint, is the rounding: the two clauses characterise half-to-even rounding completely. |
| Models.AmountInRangeCents | Backend/Models/Atencion.cs:23-24 | The range check accepts exactly the amounts from -0.50 to 10000.50, both midpoints rounding to the even bound. |
| Models.RangeThrowsCents | Backend/Models/Atencion.cs:23-24 | The conversion throws exactly below -2147483648.50 and from 2147483647.50 up: the low midpoint rounds to the even `int.MinValue`, the high one past the odd `int.MaxValue`. |
| Models.ThrowingAmountOutOfRange | Backend/Models/Atencion.cs:23-24 | An amount on which the conversion throws would also fail the range. |
| Models.ParseTipo | Backend/Models/Imagen.cs:15-17 | Only the three names the column admits parse as an image kind. |
| Models.TipoRoundTrip | Backend/Models/Imagen.cs:15-17 | Every image kind's name parses back to that kind. |
| Models.ImagenErrors | Backend/Models/Imagen.cs:11-20 | The route fails exactly when null, blank or longer than 255 UTF-16 code units, the kind exactly when null or blank, the related id exactly when null. The kind's enum column type is a mapping, not a validation rule. |
| Models.UnknownTipoPassesValidation | Backend/Models/Imagen.cs:15-17 | An image of an unknown kind passes validation, yet the enum column would not store it. |
| Models.NewImagen | Backend/Models/Imagen.cs:11-26 | A new image row is active and stamped now; route, kind and related id are still missing. |
| Models.FromOrdinal | Backend/Models/Pago.cs:6-16 | Exactly the values 0..7 name a payment method, in declaration order. |
| Models.MetodoPagoIsClosed | Backend/Models/Pago.cs:6-16 | There are exactly eight payment methods, each with its own value. |
| Models.PagoErrors | Backend/Models/Pago.cs:23-35 | Validation never rejects a payment: every `[Required]` field is a value type, and the `decimal(10,2)` column type is a mapping the database enforces, not a validation rule. |
| Models.WideAmountPassesValidation | Backend/Models/Pago.cs:30-32 | An amount too wide for `decimal(10,2)` still passes validation. |
| Models.NewPago | Backend/Models/Pago.cs:27-35 | A new payment is dated now, uses the first method and has amount zero, which fits `decimal(10,2)`. |
| Atenciones.FechaLeIsPreorder | Backend/Controllers/AtencionController.cs:25 | Ordering attendances by date is a total preorder. |
| Atenciones.GetAtenciones | Backend/Controllers/AtencionController.cs:21-47 | Exactly page p of the attendances sorted oldest first (some sorting of the whole table), at most pageSize rows; the total counts every attendance, totalPages is its ceiling over pageSize, and page and pageSize are echoed. |
| Atenciones.EveryAtencionListed | Backend/Controllers/AtencionController.cs:21-47 | Every stored attendance appears on some page from 1 to totalPages. |
| Atenciones.GetAtencion | Backend/Controllers/AtencionController.cs:51-74 | Found exactly when the id exists, with that row. |
| Atenciones.GetAfterPost | Backend/Controllers/AtencionController.cs:51-106 | A created attendance is found under its key with the body sent, its id set to the key. |
| Atenciones.GetAfterPut | Backend/Controllers/AtencionController.cs:51-153 | After a successful update the attendance is found as the body sent. |
| Atenciones.NegativeCentTotalCreated | Backend/Models/Atencion.cs:23-24 | A total of -0.01 rounds to zero, so with a real date and a free key the attendance is created. |
| Atenciones.OverflowingTotalIsServerError | Backend/Models/Atencion.cs:23-24 | A total of 2147483647.50 makes the range conversion throw: the request answers 500 and nothing is stored. |
| Atenciones.PostAtencion | Backend/Controllers/AtencionController.cs:78-106 | A total whose rounding leaves `int` makes validation throw: 500, nothing stored. A valid attendance is refused exactly when its date is the default. Otherwise it is stored under its own non-zero id or the generated key; an explicit id already taken answers 500. For a body without nested line items, payment or users, exactly one row is added. Nothing is checked about customer, staff, slot or payment. |
| Atenciones.PutAtencion | Backend/Controllers/AtencionController.cs:109-153 | A total whose rounding leaves `int` answers 500. Otherwise an id mismatch answers 400 before any lookup, a missing row answers 404, and success replaces exactly that row. Every failure leaves the store unchanged. |
| Atenciones.DeleteAtencion | Backend/Controllers/AtencionController.cs:156-204 | 404 when absent, 400 while any line item references it, otherwise exactly that attendance is removed. |
| Turnos.FechaHoraLeIsPreorder | Backend/Controllers/TurnosController.cs:25 | Ordering slots by date and time is a total preorder. |
| Turnos.GetTurnos | Backend/Controllers/TurnosController.cs:21-47 | Exactly page p of the slots sorted earliest first, at most pageSize rows; the total counts every slot, and page and pageSize are echoed. |
| Turnos.EveryTurnoListed | Backend/Controllers/TurnosController.cs:21-47 | Every stored slot appears on some page from 1 to totalPages. |
| Turnos.GetTurno | Backend/Controllers/TurnosController.cs:51-74 | Found exactly when the id exists, with that row. |
| Turnos.GetAfterPost | Backend/Controllers/TurnosController.cs:51-106 | A created slot is found under its key with the body sent, its id set to the key. |
| Turnos.GetAfterPut | Backend/Controllers/TurnosController.cs:51-154 | After a successful update the slot is found as the body sent. |
| Turnos.PostTurno | Backend/Controllers/TurnosController.cs:78-106 | Refused exactly when the date is the default; otherwise stored under its own non-zero id or the generated key, 500 when an explicit id is taken, and exactly one slot is added. |
| Turnos.PutTurno | Backend/Controllers/TurnosController.cs:110-154 | An id mismatch answers 400. A missing row answers 404. Success replaces exactly that row. Failures leave the store unchanged. |
| Turnos.DeleteTurno | Backend/Controllers/TurnosController.cs:158-204 | 404 when absent, 400 while any attendance is booked on it, otherwise exactly that slot is removed. |
| Detalles.AtencionIdLeIsPreorder | Backend/Controllers/DetalleAtencionController.cs:25 | Ordering line items by attendance is a total preorder. |
| Detalles.GetDetallesAtencion | Backend/Controllers/DetalleAtencionController.cs:21-47 | Exactly page p of the line items sorted by attendance, at most pageSize rows; the total counts every line item, and page and pageSize are echoed. |
| Detalles.EveryDetalleListed | Backend/Controllers/DetalleAtencionController.cs:21-47 | Every stored line item appears on some page from 1 to totalPages. |
| Detalles.GetDetalleAtencion | Backend/Controllers/DetalleAtencionController.cs:51-74 | Found exactly when the id exists, with that row. |
| Detalles.GetAfterPost | Backend/Controllers/DetalleAtencionController.cs:51-123 | A created line item is found under its key with the body sent, its id set to the key. |
| Detalles.GetAfterPut | Backend/Controllers/DetalleAtencionController.cs:51-171 | After a successful update the line item is found as the body sent. |
| Detalles.PostDetalleAtencion | Backend/Controllers/DetalleAtencionController.cs:78-123 | A unit price whose rounding leaves `int` answers 500 before anything else. Then an unknown attendance answers 400 first and an unknown catalog item 400 second. Otherwise the line item is stored under its own non-zero id or the generated key (500 when an explicit id is taken); exactly one row is added and both its references resolve. |
| Detalles.PutDetalleAtencion | Backend/Controllers/DetalleAtencionController.cs:127-171 | A unit price whose rounding leaves `int` answers 500. Otherwise an id mismatch answers 400, a missing row answers 404, and success writes the row without checking either reference. Failures leave the store unchanged. |
| Detalles.DeleteDetalleAtencion | Backend/Controllers/DetalleAtencionController.cs:175-245 | 404 when absent. 400 when the attendance is gone, checked first, or when the catalog item is gone. Otherwise exactly that line item is removed. |
| Usuarios.ActiveUsers | Backend/Controllers/UsuariosController.cs:23-28 | The active-user query holds exactly the active rows of the table, one per active key. |
| Usuarios.GetUsuarios | Backend/Controllers/UsuariosController.cs:21-47 | Exactly page p of the active users in enumeration order; total and totalPages count active users only, and page and pageSize are echoed. |
| Usuarios.EveryActiveUserListed | Backend/Controllers/UsuariosController.cs:21-47 | Every active user appears on some page from 1 to totalPages. |
| Usuarios.GetUsuario | Backend/Controllers/UsuariosController.cs:51-74 | Found exactly when the id exists, active or not. |
| Usuarios.PostUsuario | Backend/Controllers/UsuariosController.cs:78-113 | 400 listing exactly the failing fields exactly when validation fails. Otherwise the user is stored under its own non-zero id or the generated key, with 500 when an explicit id is taken; exactly one user is added. |
| Usuarios.PutUsuario | Backend/Controllers/UsuariosController.cs:117-161 | An id mismatch answers 400. A missing row answers 404. Success replaces exactly that row. Failures leave the store unchanged. |
| Usuarios.DeleteUsuario | Backend/Controllers/UsuariosController.cs:165-178 | 404 when absent. Otherwise the row stays with `activo` false and every other field and every other user unchanged. |
| Usuarios.DeleteUsuarioIdempotent | Backend/Controllers/UsuariosController.cs:165-178 | Deleting a user twice answers and leaves the store as deleting once. |
| Usuarios.DeletedUserStillRetrievable | Backend/Controllers/UsuariosController.cs:165-178 | After a delete the user is still found by id, inactive, and no longer counted by the listing. |
| Productos.FirstActiveImage | Backend/Controllers/ProductosServiciosController.cs:100-104 | `FirstOrDefault`: the position of the first active catalog image of the item in storage order, or none when there is none. |
| Productos.ImageRouteOf | Backend/Controllers/ProductosServiciosController.cs:100-104 | The route shown with an item is the route of its first active catalog image in storage order, and none when it has no active catalog image. |
| Productos.ImageRouteOfFilter | Backend/Controllers/ProductosServiciosController.cs:477-479 | Removing any rows that are not catalog images of an item leaves the route shown with that item unchanged. |
| Productos.ImageRoute | Backend/Controllers/ProductosServiciosController.cs:306 | An image route starts with "/images/" and ends with a slash and the file name. |
| Productos.IntToTextNoSlash | Backend/Controllers/ProductosServiciosController.cs:283 | An id's decimal text never contains a slash. |
| Productos.SplitAtFirstSlash | Backend/Controllers/ProductosServiciosController.cs:283 | Two slash-joined strings with slash-free heads are equal only part by part. |
| Productos.RouteParts | Backend/Controllers/ProductosServiciosController.cs:306 | A route is an 18-character folder prefix, whose ninth character tells products from services, followed by id and file name. |
| Productos.ImageRouteInjective | Backend/Controllers/ProductosServiciosController.cs:306 | Distinct (folder, id, file name) triples never share an image route, so a stored route determines its item and file. |
| Productos.IgnoredFilters | Backend/Controllers/ProductosServiciosController.cs:52-60 | A non-positive price filter and a negative quantity filter are ignored. |
| Productos.MatchesFilters | Backend/Controllers/ProductosServiciosController.cs:38-60 | An item passing the filters contains the name and description filters as ordinal substrings and equals the positive price and non-negative quantity filters; with no active filter every item passes. |
| Productos.StorableOrdering | Backend/Controllers/ProductosServiciosController.cs:63-92 | The sort key is matched after lowering its case; anything else sorts by name. Descending exactly when `order` is "desc". |
| Productos.ServiceOrdering | Backend/Controllers/ProductosServiciosController.cs:151-178 | Keys name, price and description are matched after lowering; anything else sorts by name ascending whatever `order` says. Descending only for a known key with `order` "desc". |
| Productos.OrderingIgnoresCase | Backend/Controllers/ProductosServiciosController.cs:63 | The sort key's letter case never changes the ordering chosen. |
| Productos.OptStrLeIsPreorder | Backend/Controllers/ProductosServiciosController.cs:167-171 | Ordering optional strings with null first is a total preorder. |
| Productos.OrderingIsPreorder | Backend/Controllers/ProductosServiciosController.cs:151-178 | Every whitelisted ordering, ascending or descending, is a total preorder. |
| Productos.WithImages | Backend/Controllers/ProductosServiciosController.cs:97-117 | Each listed item is paired with the route of its first active catalog image, in the same order. |
| Productos.Matching | Backend/Controllers/ProductosServiciosController.cs:35-60 | The filtered query holds exactly the table rows passing the filter, one per matching key. |
| Productos.CatalogListing | Backend/Controllers/ProductosServiciosController.cs:94-128 | Exactly page p of some sorting of the matching rows by the chosen ordering, each paired with its image route; the total counts every matching row, and page and pageSize are echoed. |
| Productos.CatalogListingCovers | Backend/Controllers/ProductosServiciosController.cs:94-128 | Every matching item appears, with its image route, on some page from 1 to totalPages. |
| Productos.WithImagesHas | Backend/Controllers/ProductosServiciosController.cs:97-117 | Every listed item is shown with its own image route. |
| Productos.ListAlmacenables | Backend/Controllers/ProductosServiciosController.cs:24-136 | Exactly page p of the stock-tracked items passing the substring, price and quantity filters, sorted by the whitelisted key, each with its image route; total and totalPages count all such items. |
| Productos.EveryStorableMatchListed | Backend/Controllers/ProductosServiciosController.cs:24-136 | Every stock-tracked item passing the filters appears on some page from 1 to totalPages. |
| Productos.ListNoAlmacenables | Backend/Controllers/ProductosServiciosController.cs:141-222 | Exactly page p of the items whose storable flag is false or null, sorted by the whitelisted key, each with its image route; total and totalPages count all such items. |
| Productos.EveryServiceListed | Backend/Controllers/ProductosServiciosController.cs:141-222 | Every service appears on some page from 1 to totalPages. |
| Productos.EmptyQueryMatchesAll | Backend/Controllers/ProductosServiciosController.cs:38-60 | With no filter arguments every item passes the filters. |
| Productos.ListingsPartitionCatalog | Backend/Controllers/ProductosServiciosController.cs:148 | The unfiltered storable total and the service total add up to the size of the catalog. |
| Productos.CatalogSplits | Backend/Controllers/ProductosServiciosController.cs:148 | Without filters every catalog key is counted by exactly one of the two listing predicates, so the two counts add up to the table size. |
| Productos.FindProductoServicio | Backend/Controllers/ProductosServiciosController.cs:227-251 | Found exactly when the id exists, with the first active catalog image of the item, if any; 404 otherwise. |
| Productos.CatalogImage | Backend/Controllers/ProductosServiciosController.cs:303-312 | A new upload row is an active catalog image of the item, stamped now. |
| Productos.CreateProductoServicio | Backend/Controllers/ProductosServiciosController.cs:256-318 | A null or empty name answers 400 first. A non-storable item with positive quantity answers 400 second. Otherwise exactly one item with the given fields is added, and an upload adds one active image row with the item's route. |
| Productos.UploadImage | Backend/Controllers/ProductosServiciosController.cs:369-435 | After an upload the item's first active image carries the new route. An existing active row is rewritten in place; otherwise one row is appended and nothing else moves. |
| Productos.NullRouteShown | Backend/Controllers/ProductosServiciosController.cs:383-391 | The item's current active image has no route, so reading it to delete the old file throws and the update answers 500. |
| Productos.UpdateProductoServicio | Backend/Controllers/ProductosServiciosController.cs:323-449 | Checks run in order: id mismatch 400, missing id 404, stock rule 400, then a null stored route answers 500. On success exactly the five editable fields change, the id and other items stay, and there is no name check. |
| Productos.HasNullRoute | Backend/Controllers/ProductosServiciosController.cs:476-486 | Some image row of the item has no route, so building its file path throws and the delete answers 500. |
| Productos.RemoveProductoServicio | Backend/Controllers/ProductosServiciosController.cs:454-536 | 404 when absent, 400 while a line item references it, 500 when a catalog image has no route or the folder cannot be removed. Otherwise the item and exactly its catalog images go, the other images keep their order, and every other item still shows the same image route. |
| Productos.ImageIndex | Backend/Controllers/ProductosServiciosController.cs:543 | Finds the row with the image id, or reports that none has it. |
| Productos.RemoveImagen | Backend/Controllers/ProductosServiciosController.cs:541-573 | 404 exactly when no row has the id. 500 when the row has no route. Otherwise exactly the first row with that id is removed from its position, and the other rows keep their order. |
| Productos.FindImagen | Backend/Controllers/ProductosServiciosController.cs:578-596 | 404 exactly when the item has no active catalog image or its route is null or empty. Otherwise 500 with no body: the served path is relative, and `PhysicalFile` refuses a path that is not rooted. |
| Productos.ServedPath | Backend/Controllers/ProductosServiciosController.cs:595 | `Path.Combine("wwwroot", route.TrimStart('/'))` starts with "wwwroot" and is never rooted; a route with something left after the slashes is joined with one separator. |
| Productos.ServedPathOfImageRoute | Backend/Controllers/ProductosServiciosController.cs:595 | For a route the upload writes, the served path is "wwwroot" followed by the route. |
| Productos.FindAfterCreate | Backend/Controllers/ProductosServiciosController.cs:227-318 | A created item reads back under its key with the fields sent, and with the uploaded image exactly when there was an upload, provided no image row already pointed at that key. |
| Productos.FindImagenAfterUpdate | Backend/Controllers/ProductosServiciosController.cs:578-596 | After an update with an upload the image endpoint finds the new route and answers 500. |
| Productos.GetProductosAlmacenables | Backend/Controllers/ProductosServiciosController.cs:22-24 | GET almacenables answers 401 without a principal and 403 for a principal holding neither role, before the action runs and without touching the store; an administrator or barber gets the action's answer. |
| Productos.GetProductosNoAlmacenables | Backend/Controllers/ProductosServiciosController.cs:139-141 | GET noAlmacenables answers 401 without a principal and 403 for a principal holding neither role, before the action runs and without touching the store; an administrator or barber gets the action's answer. |
| Productos.Gate | Backend/Controllers/ProductosServiciosController.cs:255 | `[Authorize(Roles = …)]` in front of a write (lines 255, 322, 453 and 540): an allowed user gets the action's answer; otherwise the filter's 401 or 403 with the store untouched. |
| Productos.GateRead | Backend/Controllers/ProductosServiciosController.cs:23 | `[Authorize(Roles = …)]` in front of a read (lines 23, 140, 226 and 577): an allowed user gets the action's answer; otherwise the filter's 401 or 403 without a body. |
| Productos.GetProductoServicio | Backend/Controllers/ProductosServiciosController.cs:225-227 | GET by id answers 401 without a principal and 403 for a principal holding neither role, before the action runs and without touching the store; an administrator or barber gets the action's answer. |
| Productos.PostProductoServicio | Backend/Controllers/ProductosServiciosController.cs:254-256 | POST answers 401 without a principal and 403 for a principal holding neither role, before the action runs and without touching the store; an administrator or barber gets the action's answer. |
| Productos.PutProductoServicio | Backend/Controllers/ProductosServiciosController.cs:321-323 | PUT answers 401 without a principal and 403 for a principal holding neither role, before the action runs and without touching the store; an administrator or barber gets the action's answer. |
| Productos.DeleteProductoServicio | Backend/Controllers/ProductosServiciosController.cs:452-454 | DELETE of an item answers 401 without a principal and 403 for a principal that is not an administrator, without touching the store; an administrator gets the action's answer. |
| Productos.DeleteImagen | Backend/Controllers/ProductosServiciosController.cs:539-541 | DELETE of an image answers 401 without a principal and 403 for a principal that is not an administrator, without touching the store; an administrator gets the action's answer. |
| Productos.GetImagen | Backend/Controllers/ProductosServiciosController.cs:576-578 | GET image answers 401 without a principal and 403 for a principal holding neither role, before the action runs and without touching the store; an administrator or barber gets the action's answer. |
| Productos.LoginTokenLockedOut | Backend/Controllers/ProductosServiciosController.cs:23 | If a login token were accepted as a principal, its numeric role would get 403 from all eight catalog endpoints, with the store unchanged, whatever the request. |
| Claims.FindFirst | backend/Extensions/ClaimsPrincipalExtensions.cs:12 | `FindFirst`: the value of the first claim of the kind, or none exactly when no claim has it. |
| Claims.GetUserId | backend/Extensions/ClaimsPrincipalExtensions.cs:7-20 | Null for a null principal or a missing id claim. Otherwise exactly the parse of the first id claim's text as a 32-bit integer, null when it does not parse. |
| Claims.GetUserRole | backend/Extensions/ClaimsPrincipalExtensions.cs:22-28 | Null exactly for a null principal or one without a role claim; otherwise the first role claim's text, unchanged. |
| Claims.NonNumericIdIsNull | backend/Extensions/ClaimsPrincipalExtensions.cs:16-19 | An id claim that does not parse gives a null user id. |
| Claims.UserIdRoundTrip | backend/Extensions/ClaimsPrincipalExtensions.cs:12-17 | An id written with `ToString()` reads back as the same id. |
| Claims.InAnyRole | Backend/Controllers/ProductosServiciosController.cs:23 | `[Authorize(Roles = …)]` admits claims exactly when some role claim carries one of the listed role names, compared ordinally; an empty list admits nobody. |
| Claims.Refusal | Backend/Controllers/ProductosServiciosController.cs:23 | The authorization filter answers 401 exactly without a principal, 403 exactly for a principal with none of the roles, and lets the action run exactly when the principal holds a listed role. |
| Claims.AdminPassesBoth | Backend/Controllers/ProductosServiciosController.cs:453 | An administrator role claim passes both the reads-and-writes list and the deletes list. |
| Claims.BarberRefusedDeletes | Backend/Controllers/ProductosServiciosController.cs:453 | A barber without an administrator claim passes the reads and writes but is refused the deletes with 403. |
| Auth.TokenClaims | Backend/Controllers/AuthController.cs:101-107 | The token's id claim is the decimal text of the user id, its email claim the email or "", and its role claim the decimal text of the role id; there are no other claims. |
| Auth.WithEmail | Backend/Controllers/AuthController.cs:43-45 | The lookup sees exactly the users with that email, active or not. |
| Auth.Accepts | Backend/Controllers/AuthController.cs:48-50 | The password check fails for a null or empty stored hash and otherwise holds exactly when the verifier returns true for the password against the hash. |
| Auth.VerifyThrows | Backend/Controllers/AuthController.cs:83-85 | The verifier is reached, because the stored hash is not empty, and `BCrypt.Verify` throws on it. |
| Auth.SingleWithEmail | Backend/Controllers/AuthController.cs:43-45 | `SingleOrDefault`: no user, the single user with the email, or a failure when more than one shares it. |
| Auth.Answer | Backend/Controllers/AuthController.cs:47-86 | 500 with no body exactly when the hash is non-empty and the verifier throws on it. Otherwise a missing hash or a failed verification answers the fixed 401, and success answers 200 with a signed token of the user's claims, expiring three hours after now, and a summary of id, name, email and role id. |
| Auth.Login | Backend/Controllers/AuthController.cs:29-86 | A missing email or password answers 400 before any lookup, and a server error happens exactly when the email is duplicated or the one user's stored hash makes the verifier throw. Every credential failure gets the same 401 body. Success answers the matched user's token and summary. |
| Auth.FailuresIndistinguishable | Backend/Controllers/AuthController.cs:47-61 | Any two logins failing the credential check (unknown email, no stored hash, wrong password) produce identical responses. |
| Auth.MalformedHashIsServerError | Backend/Controllers/AuthController.cs:47-86 | A unique user whose stored hash makes the verifier throw gets 500 with no body on every login attempt, which sets this case apart from the 401 failures. |
| Auth.InactiveUserLogsIn | Backend/Controllers/AuthController.cs:43-50 | An inactive user with the right password logs in. |
| Auth.LoginIdRoundTrip | Backend/Controllers/AuthController.cs:104 | The user id a successful login writes into its token is read back by `GetUserId` as the summary's id. |
| Auth.LoginTokenHasNoRoleName | Backend/Controllers/AuthController.cs:106 | No login token is in the "Administrador,Barbero" or "Administrador" role lists, because its role claim is a number. |
| Auth.TokenRoleIsRoleId | Backend/Controllers/AuthController.cs:106 | Reading the role back from a login token gives the decimal text of the user's role id. |
| Auth.TokenExpiresInThreeHours | Backend/Controllers/AuthController.cs:109 | A successful login's token expires exactly three hours after it is issued. |
| Venta.Subtotal | backend/Dtos/VentaDto.cs:21 | A line's subtotal is non-negative for non-negative inputs, zero when either factor is zero, and the unit price for a quantity of one. |
| Venta.SubtotalAdditive | backend/Dtos/VentaDto.cs:21 | Splitting a line's quantity in two splits its subtotal into the two parts' subtotals. |
| Venta.SubtotalIsRepeatedPrice | backend/Dtos/VentaDto.cs:21 | A line of n units costs the sum of n one-unit lines of the same product and price. |
| Venta.Sum | backend/Dtos/VentaDto.cs:10 | One line sums to its subtotal, and lines with zero subtotals sum to zero. |
| Venta.TotalVenta | backend/Dtos/VentaDto.cs:9-10 | A sale without lines totals zero, and non-negative lines give a non-negative total. |
| Venta.NewVenta | backend/Dtos/VentaDto.cs:6-12 | A new sale has no lines, no payment, and a total of zero. |
| Venta.SumAppend | backend/Dtos/VentaDto.cs:10 | The sum of concatenated line lists is the sum of their sums. |
| Venta.AppendLine | backend/Dtos/VentaDto.cs:10 | Appending a line raises the total by exactly its subtotal. |
| Venta.SumPermutation | backend/Dtos/VentaDto.cs:10 | Reordering the lines does not change their sum. |
| Venta.TotalIgnoresOrder | backend/Dtos/VentaDto.cs:9-10 | Two sales whose lines are permutations of each other have the same total. |
| Venta.TotalIgnoresPago | backend/Dtos/VentaDto.cs:6-12 | The total depends on the lines only, not on the payment, customer name or date. |
| Venta.SumNonNegative | backend/Dtos/VentaDto.cs:10 | With non-negative quantities and prices the total is non-negative. |
| Integrity.KeptParents | Backend/Controllers/DetalleAtencionController.cs:81-108 | Growing the parent tables while the line items stay the same keeps every reference resolving. |
| Integrity.PostAtencionPreserves | Backend/Controllers/AtencionController.cs:78-106 | Creating an attendance from a body without nested line items keeps every line item's references resolving. |
| Integrity.PutAtencionPreserves | Backend/Controllers/AtencionController.cs:109-153 | Updating an attendance keeps every line item's references resolving. |
| Integrity.DeleteAtencionPreserves | Backend/Controllers/AtencionController.cs:173-193 | The delete guard keeps every line item's attendance present. |
| Integrity.PostThenDeleteAtencion | Backend/Controllers/AtencionController.cs:156-204 | An attendance created from a body without nested line items has none, and deleting it restores the store exactly. |
| Integrity.DeleteTurnoPreserves | Backend/Controllers/TurnosController.cs:174-194 | The slot delete guard keeps every booked attendance's slot present. |
| Integrity.PutTurnoPreserves | Backend/Controllers/TurnosController.cs:110-154 | A slot update keeps every slot key, so every booked attendance's slot is still present. |
| Integrity.PostThenDeleteTurno | Backend/Controllers/TurnosController.cs:158-204 | Deleting a freshly created slot restores the store exactly. |
| Integrity.PostAtencionSkipsSlotCheck | Backend/Controllers/AtencionController.cs:80-93 | The controller's checks accept an attendance booked on a slot that does not exist. |
| Integrity.PostDetallePreserves | Backend/Controllers/DetalleAtencionController.cs:81-108 | Creating a line item keeps every reference resolving, because both parents are checked. |
| Integrity.DeleteDetallePreserves | Backend/Controllers/DetalleAtencionController.cs:175-245 | Deleting a line item keeps every reference resolving. |
| Integrity.DeleteDetalleParentsPresent | Backend/Controllers/DetalleAtencionController.cs:190-235 | While references resolve, the delete's parent checks never refuse: a present line item is always deleted. |
| Integrity.PostThenDeleteDetalle | Backend/Controllers/DetalleAtencionController.cs:175-245 | Deleting a freshly created line item restores the store exactly. |
| Integrity.PutDetalleBreaksIntegrity | Backend/Controllers/DetalleAtencionController.cs:127-141 | The controller's checks accept an update pointing a line item at a missing attendance, breaking the reference invariant. |
| Integrity.PostProductoPreserves | Backend/Controllers/ProductosServiciosController.cs:256-318 | Creating a catalog item keeps every reference resolving. |
| Integrity.PutProductoPreserves | Backend/Controllers/ProductosServiciosController.cs:323-449 | Updating a catalog item keeps every reference resolving. |
| Integrity.DeleteProductoPreserves | Backend/Controllers/ProductosServiciosController.cs:464-525 | The catalog delete guard keeps every line item's catalog item present. |
| Integrity.PostThenDeleteProducto | Backend/Controllers/ProductosServiciosController.cs:454-536 | Deleting a freshly created item without an upload restores the store exactly. |
| Integrity.DeleteImagenPreserves | Backend/Controllers/ProductosServiciosController.cs:541-573 | Deleting an image keeps every reference resolving. |
| Integrity.UserWritesPreserve | Backend/Controllers/UsuariosController.cs:78-178 | User create, update and logical delete touch neither invariant. |
| JsObjects.Get | frontend/src/services/UsuarioService.js:35-38 | Reading a property gives its value, or undefined when absent. |
| JsObjects.Prop | frontend/src/services/auth.service.js:41 | Reading a property of a non-object gives undefined. |
| JsObjects.Coalesce | frontend/src/services/UsuarioService.js:39 | `??` gives the default exactly for null and undefined. |
| JsObjects.DefaultParam | frontend/src/services/UsuarioService.js:20 | A default parameter replaces undefined and keeps every other value, null included. |
| JsObjects.DefaultParamVsCoalesce | frontend/src/services/UsuarioService.js:20 | A default parameter agrees with `??` exactly unless the value is null and the default is not: it keeps the null. |
| JsObjects.Spread | frontend/src/services/UsuarioService.js:21-25 | `{...a, ...b}` has the keys of both, and a later object's value wins. |
| UsuarioService.QueryParams | frontend/src/services/UsuarioService.js:20-25 | The parameters are page and pageSize, defaulting to 1 and 10, plus every filter, and a filter wins over the arguments. |
| UsuarioService.FilterOverridesPage | frontend/src/services/UsuarioService.js:20-25 | With a `page` filter the page argument has no effect. |
| UsuarioService.UserPayload | frontend/src/services/UsuarioService.js:34-40 | The user payload has exactly five fields, copied from the input, with system access defaulting to false. |
| UsuarioService.CrearUsuario | frontend/src/services/UsuarioService.js:33-47 | A password is sent exactly when both system access and password are truthy; system access is false when null or undefined. |
| UsuarioService.ActualizarUsuario | frontend/src/services/UsuarioService.js:48-58 | An update sends exactly the five user fields, copying name, email, phone and role id and defaulting system access to false for null or undefined, and never a password or an `activo` field. |
| UsuarioService.CrearIsActualizarPlusPassword | frontend/src/services/UsuarioService.js:33-58 | The create body without its password is the update body, and the two are equal when no password is sent. |
| UsuarioService.CrearCliente | frontend/src/services/UsuarioService.js:83-93 | A customer is always sent with role 3, no system access and no password. |
| UsuarioService.ActualizarCliente | frontend/src/services/UsuarioService.js:95-106 | A customer update forces role 3 and no system access, passes `activo` through, and sends no password. |
| UsuarioService.CrearClienteIgnoresOtherFields | frontend/src/services/UsuarioService.js:83-93 | The create payload depends only on name, email and phone. |
| ClienteService.GetClientesParams | frontend/src/services/ClienteService.js:24-32 | page and pageSize default to 1 and 10 for undefined, every filter is passed through, and a filter of either name overrides the argument. |
| ClienteService.CrearCliente | frontend/src/services/ClienteService.js:38-50 | Sends exactly name, email, phone, role 3 and no system access. |
| ClienteService.ActualizarCliente | frontend/src/services/ClienteService.js:52-64 | Sends the same five fields with role 3 and no system access, and no `activo` field. |
| ClienteService.PayloadsIgnoreOtherFields | frontend/src/services/ClienteService.js:38-59 | Neither payload carries a password, and both depend only on name, email and phone. |
| ClienteService.UpdatesDifferOnlyInActivo | frontend/src/services/ClienteService.js:38-64 | The customer update sends exactly the create body, and the user service's customer update is that body plus `activo`. |
| ClienteService.ClientesParamsAreUserParams | frontend/src/services/ClienteService.js:24-32 | The customer listing's query parameters are the user listing's for the same arguments. |
| Session.GetItem | frontend/src/services/auth.service.js:26-28 | `getItem` gives the stored string, or null when the key is absent. |
| Session.Remember | frontend/src/services/auth.service.js:11-12 | After login the token and user keys hold the new values, and other keys are unchanged. |
| Session.Logout | frontend/src/services/auth.service.js:20-24 | Logout removes the token and user keys and nothing else. |
| Session.IsAuthenticated | frontend/src/services/auth.service.js:35-37 | Authenticated exactly when a non-empty token is stored. |
| Session.LogoutEndsSession | frontend/src/services/auth.service.js:20-24 | After logout no session is authenticated. |
| Session.RememberStartsSession | frontend/src/services/auth.service.js:11-12 | Storing a non-empty token after login authenticates the session. |
| Session.GetUser | frontend/src/services/auth.service.js:30-33 | Null when no user (or an empty string) is stored; otherwise the parsed value, or the parse error. |
| Session.GetUserAfterRemember | frontend/src/services/auth.service.js:11-33 | After a login stores the user text, reading the user gives its parse, the parse error, or null for the empty string. |
| Session.IsRole | frontend/src/services/auth.service.js:39-42 | Throws exactly when reading the user throws. A falsy user is returned as is (null without a stored user). Otherwise true exactly when the user's `rol` strictly equals the role and false when it does not. |
| Session.IsRoleNeverHolds | frontend/src/services/auth.service.js:39-42 | For a stored login summary, which has no `rol` field, the role check is false for any defined role. |
| Router.Normalize | frontend/src/router/index.js:12-53 | The matcher sees the path lower-cased character by character, with one trailing slash dropped unless the path is just "/". |
| Router.NormalizeIgnoresTrailingSlash | frontend/src/router/index.js:12-53 | Appending one slash to a path that does not end in one does not change what the matcher sees. |
| Router.NormalizeIgnoresCase | frontend/src/router/index.js:12-53 | Lower-casing a path first does not change what the matcher sees. |
| Router.Matches | frontend/src/router/index.js:12-53 | The catch-all matches every path; a static path matches only paths of its length or one longer; a parameter route only paths longer than its prefix. |
| Router.FirstMatch | frontend/src/router/index.js:12-53 | The first record in table order that matches the path. The catch-all guarantees one exists. |
| Router.MatchRecord | frontend/src/router/index.js:12-53 | Every path matches some record of the table. |
| Router.Resolve | frontend/src/router/index.js:49-52 | Redirect records are followed to the login page; other paths stay as typed with their record. |
| Router.Guard | frontend/src/router/index.js:61-72 | Redirect to login exactly for a protected target without a session. Redirect to the dashboard exactly for "/login" with a session. Proceed otherwise. |
| Router.Navigate | frontend/src/router/index.js:61-72 | A navigation goes to the login page exactly for a protected route without a session, and to the dashboard exactly with a session on "/login" as typed or on a redirect record; it never redirects anywhere else. |
| Router.UnknownPathsGoToLogin | frontend/src/router/index.js:49-52 | The root path and every path only the catch-all matches land on the login page. |
| Router.NamedRoutesProtected | frontend/src/router/index.js:19-48 | Every named route except Login requires authentication, and only redirect records are unnamed. |
| Router.GuardFixedPoint | frontend/src/router/index.js:61-71 | Navigating to the guard's redirect target with the same session always proceeds. |
| Router.NavigationSettles | frontend/src/router/index.js:61-71 | Every navigation proceeds after at most one guard redirect. |
| Router.LoginSpellingBypassesGuard | frontend/src/router/index.js:67 | "/LOGIN" matches the login record, but a logged-in user is not sent to the dashboard, because the guard compares the path as typed. |

## Left out

- File-system image handling is not modelled. This covers creating and deleting folders, writing and deleting files, and GUID file names. The file name is an input, and a failing folder delete is a boolean input. Only the route strings, the image rows and the served path's rooting are modelled.
- Productos.IsPathRooted, Productos.FindImagen, Productos.GetImagen: rooting follows a Unix host, where only a leading '/' roots a path. A Windows host also roots a drive-letter or backslash path; no route the upload writes has either form after its slashes are trimmed, so those routes fail the same way there.
- The catalog create saves twice, the item before its image; the update saves once. Each is modelled as one atomic step.
- EF Core change tracking is not modelled.
- Atenciones.PostAtencion, Integrity.PostAtencionPreserves, Integrity.PostThenDeleteAtencion: an attendance is modelled without its navigations. `_context.Atencion.Add` (Backend/Controllers/AtencionController.cs:95) also inserts any nested line items, payment and users the body carries (Backend/Models/Atencion.cs:29-34). Those rows, and line items with dangling catalog references among them, are not modelled. The three members hold for a body without nested entities.
- Concurrency failures are a boolean input to `Store.SaveUpdate`. A failing `SaveChanges` on create or delete is not modelled, except that an insert under an explicit key already in the table answers 500.
- Models.AtencionErrors, Atenciones.PostAtencion, Atenciones.PutAtencion: the implicit `[Required]` that a nullable-enabled project adds to the non-nullable navigations `Cliente` and `Barbero` (Backend/Models/Atencion.cs:29-30) is not modelled, because the project file that decides the nullable context is not part of this model; the model treats the navigations as unvalidated.
- Atenciones.GetAtenciones, Turnos.GetTurnos, Detalles.GetDetallesAtencion, Usuarios.GetUsuarios, Productos.ListAlmacenables, Productos.ListNoAlmacenables, Productos.GetProductosAlmacenables, Productos.GetProductosNoAlmacenables: these require `page >= 1` and `pageSize >= 1`. A zero page size makes the source's floating-point ceiling meaningless, and a negative offset is left to the database.
- `(page - 1) * pageSize`, the 32-bit id and quantity arithmetic, and `decimal` overflow are not modelled. Integers are unbounded, and amounts are whole cents: the half-to-even rounding of `[Range(0, 10000)]` is modelled at cent precision, so a sub-cent amount such as -0.505 is not representable.
- Text.Lower lowers ASCII letters only. Culture-aware lower casing is not modelled.
- Text.StrLeTotal and Text.StrLeTrans: the database's collation is not modelled. Strings sort by ordinal order.
- Auth.WithEmail, Auth.SingleWithEmail, Auth.Login: emails compare ordinally. MySQL's default case-insensitive collation, which would also match different letter case, is not modelled.
- Productos.MatchesFilters, Productos.ListAlmacenables, Productos.GetProductosAlmacenables: the name and description filters are ordinal substring matches. Run by the database under its default case-insensitive collation they would also match different letter case; that collation is not modelled.
- NumberText.TryParseInt32 follows the integer number styles with the invariant culture: white space is tab to carriage return and the space, signs are '+' and '-', digits are ASCII. Other cultures' signs and digits, and thousands separators, are not modelled.
- Password verification and token signing are opaque function parameters. They stand in for BCrypt and JWT creation and serialisation. The verifier answers `None` where `BCrypt.Verify` throws. The signing key and algorithm are not modelled.
- `Usuario.passwordHash`: the user model file has no password-hash property, but the login reads `usuario.PasswordHash` (Backend/Controllers/AuthController.cs:49-50), so the model adds that field as the column the login reads.
- JWT validation is not modelled: a principal is the claim list of an already validated token, or none. `Program.cs` is not modelled either: dependency injection, CORS, Swagger, logging, middleware and the weather-forecast sample.
- Productos.LoginTokenLockedOut: the lemma assumes the login's token became a principal. `GenerateJwtToken` (Backend/Controllers/AuthController.cs:99-114) sets no issuer and no audience, while Backend/Program.cs:121-124 validates both, so a real login token is rejected and the catalog answers 401, not 403.
- Backend/Models/Rol.cs is not part of this model. Role names appear only as the strings in the role lists.
- The `Turno` model file is not part of this model. A slot is its id and date-time, the only fields the controller reads.
- The DTO classes the catalog endpoints bind are not part of this model. Their fields are taken from the controller's uses; no validation is assumed beyond what the controller checks.
- `ApplicationDbContext` is not modelled; it only maps tables.
- Detalles.PutDetalleAtencion, Atenciones.PutAtencion, Integrity.PutDetalleBreaksIntegrity, Integrity.PostAtencionSkipsSlotCheck: the database schema, and so any foreign-key constraint that would make a save with a dangling reference fail, is not part of this model. These members state what the controllers check; a schema with those constraints would answer 500 where they show a dangling reference being stored.
- Listing.OrderedPagesCoverRows, Atenciones.EveryAtencionListed, Turnos.EveryTurnoListed, Detalles.EveryDetalleListed, Productos.CatalogListingCovers, Productos.EveryStorableMatchListed, Productos.EveryServiceListed: coverage is proved for pages cut from one sorting of the rows. `OrderBy` does not fix the order of rows that tie on the sort key, so separate page requests may cut from different sortings and skip a tied row. Listing.ContractPagesCoverRows proves coverage for per-request sortings when no two rows tie.
- Usuarios.EveryActiveUserListed: coverage is proved for pages cut from one enumeration of the table. The user listing has no `OrderBy`, so separate page requests may see the rows in different orders.
- The client's HTTP calls are not modelled. This covers axios, interceptors, `window.location` navigation, `auth.service.login`'s request, `getUsuario`, `eliminarUsuario` and `cambiarEstado`. The storage writes after a login response are modelled as `Session.Remember`.
- The frontend files `main.js`, `api.js`, `router/router.js`, `ProductoServicioService.js` and `VentaService.js` are not modelled; they are plumbing or pass-through calls.
- `URLSearchParams` turning values into text, and JSON serialisation dropping undefined fields, are not modelled. The payloads are the objects before serialisation.
- Router.Normalize covers only what the route table needs from the router's matcher: letter case and one trailing slash. The router's ranking is replaced by table order; no two non-catch-all patterns overlap.

=== FILE: atenciones.dfy ===
/** `api/atencion`: listing ordered by date, get by id, create with the
    date check, update by id, and delete guarded by the line items. */
module Atenciones {
  import opened Wrappers
  import opened Seqs
  import opened Pagination
  import opened Listing
  import opened Models
  import opened Store
  import NumberText

  /** `OrderBy(a => a.Fecha)`. */
  predicate FechaLe(a: Atencion, b: Atencion) {
    a.fecha <= b.fecha
  }

  lemma FechaLeIsPreorder()
    ensures TotalPreorder(FechaLe)
  {
  }

  /** GET api/atencion: one page of all attendances, oldest first; the
      total is the size of the whole table. */
  function GetAtenciones(db: Db, scan: seq<int>, page: int, pageSize: int): (r: Paged<Atencion>)
    requires Enumerates(scan, db.atenciones) && page >= 1 && pageSize >= 1
    ensures r.info.total == |db.atenciones|
    ensures r.info.totalPages == CeilDiv(|db.atenciones|, pageSize)
    ensures |r.items| <= pageSize
    ensures SortedBy(r.items, FechaLe)
    ensures forall a :: a in r.items ==> InTable(a, db.atenciones)
    ensures r.info.currentPage == page && r.info.pageSize == pageSize
    ensures exists s :: IsSortingOf(s, Rows(db.atenciones, scan), FechaLe) && r.items == Page(s, page, pageSize)
  {
    EnumerationSize(db.atenciones, scan);
    RowsAreTableRows(db.atenciones, scan);
    FechaLeIsPreorder();
    OrderedPage(Rows(db.atenciones, scan), FechaLe, page, pageSize)
  }

  /** Paging through `1 .. totalPages` shows every attendance in the table. */
  lemma EveryAtencionListed(db: Db, scan: seq<int>, pageSize: int, a: Atencion)
    requires Enumerates(scan, db.atenciones) && pageSize >= 1 && InTable(a, db.atenciones)
    ensures exists page :: 1 <= page <= CeilDiv(|db.atenciones|, pageSize) && a in GetAtenciones(db, scan, page, pageSize).items
  {
    var rows := Rows(db.atenciones, scan);
    RowsCoverTable(db.atenciones, scan);
    EnumerationSize(db.atenciones, scan);
    FechaLeIsPreorder();
    OrderedPagesCoverRows(rows, FechaLe, pageSize, a);
    var page :| 1 <= page <= CeilDiv(|rows|, pageSize) && a in OrderedPage(rows, FechaLe, page, pageSize).items;
    assert GetAtenciones(db, scan, page, pageSize) == OrderedPage(rows, FechaLe, page, pageSize);
  }

  /** GET api/atencion/{id}. */
  function GetAtencion(db: Db, id: int): (r: (Status, Option<Atencion>))
    ensures r.0 == Ok <==> id in db.atenciones
    ensures r.0 == Ok ==> r.1 == Some(db.atenciones[id])
  {
    Find(db.atenciones, id)
  }

  /** Some line item points at attendance `id`. */
  predicate HasDetalleFor(db: Db, id: int) {
    exists k :: k in db.detalles && db.detalles[k].atencionId == id
  }

  /** POST api/atencion. The row is stored under `InsertKey(a.id, newId)`,
      where `newId` is the key the database would generate; an explicit id
      that is already taken makes the insert throw, and so does validation
      when the total rounds outside `int`. Only the annotations and the date
      are checked: customer, staff, slot and total are stored as sent. The
      attendance is the row alone, without nested navigations. */
  function PostAtencion(db: Db, a: Atencion, newId: int): (r: Response)
    requires newId !in db.atenciones
    ensures r.status == Created <==>
      AtencionErrors(a) == {} && a.fecha != DefaultDate && InsertKey(a.id, newId) !in db.atenciones
    ensures r.status == BadRequest(MissingFecha) <==> AtencionErrors(a) == {} && a.fecha == DefaultDate
    ensures r.status == ServerError <==>
      || AtencionValidationThrows(a)
      || (AtencionErrors(a) == {} && a.fecha != DefaultDate && InsertKey(a.id, newId) in db.atenciones)
    ensures r.status != Created ==> r.db == db
    ensures r.status == Created ==> var key := InsertKey(a.id, newId);
      && r.db.atenciones.Keys == db.atenciones.Keys + {key}
      && r.db.atenciones[key] == a.(id := key)
      && (forall k :: k in db.atenciones ==> r.db.atenciones[k] == db.atenciones[k])
      && r.db.(atenciones := db.atenciones) == db
  {
    var errs := AtencionErrors(a);
    var key := InsertKey(a.id, newId);
    if AtencionValidationThrows(a) then Response(ServerError, db)
    else if errs != {} then Response(BadRequest(InvalidModel(errs)), db)
    else if a.fecha == DefaultDate then Response(BadRequest(MissingFecha), db)
    else if key in db.atenciones then Response(ServerError, db)
    else Response(Created, db.(atenciones := db.atenciones[key := a.(id := key)]))
  }

  /** A total of -0.01 rounds to zero, so `[Range(0, 10000)]` lets it
      through and the attendance is created. */
  lemma NegativeCentTotalCreated(db: Db, a: Atencion, newId: int)
    requires newId !in db.atenciones && InsertKey(a.id, newId) !in db.atenciones
    requires a.total == -1 && a.fecha != DefaultDate
    ensures PostAtencion(db, a, newId).status == Created
  {
  }

  /** A total of 2147483647.50 rounds past `int.MaxValue`: validation
      throws, the request fails with 500 and nothing is stored. */
  lemma OverflowingTotalIsServerError(db: Db, a: Atencion, newId: int)
    requires newId !in db.atenciones
    requires a.total == NumberText.Int32Max * Cents + Cents / 2
    ensures PostAtencion(db, a, newId) == Response(ServerError, db)
  {
  }

  /** PUT api/atencion/{id}: the body replaces the stored row. */
  function PutAtencion(db: Db, id: int, a: Atencion, saveFails: bool): (r: Response)
    ensures AtencionValidationThrows(a) ==> r.status == ServerError && r.db == db
    ensures !AtencionValidationThrows(a) && id != a.id ==> r.status.BadRequest? && r.db == db
    ensures r.status == Ok <==> AtencionErrors(a) == {} && id == a.id && id in db.atenciones && !saveFails
    ensures r.status == NotFound <==> AtencionErrors(a) == {} && id == a.id && id !in db.atenciones
    ensures r.status == Ok ==>
      && r.db.atenciones.Keys == db.atenciones.Keys
      && r.db.atenciones[id] == a
      && r.db.(atenciones := db.atenciones) == db
    ensures r.status != Ok ==> r.db == db
  {
    var errs := AtencionErrors(a);
    if AtencionValidationThrows(a) then Response(ServerError, db)
    else if errs != {} then Response(BadRequest(InvalidModel(errs)), db)
    else if id != a.id then Response(BadRequest(IdMismatch), db)
    else
      var (st, m) := SaveUpdate(db.atenciones, id, a, saveFails);
      Response(st, db.(atenciones := m))
  }

  /** DELETE api/atencion/{id}: refused while a line item references it. */
  function DeleteAtencion(db: Db, id: int): (r: Response)
    ensures r.status == NotFound <==> id !in db.atenciones
    ensures r.status == BadRequest(Referenced("DetalleAtencion")) <==> id in db.atenciones && HasDetalleFor(db, id)
    ensures r.status == Ok <==> id in db.atenciones && !HasDetalleFor(db, id)
    ensures r.status != Ok ==> r.db == db
    ensures r.status == Ok ==>
      && r.db.atenciones.Keys == db.atenciones.Keys - {id}
      && (forall k :: k in r.db.atenciones ==> r.db.atenciones[k] == db.atenciones[k])
      && r.db.(atenciones := db.atenciones) == db
  {
    if id !in db.atenciones then Response(NotFound, db)
    else if HasDetalleFor(db, id) then Response(BadRequest(Referenced("DetalleAtencion")), db)
    else Response(Ok, db.(atenciones := db.atenciones - {id}))
  }

  /** A created attendance reads back under its key as stored. */
  lemma GetAfterPost(db: Db, a: Atencion, newId: int)
    requires newId !in db.atenciones && PostAtencion(db, a, newId).status == Created
    ensures var key := InsertKey(a.id, newId);
      GetAtencion(PostAtencion(db, a, newId).db, key) == (Ok, Some(a.(id := key)))
  {
  }

  /** A successful update reads back as the body sent. */
  lemma GetAfterPut(db: Db, id: int, a: Atencion, saveFails: bool)
    requires PutAtencion(db, id, a, saveFails).status == Ok
    ensures GetAtencion(PutAtencion(db, id, a, saveFails).db, id) == (Ok, Some(a))
  {
  }
}

=== FILE: auth.dfy ===
/** `POST api/auth/login` and the token it mints. Password hashing and token
    signing are foreign libraries: `verify` and `sign` stand for them.
    `verify` answers `None` where `BCrypt.Verify` throws, which it does on
    a stored hash that is not a well-formed BCrypt string. */
module Auth {
  import opened Wrappers
  import opened Text
  import opened NumberText
  import opened Seqs
  import opened Listing
  import opened Models
  import opened Store
  import opened Claims

  datatype LoginRequest = LoginRequest(email: Option<string>, password: Option<string>)

  /** The user summary of a successful login (keys `id`, `nombre`, `email`,
      `rolId` once serialised). */
  datatype UserSummary = UserSummary(id: int, nombre: Option<string>, email: Option<string>, rolId: int)

  /** What `GenerateJwtToken` puts into the token before signing it. */
  datatype TokenContent = TokenContent(claims: seq<Claim>, expires: int)

  datatype LoginBody =
    | ErrorBody(status: int, error: string, message: string)
    | Success(token: string, content: TokenContent, usuario: UserSummary)

  datatype LoginResponse = LoginResponse(status: Status, body: Option<LoginBody>)

  const InvalidCredentials: LoginBody :=
    ErrorBody(401, "Unauthorized", "Email o contraseña incorrectos.")

  const TokenLifetime: int := 3 * TicksPerHour

  /** The claim set of `GenerateJwtToken`: decimal id, email or "", decimal
      role id. */
  function TokenClaims(u: Usuario): (r: seq<Claim>)
    ensures FindFirst(r, NameIdentifier) == Some(IntToText(u.id))
    ensures FindFirst(r, Email) == Some(u.email.GetOr(""))
    ensures FindFirst(r, Role) == Some(IntToText(u.rolId))
    ensures forall i :: 0 <= i < |r| ==> r[i].kind in {NameIdentifier, Email, Role}
  {
    var r := [Claim(NameIdentifier, IntToText(u.id)), Claim(Email, u.email.GetOr("")), Claim(Role, IntToText(u.rolId))];
    assert r[1..][1..] == [r[2]];
    r
  }

  /** `u => u.Email == email`. */
  function HasEmail(email: string): Usuario -> bool {
    (u: Usuario) => u.email == Some(email)
  }

  /** The number of users registered under `email`. */
  function EmailCount(db: Db, email: string): nat {
    |KeysWhere(db.usuarios, HasEmail(email))|
  }

  /** The users whose email equals `email`, in enumeration order. */
  function WithEmail(db: Db, scan: seq<int>, email: string): (r: seq<Usuario>)
    requires Enumerates(scan, db.usuarios)
    ensures |r| == EmailCount(db, email)
    ensures forall u :: u in r <==> InTable(u, db.usuarios) && HasEmail(email)(u)
  {
    CountIsTableCount(db.usuarios, scan, HasEmail(email));
    FilteredRows(db.usuarios, scan, HasEmail(email));
    Filter(Rows(db.usuarios, scan), HasEmail(email))
  }

  /** The password check of the login, given the user the email found. */
  function Accepts(u: Usuario, password: string, verify: (string, string) -> Option<bool>): (r: bool)
    ensures u.passwordHash.None? || u.passwordHash == Some("") ==> !r
    ensures u.passwordHash.Some? && u.passwordHash.value != "" ==>
      (r <==> verify(password, u.passwordHash.value) == Some(true))
  {
    !IsNullOrEmpty(u.passwordHash) && verify(password, u.passwordHash.value) == Some(true)
  }

  /** The verifier is reached, because the stored hash is not empty, and
      throws. */
  predicate VerifyThrows(u: Usuario, password: string, verify: (string, string) -> Option<bool>) {
    !IsNullOrEmpty(u.passwordHash) && verify(password, u.passwordHash.value).None?
  }

  /** The answer once the email has found exactly user `u`. */
  function Answer(u: Usuario, password: string, verify: (string, string) -> Option<bool>,
                  sign: TokenContent -> string, now: int): (r: LoginResponse)
    ensures r.status in {ServerError, Unauthorized, Ok}
    ensures r.status == ServerError <==> VerifyThrows(u, password, verify)
    ensures r.status == ServerError ==> r.body.None?
    ensures r.status == Ok <==> Accepts(u, password, verify)
    ensures r.status == Unauthorized ==> r == LoginResponse(Unauthorized, Some(InvalidCredentials))
    ensures r.status == Ok ==>
      r.body == Some(Success(sign(TokenContent(TokenClaims(u), now + TokenLifetime)),
                             TokenContent(TokenClaims(u), now + TokenLifetime),
                             UserSummary(u.id, u.nombre, u.email, u.rolId)))
  {
    if VerifyThrows(u, password, verify) then LoginResponse(ServerError, None)
    else if !Accepts(u, password, verify) then LoginResponse(Unauthorized, Some(InvalidCredentials))
    else
      var content := TokenContent(TokenClaims(u), now + TokenLifetime);
      LoginResponse(Ok, Some(Success(sign(content), content, UserSummary(u.id, u.nombre, u.email, u.rolId))))
  }

  /** The outcome of `SingleOrDefault(u => u.Email == email)`. */
  datatype Lookup = NoMatch | Unique(u: Usuario) | Many

  function SingleWithEmail(db: Db, scan: seq<int>, email: string): (r: Lookup)
    requires Enumerates(scan, db.usuarios)
    ensures r == NoMatch <==> EmailCount(db, email) == 0
    ensures r == Many <==> EmailCount(db, email) > 1
    ensures r.Unique? ==>
      && EmailCount(db, email) == 1
      && InTable(r.u, db.usuarios) && r.u.email == Some(email)
      && forall v :: InTable(v, db.usuarios) && v.email == Some(email) ==> v == r.u
  {
    var found := WithEmail(db, scan, email);
    if |found| > 1 then Many
    else if |found| == 0 then NoMatch
    else
      var u := found[0];
      assert found == [u];
      assert InTable(u, db.usuarios) && u.email == Some(email);
      Unique(u)
  }

  /** The login action. `scan` is the order the user table is read in,
      `now` the issue time. The answer is 500 when `SingleOrDefault` throws,
      because more than one user has the email, or when the verifier throws
      on the one user's hash. */
  function Login(db: Db, scan: seq<int>, req: LoginRequest, verify: (string, string) -> Option<bool>,
                 sign: TokenContent -> string, now: int): (r: LoginResponse)
    requires Enumerates(scan, db.usuarios)
    ensures r.status == BadRequest(MissingCredentials) <==> IsNullOrEmpty(req.email) || IsNullOrEmpty(req.password)
    ensures r.status == ServerError <==>
      && !IsNullOrEmpty(req.email) && !IsNullOrEmpty(req.password)
      && (|| EmailCount(db, req.email.value) > 1
          || (EmailCount(db, req.email.value) == 1
              && exists u :: InTable(u, db.usuarios) && u.email == req.email
                             && VerifyThrows(u, req.password.value, verify)))
    ensures r.status in {BadRequest(MissingCredentials), ServerError, Unauthorized, Ok}
    ensures r.status == ServerError ==> r.body.None?
    ensures r.status == Unauthorized ==> r.body == Some(InvalidCredentials)
    ensures r.status == Unauthorized && EmailCount(db, req.email.value) == 1 ==>
      forall u :: InTable(u, db.usuarios) && u.email == req.email ==> !Accepts(u, req.password.value, verify)
    ensures r.status == Ok ==>
      && EmailCount(db, req.email.value) == 1
      && exists u :: InTable(u, db.usuarios) && u.email == req.email
           && r == Answer(u, req.password.value, verify, sign, now)
  {
    if IsNullOrEmpty(req.email) || IsNullOrEmpty(req.password) then
      LoginResponse(BadRequest(MissingCredentials),
                    Some(ErrorBody(400, "Bad Request", "El email y la contraseña son obligatorios.")))
    else
      match SingleWithEmail(db, scan, req.email.value)
      case Many => LoginResponse(ServerError, None)
      case NoMatch => LoginResponse(Unauthorized, Some(InvalidCredentials))
      case Unique(u) => Answer(u, req.password.value, verify, sign, now)
  }

  /** A stored hash the verifier cannot read makes that user's every login
      attempt a server error, whatever password is sent. */
  lemma MalformedHashIsServerError(db: Db, scan: seq<int>, req: LoginRequest,
                                   verify: (string, string) -> Option<bool>,
                                   sign: TokenContent -> string, now: int, k: int)
    requires Enumerates(scan, db.usuarios)
    requires !IsNullOrEmpty(req.email) && !IsNullOrEmpty(req.password)
    requires k in db.usuarios && db.usuarios[k].email == req.email
    requires EmailCount(db, req.email.value) == 1
    requires VerifyThrows(db.usuarios[k], req.password.value, verify)
    ensures Login(db, scan, req, verify, sign, now) == LoginResponse(ServerError, None)
  {
    assert InTable(db.usuarios[k], db.usuarios);
  }

  /** The three ways to fail the credential check (unknown email, no
      stored hash, wrong password) give the same answer, so a caller cannot
      tell an unknown email from a wrong password. A malformed stored hash
      is not among them: it answers 500, see `MalformedHashIsServerError`. */
  lemma FailuresIndistinguishable(db: Db, scan: seq<int>, req: LoginRequest, verify: (string, string) -> Option<bool>,
                                  sign: TokenContent -> string, now: int,
                                  db2: Db, scan2: seq<int>, req2: LoginRequest, verify2: (string, string) -> Option<bool>)
    requires Enumerates(scan, db.usuarios) && Enumerates(scan2, db2.usuarios)
    requires Login(db, scan, req, verify, sign, now).status == Unauthorized
    requires Login(db2, scan2, req2, verify2, sign, now).status == Unauthorized
    ensures Login(db, scan, req, verify, sign, now) == Login(db2, scan2, req2, verify2, sign, now)
  {
  }

  /** Logging in does not look at `activo`: a deactivated user with the
      right password gets a token. */
  lemma InactiveUserLogsIn(db: Db, scan: seq<int>, req: LoginRequest, verify: (string, string) -> Option<bool>,
                           sign: TokenContent -> string, now: int, k: int)
    requires Enumerates(scan, db.usuarios)
    requires !IsNullOrEmpty(req.email) && !IsNullOrEmpty(req.password)
    requires k in db.usuarios && db.usuarios[k].email == req.email && !db.usuarios[k].activo
    requires EmailCount(db, req.email.value) == 1
    requires Accepts(db.usuarios[k], req.password.value, verify)
    ensures Login(db, scan, req, verify, sign, now).status == Ok
  {
    var r := Login(db, scan, req, verify, sign, now);
    assert InTable(db.usuarios[k], db.usuarios);
  }

  /** The token's subject claim reads back, through `GetUserId`, as the id
      of the user who logged in. */
  lemma LoginIdRoundTrip(db: Db, scan: seq<int>, req: LoginRequest, verify: (string, string) -> Option<bool>,
                         sign: TokenContent -> string, now: int)
    requires Enumerates(scan, db.usuarios)
    requires forall k :: k in db.usuarios ==> IsInt32(db.usuarios[k].id)
    requires Login(db, scan, req, verify, sign, now).status == Ok
    ensures var b := Login(db, scan, req, verify, sign, now).body.value;
      GetUserId(Some(b.content.claims)) == Some(b.usuario.id)
  {
    var r := Login(db, scan, req, verify, sign, now);
    var u :| InTable(u, db.usuarios) && u.email == req.email && r == Answer(u, req.password.value, verify, sign, now);
    var k :| k in db.usuarios && db.usuarios[k] == u;
    UserIdRoundTrip(u.id, TokenClaims(u));
  }

  /** The role a login token carries is the decimal text of the user's
      role id. */
  lemma TokenRoleIsRoleId(u: Usuario)
    ensures GetUserRole(Some(TokenClaims(u))) == Some(IntToText(u.rolId))
  {
  }

  /** The role claim is the numeric role id, so no token the login mints
      passes `[Authorize(Roles = "Administrador,Barbero")]` or
      `[Authorize(Roles = "Administrador")]`. */
  lemma LoginTokenHasNoRoleName(u: Usuario)
    ensures !InAnyRole(TokenClaims(u), AdminOrBarber)
    ensures !InAnyRole(TokenClaims(u), AdminOnly)
  {
    var role := IntToText(u.rolId);
    assert role[0] == '-' || IsDigit(role[0]);
    assert role != "Administrador" && role != "Barbero";
  }

  /** The expiry is exactly three hours after issue. */
  lemma TokenExpiresInThreeHours(db: Db, scan: seq<int>, req: LoginRequest, verify: (string, string) -> Option<bool>,
                                 sign: TokenContent -> string, now: int)
    requires Enumerates(scan, db.usuarios)
    requires Login(db, scan, req, verify, sign, now).status == Ok
    ensures Login(db, scan, req, verify, sign, now).body.value.content.expires - now == 3 * 60 * 60 * 10_000_000
  {
  }
}

=== FILE: claims.dfy ===
/** The claims carried by an authenticated request and the two helpers
    controllers use to read them. */
module Claims {
  import opened Wrappers
  import opened NumberText
  import opened Store

  /** The claim types the backend writes; any other type is `Other`. */
  datatype ClaimKind = NameIdentifier | Email | Role | Other(uri: string)

  datatype Claim = Claim(kind: ClaimKind, value: string)

  /** `ClaimsPrincipal.FindFirst(kind)`: the value of the first claim of
      that type, if any. */
  function FindFirst(claims: seq<Claim>, kind: ClaimKind): (r: Option<string>)
    ensures r.None? <==> forall i :: 0 <= i < |claims| ==> claims[i].kind != kind
    ensures r.Some? ==>
      exists i :: 0 <= i < |claims| && claims[i] == Claim(kind, r.value)
        && forall j :: 0 <= j < i ==> claims[j].kind != kind
  {
    if |claims| == 0 then None
    else if claims[0].kind == kind then Some(claims[0].value)
    else
      var r := FindFirst(claims[1..], kind);
      if r.Some? then
        var i :| 0 <= i < |claims| - 1 && claims[1..][i] == Claim(kind, r.value)
          && forall j :: 0 <= j < i ==> claims[1..][j].kind != kind;
        assert claims[i + 1] == Claim(kind, r.value);
        assert forall j :: 1 <= j < i + 1 ==> claims[j] == claims[1..][j - 1];
        r
      else r
  }

  /** `GetUserId`: null for a null principal or a missing name-identifier
      claim; otherwise `int.TryParse` of the first such claim's text.
      `user` is `None` for a null principal. */
  function GetUserId(user: Option<seq<Claim>>): (r: Option<int>)
    ensures user.None? ==> r.None?
    ensures user.Some? && FindFirst(user.value, NameIdentifier).None? ==> r.None?
    ensures user.Some? && FindFirst(user.value, NameIdentifier).Some? ==>
      r == TryParseInt32(FindFirst(user.value, NameIdentifier).value)
    ensures r.Some? ==> IsInt32(r.value)
    ensures r.Some? ==>
      exists i :: 0 <= i < |user.value| && user.value[i].kind == NameIdentifier
        && TryParseInt32(user.value[i].value) == r
        && forall j :: 0 <= j < i ==> user.value[j].kind != NameIdentifier
  {
    if user.None? then None
    else
      match FindFirst(user.value, NameIdentifier)
      case None => None
      case Some(text) => TryParseInt32(text)
  }

  /** `GetUserRole`: the first role claim, unchanged. */
  function GetUserRole(user: Option<seq<Claim>>): (r: Option<string>)
    ensures r.None? <==> user.None? || forall i :: 0 <= i < |user.value| ==> user.value[i].kind != Role
    ensures r.Some? ==>
      exists i :: 0 <= i < |user.value| && user.value[i] == Claim(Role, r.value)
        && forall j :: 0 <= j < i ==> user.value[j].kind != Role
  {
    if user.None? then None else FindFirst(user.value, Role)
  }

  /** A claim text that is not an Int32 yields no id. */
  lemma NonNumericIdIsNull(claims: seq<Claim>, text: string)
    requires TryParseInt32(text).None?
    ensures GetUserId(Some([Claim(NameIdentifier, text)] + claims)) == None
  {
  }

  /** A name-identifier claim written as `id.ToString()` reads back as `id`. */
  lemma UserIdRoundTrip(id: int, claims: seq<Claim>)
    requires IsInt32(id)
    requires FindFirst(claims, NameIdentifier) == Some(IntToText(id))
    ensures GetUserId(Some(claims)) == Some(id)
  {
    ParseIntToText(id);
  }

  /** `[Authorize(Roles = "a,b")]`: some role claim names one of the listed
      roles (role names compare ordinally). */
  function InAnyRole(claims: seq<Claim>, roles: seq<string>): (r: bool)
    ensures r <==> exists role :: role in roles && Claim(Role, role) in claims
    ensures roles == [] ==> !r
  {
    exists i :: 0 <= i < |claims| && claims[i].kind == Role && claims[i].value in roles
  }

  /** The caller passes `[Authorize(Roles = …)]`. */
  predicate Allowed(user: Option<seq<Claim>>, roles: seq<string>) {
    user.Some? && InAnyRole(user.value, roles)
  }

  /** The answer of the authorization filter, which runs before model
      binding and the action: 401 without an authenticated principal, 403
      for a principal holding none of the roles, and nothing (the action
      runs) otherwise. */
  function Refusal(user: Option<seq<Claim>>, roles: seq<string>): (r: Option<Status>)
    ensures r.None? <==> Allowed(user, roles)
    ensures r == Some(Unauthorized) <==> user.None?
    ensures r == Some(Forbidden) <==> user.Some? && !InAnyRole(user.value, roles)
  {
    if user.None? then Some(Unauthorized)
    else if !InAnyRole(user.value, roles) then Some(Forbidden)
    else None
  }

  /** A role listed in both role lists passes both. */
  lemma AdminPassesBoth(claims: seq<Claim>)
    requires exists i :: 0 <= i < |claims| && claims[i] == Claim(Role, "Administrador")
    ensures Allowed(Some(claims), AdminOrBarber) && Allowed(Some(claims), AdminOnly)
  {
    var i :| 0 <= i < |claims| && claims[i] == Claim(Role, "Administrador");
    assert claims[i].value in AdminOrBarber && claims[i].value in AdminOnly;
  }

  /** A barber passes the reads and writes but not the deletes, unless some
      role claim also names the administrator. */
  lemma BarberRefusedDeletes(claims: seq<Claim>)
    requires exists i :: 0 <= i < |claims| && claims[i] == Claim(Role, "Barbero")
    requires forall i :: 0 <= i < |claims| && claims[i].kind == Role ==> claims[i].value != "Administrador"
    ensures Allowed(Some(claims), AdminOrBarber)
    ensures Refusal(Some(claims), AdminOnly) == Some(Forbidden)
  {
    var i :| 0 <= i < |claims| && claims[i] == Claim(Role, "Barbero");
    assert claims[i].value in AdminOrBarber;
  }

  /** The role list of the catalog reads and writes. */
  const AdminOrBarber: seq<string> := ["Administrador", "Barbero"]
  /** The role list of the catalog deletes. */
  const AdminOnly: seq<string> := ["Administrador"]
}

=== FILE: cliente_service.dfy ===
/** The request bodies and query parameters `ClienteService` builds. They
    coincide with the customer builders of `UsuarioService`, except that the
    update sends no `activo`. */
module ClienteService {
  import opened JsObjects
  import UsuarioService

  /** The only fields a customer payload ever carries. */
  const ClienteKeys: set<string> := {"nombre", "email", "telefono", "rolId", "accedeAlSistema"}

  /** `getClientes`: a `page` or `pageSize` filter overrides the argument. */
  function GetClientesParams(page: JsValue, pageSize: JsValue, filtros: JsObject): (r: JsObject)
    ensures r.Keys == {"page", "pageSize"} + filtros.Keys
    ensures "page" in filtros ==> r["page"] == filtros["page"]
    ensures "pageSize" in filtros ==> r["pageSize"] == filtros["pageSize"]
    ensures "page" !in filtros ==> r["page"] == (if page == Undefined then Num(1) else page)
    ensures "pageSize" !in filtros ==> r["pageSize"] == (if pageSize == Undefined then Num(10) else pageSize)
    ensures forall k :: k in filtros ==> r[k] == filtros[k]
  {
    UsuarioService.QueryParams(page, pageSize, filtros)
  }

  /** `crearCliente`. */
  function CrearCliente(d: JsObject): (r: JsObject)
    ensures r.Keys == ClienteKeys
    ensures r["rolId"] == Num(3) && r["accedeAlSistema"] == Bool(false)
    ensures forall k :: k in {"nombre", "email", "telefono"} ==> r[k] == Get(d, k)
  {
    UsuarioService.CrearCliente(d)
  }

  /** `actualizarCliente`: the same five fields and no `activo`. */
  function ActualizarCliente(d: JsObject): (r: JsObject)
    ensures r.Keys == ClienteKeys && "activo" !in r
    ensures r["rolId"] == Num(3) && r["accedeAlSistema"] == Bool(false)
    ensures forall k :: k in {"nombre", "email", "telefono"} ==> r[k] == Get(d, k)
  {
    UsuarioService.ActualizarCliente(d) - {"activo"}
  }

  /** No payload built here carries a password, and inputs that agree on
      name, email and phone give the same bodies: every other input field
      is dropped. */
  lemma PayloadsIgnoreOtherFields(d: JsObject, e: JsObject)
    requires forall k :: k in {"nombre", "email", "telefono"} ==> Get(d, k) == Get(e, k)
    ensures "password" !in CrearCliente(d) && "password" !in ActualizarCliente(d)
    ensures CrearCliente(d) == CrearCliente(e)
    ensures ActualizarCliente(d) == ActualizarCliente(e)
  {
    assert "password" !in ClienteKeys;
  }

  /** Here the customer update sends exactly the create's body; the user
      service's update adds `activo` to that same body. */
  lemma UpdatesDifferOnlyInActivo(d: JsObject)
    ensures ActualizarCliente(d) == CrearCliente(d)
    ensures UsuarioService.ActualizarCliente(d) == ActualizarCliente(d)["activo" := Get(d, "activo")]
  {
    assert "activo" !in UsuarioService.UserKeys;
    assert UsuarioService.CrearCliente(d)["activo" := Get(d, "activo")] - {"activo"} == UsuarioService.CrearCliente(d);
  }

  /** The customer listing asks with the same parameters as the user
      listing. */
  lemma ClientesParamsAreUserParams(page: JsValue, pageSize: JsValue, filtros: JsObject)
    ensures GetClientesParams(page, pageSize, filtros) == UsuarioService.QueryParams(page, pageSize, filtros)
  {
  }
}

=== FILE: detalles.dfy ===
/** `api/detalleatencion`: listing ordered by attendance, get by id, create
    with both parent checks, update by id without them, and delete that
    refuses line items whose parents have vanished. */
module Detalles {
  import opened Wrappers
  import opened Seqs
  import opened Pagination
  import opened Listing
  import opened Models
  import opened Store

  /** `OrderBy(d => d.AtencionId)`. */
  predicate AtencionIdLe(a: DetalleAtencion, b: DetalleAtencion) {
    a.atencionId <= b.atencionId
  }

  lemma AtencionIdLeIsPreorder()
    ensures TotalPreorder(AtencionIdLe)
  {
  }

  /** GET api/detalleatencion: one page of all line items, grouped by
      attendance in ascending order. */
  function GetDetallesAtencion(db: Db, scan: seq<int>, page: int, pageSize: int): (r: Paged<DetalleAtencion>)
    requires Enumerates(scan, db.detalles) && page >= 1 && pageSize >= 1
    ensures r.info.total == |db.detalles|
    ensures r.info.totalPages == CeilDiv(|db.detalles|, pageSize)
    ensures |r.items| <= pageSize
    ensures SortedBy(r.items, AtencionIdLe)
    ensures forall d :: d in r.items ==> InTable(d, db.detalles)
    ensures r.info.currentPage == page && r.info.pageSize == pageSize
    ensures exists s :: IsSortingOf(s, Rows(db.detalles, scan), AtencionIdLe) && r.items == Page(s, page, pageSize)
  {
    EnumerationSize(db.detalles, scan);
    RowsAreTableRows(db.detalles, scan);
    AtencionIdLeIsPreorder();
    OrderedPage(Rows(db.detalles, scan), AtencionIdLe, page, pageSize)
  }

  /** Paging through `1 .. totalPages` shows every line item in the table. */
  lemma EveryDetalleListed(db: Db, scan: seq<int>, pageSize: int, d: DetalleAtencion)
    requires Enumerates(scan, db.detalles) && pageSize >= 1 && InTable(d, db.detalles)
    ensures exists page :: 1 <= page <= CeilDiv(|db.detalles|, pageSize) && d in GetDetallesAtencion(db, scan, page, pageSize).items
  {
    var rows := Rows(db.detalles, scan);
    RowsCoverTable(db.detalles, scan);
    EnumerationSize(db.detalles, scan);
    AtencionIdLeIsPreorder();
    OrderedPagesCoverRows(rows, AtencionIdLe, pageSize, d);
    var page :| 1 <= page <= CeilDiv(|rows|, pageSize) && d in OrderedPage(rows, AtencionIdLe, page, pageSize).items;
    assert GetDetallesAtencion(db, scan, page, pageSize) == OrderedPage(rows, AtencionIdLe, page, pageSize);
  }

  /** GET api/detalleatencion/{id}. */
  function GetDetalleAtencion(db: Db, id: int): (r: (Status, Option<DetalleAtencion>))
    ensures r.0 == Ok <==> id in db.detalles
    ensures r.0 == Ok ==> r.1 == Some(db.detalles[id])
  {
    Find(db.detalles, id)
  }

  /** POST api/detalleatencion: the attendance is checked first, then the
      catalog item; on success both references resolve. */
  function PostDetalleAtencion(db: Db, d: DetalleAtencion, newId: int): (r: Response)
    requires newId !in db.detalles
    ensures r.status == Created <==>
      && DetalleErrors(d) == {} && d.atencionId in db.atenciones && d.productoServicioId in db.productos
      && InsertKey(d.id, newId) !in db.detalles
    ensures r.status == BadRequest(UnknownAtencion) <==> DetalleErrors(d) == {} && d.atencionId !in db.atenciones
    ensures r.status == BadRequest(UnknownProducto) <==>
      DetalleErrors(d) == {} && d.atencionId in db.atenciones && d.productoServicioId !in db.productos
    ensures r.status == ServerError <==>
      || DetalleValidationThrows(d)
      || (&& DetalleErrors(d) == {} && d.atencionId in db.atenciones && d.productoServicioId in db.productos
          && InsertKey(d.id, newId) in db.detalles)
    ensures r.status != Created ==> r.db == db
    ensures r.status == Created ==> var key := InsertKey(d.id, newId);
      && r.db.detalles.Keys == db.detalles.Keys + {key}
      && r.db.detalles[key] == d.(id := key)
      && (forall k :: k in db.detalles ==> r.db.detalles[k] == db.detalles[k])
      && r.db.(detalles := db.detalles) == db
  {
    var errs := DetalleErrors(d);
    var key := InsertKey(d.id, newId);
    if DetalleValidationThrows(d) then Response(ServerError, db)
    else if errs != {} then Response(BadRequest(InvalidModel(errs)), db)
    else if d.atencionId !in db.atenciones then Response(BadRequest(UnknownAtencion), db)
    else if d.productoServicioId !in db.productos then Response(BadRequest(UnknownProducto), db)
    else if key in db.detalles then Response(ServerError, db)
    else Response(Created, db.(detalles := db.detalles[key := d.(id := key)]))
  }

  /** PUT api/detalleatencion/{id}: neither parent reference is checked. */
  function PutDetalleAtencion(db: Db, id: int, d: DetalleAtencion, saveFails: bool): (r: Response)
    ensures DetalleValidationThrows(d) ==> r.status == ServerError && r.db == db
    ensures !DetalleValidationThrows(d) && id != d.id ==> r.status.BadRequest? && r.db == db
    ensures r.status == Ok <==> DetalleErrors(d) == {} && id == d.id && id in db.detalles && !saveFails
    ensures r.status == NotFound <==> DetalleErrors(d) == {} && id == d.id && id !in db.detalles
    ensures r.status == Ok ==>
      && r.db.detalles.Keys == db.detalles.Keys
      && r.db.detalles[id] == d
      && r.db.(detalles := db.detalles) == db
    ensures r.status != Ok ==> r.db == db
  {
    var errs := DetalleErrors(d);
    if DetalleValidationThrows(d) then Response(ServerError, db)
    else if errs != {} then Response(BadRequest(InvalidModel(errs)), db)
    else if id != d.id then Response(BadRequest(IdMismatch), db)
    else
      var (st, m) := SaveUpdate(db.detalles, id, d, saveFails);
      Response(st, db.(detalles := m))
  }

  /** DELETE api/detalleatencion/{id}: refused when the attendance (checked
      first) or the catalog item of the line item no longer exists. */
  function DeleteDetalleAtencion(db: Db, id: int): (r: Response)
    ensures r.status == NotFound <==> id !in db.detalles
    ensures r.status == BadRequest(ParentGone("Atencion")) <==>
      id in db.detalles && db.detalles[id].atencionId !in db.atenciones
    ensures r.status == BadRequest(ParentGone("ProductoServicio")) <==>
      id in db.detalles && db.detalles[id].atencionId in db.atenciones
      && db.detalles[id].productoServicioId !in db.productos
    ensures r.status == Ok <==>
      id in db.detalles && db.detalles[id].atencionId in db.atenciones
      && db.detalles[id].productoServicioId in db.productos
    ensures r.status != Ok ==> r.db == db
    ensures r.status == Ok ==>
      && r.db.detalles.Keys == db.detalles.Keys - {id}
      && (forall k :: k in r.db.detalles ==> r.db.detalles[k] == db.detalles[k])
      && r.db.(detalles := db.detalles) == db
  {
    if id !in db.detalles then Response(NotFound, db)
    else
      var d := db.detalles[id];
      if d.atencionId !in db.atenciones then Response(BadRequest(ParentGone("Atencion")), db)
      else if d.productoServicioId !in db.productos then Response(BadRequest(ParentGone("ProductoServicio")), db)
      else Response(Ok, db.(detalles := db.detalles - {id}))
  }

  /** A created line item reads back under its key as stored. */
  lemma GetAfterPost(db: Db, d: DetalleAtencion, newId: int)
    requires newId !in db.detalles && PostDetalleAtencion(db, d, newId).status == Created
    ensures var key := InsertKey(d.id, newId);
      GetDetalleAtencion(PostDetalleAtencion(db, d, newId).db, key) == (Ok, Some(d.(id := key)))
  {
  }

  /** A successful update reads back as the body sent. */
  lemma GetAfterPut(db: Db, id: int, d: DetalleAtencion, saveFails: bool)
    requires PutDetalleAtencion(db, id, d, saveFails).status == Ok
    ensures GetDetalleAtencion(PutDetalleAtencion(db, id, d, saveFails).db, id) == (Ok, Some(d))
  {
  }
}

=== FILE: integrity.dfy ===
/** The cross-table invariants the guarded endpoints maintain between
    them: every line item references an existing attendance and catalog
    item, and every booked slot exists. Each lemma relates one endpoint to
    an invariant; two concrete databases show the endpoints that do not
    re-check a reference. */
module Integrity {
  import opened Wrappers
  import opened Seqs
  import opened Models
  import opened Store
  import Atenciones
  import Turnos
  import Detalles
  import Productos
  import Usuarios

  /** Every line item points at an existing attendance and catalog item. */
  predicate RefIntegrity(db: Db) {
    forall k :: k in db.detalles ==>
      db.detalles[k].atencionId in db.atenciones && db.detalles[k].productoServicioId in db.productos
  }

  /** Every attendance booked on a slot points at an existing slot. */
  predicate SlotIntegrity(db: Db) {
    forall k :: k in db.atenciones && db.atenciones[k].turnoId.Some? ==> db.atenciones[k].turnoId.value in db.turnos
  }

  /** Line items unchanged and no parent key lost: the references still
      resolve. */
  lemma KeptParents(db: Db, db': Db)
    requires RefIntegrity(db)
    requires db'.detalles == db.detalles
    requires db.atenciones.Keys <= db'.atenciones.Keys && db.productos.Keys <= db'.productos.Keys
    ensures RefIntegrity(db')
  {
  }

  // ------------------------------------------------------------ attendance

  lemma PostAtencionPreserves(db: Db, a: Atencion, newId: int)
    requires newId !in db.atenciones && RefIntegrity(db)
    ensures RefIntegrity(Atenciones.PostAtencion(db, a, newId).db)
  {
    KeptParents(db, Atenciones.PostAtencion(db, a, newId).db);
  }

  lemma PutAtencionPreserves(db: Db, id: int, a: Atencion, saveFails: bool)
    requires RefIntegrity(db)
    ensures RefIntegrity(Atenciones.PutAtencion(db, id, a, saveFails).db)
  {
    KeptParents(db, Atenciones.PutAtencion(db, id, a, saveFails).db);
  }

  /** The delete guard is what keeps the line items' parent in place. */
  lemma DeleteAtencionPreserves(db: Db, id: int)
    requires RefIntegrity(db)
    ensures RefIntegrity(Atenciones.DeleteAtencion(db, id).db)
  {
    var r := Atenciones.DeleteAtencion(db, id);
    if r.status == Ok {
      forall k | k in r.db.detalles ensures r.db.detalles[k].atencionId in r.db.atenciones {
        assert db.detalles[k].atencionId != id;
      }
    }
  }

  /** Under the invariant an attendance created from a body without nested
      line items has none, so deleting it right away succeeds and restores
      the database. */
  lemma PostThenDeleteAtencion(db: Db, a: Atencion, newId: int)
    requires newId !in db.atenciones && RefIntegrity(db)
    requires Atenciones.PostAtencion(db, a, newId).status == Created
    ensures var key := InsertKey(a.id, newId);
      && !Atenciones.HasDetalleFor(Atenciones.PostAtencion(db, a, newId).db, key)
      && Atenciones.DeleteAtencion(Atenciones.PostAtencion(db, a, newId).db, key) == Response(Ok, db)
  {
    var key := InsertKey(a.id, newId);
    var db1 := Atenciones.PostAtencion(db, a, newId).db;
    assert !Atenciones.HasDetalleFor(db1, key) by {
      forall k | k in db1.detalles ensures db1.detalles[k].atencionId != key {
        assert db.detalles[k].atencionId in db.atenciones;
      }
    }
    var r := Atenciones.DeleteAtencion(db1, key);
    assert r.db.atenciones == db.atenciones;
  }

  // --------------------------------------------------------------- slots

  lemma DeleteTurnoPreserves(db: Db, id: int)
    requires SlotIntegrity(db)
    ensures SlotIntegrity(Turnos.DeleteTurno(db, id).db)
  {
    var r := Turnos.DeleteTurno(db, id);
    if r.status == Ok {
      forall k | k in r.db.atenciones && r.db.atenciones[k].turnoId.Some?
        ensures r.db.atenciones[k].turnoId.value in r.db.turnos
      {
        assert db.atenciones[k].turnoId != Some(id);
      }
    }
  }

  /** A slot update keeps every key, so the bookings still resolve. */
  lemma PutTurnoPreserves(db: Db, id: int, t: Turno, saveFails: bool)
    requires SlotIntegrity(db)
    ensures SlotIntegrity(Turnos.PutTurno(db, id, t, saveFails).db)
  {
  }

  /** Under the slot invariant a fresh slot is unbooked, so deleting it
      right away succeeds and restores the database. */
  lemma PostThenDeleteTurno(db: Db, t: Turno, newId: int)
    requires newId !in db.turnos && SlotIntegrity(db)
    requires Turnos.PostTurno(db, t, newId).status == Created
    ensures Turnos.DeleteTurno(Turnos.PostTurno(db, t, newId).db, InsertKey(t.id, newId)) == Response(Ok, db)
  {
    var key := InsertKey(t.id, newId);
    var db1 := Turnos.PostTurno(db, t, newId).db;
    assert !Turnos.HasAtencionFor(db1, key) by {
      forall k | k in db1.atenciones ensures db1.atenciones[k].turnoId != Some(key) {
        if db.atenciones[k].turnoId.Some? {
          assert db.atenciones[k].turnoId.value in db.turnos;
        }
      }
    }
    var r := Turnos.DeleteTurno(db1, key);
    assert r.db.turnos == db.turnos;
  }

  /** The attendance create does not look up the slot: from a database
      with no slots it stores an attendance booked on slot 5. */
  lemma PostAtencionSkipsSlotCheck()
    ensures var db := Db(map[], map[], map[], map[], map[], []);
      var a := Atencion(0, 1, 2, 1, 0, Some(5), None);
      && SlotIntegrity(db)
      && Atenciones.PostAtencion(db, a, 1).status == Created
      && !SlotIntegrity(Atenciones.PostAtencion(db, a, 1).db)
  {
    var db := Db(map[], map[], map[], map[], map[], []);
    var a := Atencion(0, 1, 2, 1, 0, Some(5), None);
    var db1 := Atenciones.PostAtencion(db, a, 1).db;
    assert db1.atenciones[1].turnoId == Some(5);
  }

  // ---------------------------------------------------------- line items

  /** The create checks both parents, so the new line item resolves. */
  lemma PostDetallePreserves(db: Db, d: DetalleAtencion, newId: int)
    requires newId !in db.detalles && RefIntegrity(db)
    ensures RefIntegrity(Detalles.PostDetalleAtencion(db, d, newId).db)
  {
  }

  lemma DeleteDetallePreserves(db: Db, id: int)
    requires RefIntegrity(db)
    ensures RefIntegrity(Detalles.DeleteDetalleAtencion(db, id).db)
  {
  }

  /** Under the invariant the delete's two parent checks never fire: it
      answers 404 or removes the line item. */
  lemma DeleteDetalleParentsPresent(db: Db, id: int)
    requires RefIntegrity(db)
    ensures Detalles.DeleteDetalleAtencion(db, id).status == (if id in db.detalles then Ok else NotFound)
  {
  }

  lemma PostThenDeleteDetalle(db: Db, d: DetalleAtencion, newId: int)
    requires newId !in db.detalles
    requires Detalles.PostDetalleAtencion(db, d, newId).status == Created
    ensures Detalles.DeleteDetalleAtencion(Detalles.PostDetalleAtencion(db, d, newId).db, InsertKey(d.id, newId))
      == Response(Ok, db)
  {
    var r := Detalles.DeleteDetalleAtencion(Detalles.PostDetalleAtencion(db, d, newId).db, InsertKey(d.id, newId));
    assert r.db.detalles == db.detalles;
  }

  /** The line-item update re-checks neither parent: from a consistent
      database it stores a line item of attendance 99, which does not
      exist. */
  lemma PutDetalleBreaksIntegrity()
    ensures var db := Db(map[], map[], map[1 := NewProductoServicio()], map[1 := Atencion(1, 1, 2, 1, 0, None, None)],
                         map[1 := DetalleAtencion(1, 1, 1, 1, 0)], []);
      var d := DetalleAtencion(1, 99, 1, 1, 0);
      && RefIntegrity(db)
      && Detalles.PutDetalleAtencion(db, 1, d, false).status == Ok
      && !RefIntegrity(Detalles.PutDetalleAtencion(db, 1, d, false).db)
  {
    var db := Db(map[], map[], map[1 := NewProductoServicio()], map[1 := Atencion(1, 1, 2, 1, 0, None, None)],
                 map[1 := DetalleAtencion(1, 1, 1, 1, 0)], []);
    var d := DetalleAtencion(1, 99, 1, 1, 0);
    assert DetalleErrors(d) == {};
    var db1 := Detalles.PutDetalleAtencion(db, 1, d, false).db;
    assert db1.detalles[1].atencionId == 99;
  }

  // -------------------------------------------------------------- catalog

  lemma PostProductoPreserves(db: Db, dto: Productos.ProductoCrear, newId: int, newImageId: int, now: int)
    requires newId !in db.productos && Productos.FreshImageId(db.imagenes, newImageId) && RefIntegrity(db)
    ensures RefIntegrity(Productos.CreateProductoServicio(db, dto, newId, newImageId, now).db)
  {
    KeptParents(db, Productos.CreateProductoServicio(db, dto, newId, newImageId, now).db);
  }

  lemma PutProductoPreserves(db: Db, id: int, dto: Productos.ProductoForm, newImageId: int, now: int)
    requires Productos.FreshImageId(db.imagenes, newImageId) && RefIntegrity(db)
    ensures RefIntegrity(Productos.UpdateProductoServicio(db, id, dto, newImageId, now).db)
  {
    KeptParents(db, Productos.UpdateProductoServicio(db, id, dto, newImageId, now).db);
  }

  /** The delete guard is what keeps the line items' catalog item in place. */
  lemma DeleteProductoPreserves(db: Db, id: int, folderDeleteFails: bool)
    requires RefIntegrity(db)
    ensures RefIntegrity(Productos.RemoveProductoServicio(db, id, folderDeleteFails).db)
  {
    var r := Productos.RemoveProductoServicio(db, id, folderDeleteFails);
    if r.status == Ok {
      forall k | k in r.db.detalles ensures r.db.detalles[k].productoServicioId in r.db.productos {
        assert db.detalles[k].productoServicioId != id;
      }
    }
  }

  /** Filtering with a test every element passes changes nothing. */
  lemma {:induction false} FilterKeepsAll<T(!new)>(xs: seq<T>, p: T -> bool)
    requires forall i :: 0 <= i < |xs| ==> p(xs[i])
    ensures Filter(xs, p) == xs
  {
    if |xs| > 0 {
      FilterKeepsAll(xs[1..], p);
      assert xs == [xs[0]] + xs[1..];
    }
  }

  /** Creating an item without an image and deleting it right away
      restores the database, provided no line item or stray image row
      already referred to the fresh key. */
  lemma PostThenDeleteProducto(db: Db, dto: Productos.ProductoCrear, newId: int, newImageId: int, now: int)
    requires newId !in db.productos && Productos.FreshImageId(db.imagenes, newImageId) && RefIntegrity(db)
    requires forall i :: 0 <= i < |db.imagenes| ==> !Productos.IsCatalogImageOf(db.imagenes[i], newId)
    requires !Productos.HasUpload(dto.imagen)
    requires Productos.CreateProductoServicio(db, dto, newId, newImageId, now).status == Created
    ensures Productos.RemoveProductoServicio(Productos.CreateProductoServicio(db, dto, newId, newImageId, now).db, newId, false)
      == Response(Ok, db)
  {
    var db1 := Productos.CreateProductoServicio(db, dto, newId, newImageId, now).db;
    assert db1.imagenes == db.imagenes;
    assert db1.detalles == db.detalles;
    assert !Productos.HasDetalleFor(db1, newId) by {
      forall k | k in db1.detalles ensures db1.detalles[k].productoServicioId != newId {
        assert db.detalles[k].productoServicioId in db.productos;
      }
    }
    assert !Productos.HasNullRoute(db1.imagenes, newId);
    var r := Productos.RemoveProductoServicio(db1, newId, false);
    assert r.status == Ok;
    assert r.db.productos == db.productos;
    assert r.db.imagenes == db.imagenes by {
      var keep := Productos.NotImageOf(newId);
      FilterKeepsAll(db.imagenes, keep);
      assert r.db.imagenes == Filter(db.imagenes, keep);
    }
    assert r.db == db;
  }

  /** Image deletes touch neither line items nor their parents. */
  lemma DeleteImagenPreserves(db: Db, idImagen: int)
    requires RefIntegrity(db)
    ensures RefIntegrity(Productos.RemoveImagen(db, idImagen).db)
  {
    KeptParents(db, Productos.RemoveImagen(db, idImagen).db);
  }

  // ---------------------------------------------------------------- users

  /** Users are outside both invariants: their writes keep them. */
  lemma UserWritesPreserve(db: Db, u: Usuario, id: int, newId: int, saveFails: bool)
    requires newId !in db.usuarios
    requires RefIntegrity(db) && SlotIntegrity(db)
    ensures RefIntegrity(Usuarios.PostUsuario(db, u, newId).db) && SlotIntegrity(Usuarios.PostUsuario(db, u, newId).db)
    ensures RefIntegrity(Usuarios.PutUsuario(db, id, u, saveFails).db)
    ensures RefIntegrity(Usuarios.DeleteUsuario(db, id).db)
  {
  }
}

=== FILE: js_objects.dfy ===
/** The slice of JavaScript values the client code touches: plain objects
    as maps from key to value, the `??` operator, truthiness, object
    spread and strict equality. */
module JsObjects {
  datatype JsValue =
    | Undefined
    | Null
    | Bool(b: bool)
    | Num(n: int)
    | Str(s: string)
    | Obj(fields: map<string, JsValue>)

  type JsObject = map<string, JsValue>

  /** `o[k]`: a missing key reads as `undefined`. */
  function Get(o: JsObject, k: string): (r: JsValue)
    ensures k !in o ==> r == Undefined
    ensures k in o ==> r == o[k]
  {
    if k in o then o[k] else Undefined
  }

  /** `v.k` on any value: only objects carry properties here. */
  function Prop(v: JsValue, k: string): (r: JsValue)
    ensures !v.Obj? ==> r == Undefined
  {
    if v.Obj? then Get(v.fields, k) else Undefined
  }

  predicate IsNullish(v: JsValue) {
    v == Undefined || v == Null
  }

  /** `v ?? d`. */
  function Coalesce(v: JsValue, d: JsValue): (r: JsValue)
    ensures IsNullish(v) ==> r == d
    ensures !IsNullish(v) ==> r == v
  {
    if IsNullish(v) then d else v
  }

  /** `!!v`. */
  predicate Truthy(v: JsValue) {
    match v
    case Undefined => false
    case Null => false
    case Bool(b) => b
    case Num(n) => n != 0
    case Str(s) => |s| > 0
    case Obj(_) => true
  }

  /** A default parameter applies only to `undefined`, not to `null`. */
  function DefaultParam(v: JsValue, d: JsValue): (r: JsValue)
    ensures v == Undefined ==> r == d
    ensures v != Undefined ==> r == v
  {
    if v == Undefined then d else v
  }

  /** A default parameter and `??` part ways exactly on an explicit
      `null` with a non-null default: the parameter keeps the `null`. */
  lemma DefaultParamVsCoalesce(v: JsValue, d: JsValue)
    ensures DefaultParam(v, d) == Coalesce(v, d) <==> v != Null || d == Null
    ensures DefaultParam(Null, d) == Null
  {
  }

  /** `{...a, ...b}`: every key of either, `b` winning on a clash. */
  function Spread(a: JsObject, b: JsObject): (r: JsObject)
    ensures r.Keys == a.Keys + b.Keys
    ensures forall k :: k in b ==> r[k] == b[k]
    ensures forall k :: k in a && k !in b ==> r[k] == a[k]
  {
    a + b
  }

  /** `a === b`. A parsed object is never the same reference as a value
      the caller holds, so objects are never strictly equal here. */
  predicate StrictEq(a: JsValue, b: JsValue) {
    !a.Obj? && a == b
  }
}

=== FILE: listing.dfy ===
/** A table is a map from primary key to row; a query without `OrderBy`
    sees its rows in whatever order the database enumerates the keys. That
    order is an input here (`scan`), and the lemmas show what does not
    depend on it. */
module Listing {
  import opened Seqs
  import opened Pagination

  /** `scan` lists every key of `m` exactly once. */
  ghost predicate Enumerates<T>(scan: seq<int>, m: map<int, T>) {
    && (forall i :: 0 <= i < |scan| ==> scan[i] in m)
    && (forall k :: k in m ==> k in scan)
    && (forall i, j :: 0 <= i < j < |scan| ==> scan[i] != scan[j])
  }

  /** `x` is a row of table `m`. */
  ghost predicate InTable<T>(x: T, m: map<int, T>) {
    exists k :: k in m && m[k] == x
  }

  /** The rows of `m` in the order `scan` gives. */
  function Rows<T>(m: map<int, T>, scan: seq<int>): (r: seq<T>)
    requires forall i :: 0 <= i < |scan| ==> scan[i] in m
    ensures |r| == |scan|
    ensures forall i :: 0 <= i < |r| ==> r[i] == m[scan[i]]
  {
    seq(|scan|, i requires 0 <= i < |scan| => m[scan[i]])
  }

  /** The keys of `m` whose rows satisfy `p`. */
  function KeysWhere<T>(m: map<int, T>, p: T -> bool): set<int> {
    set k | k in m && p(m[k])
  }

  lemma FilterCons<T(!new)>(x: T, xs: seq<T>, p: T -> bool)
    ensures Filter([x] + xs, p) == (if p(x) then [x] else []) + Filter(xs, p)
  {
    assert ([x] + xs)[1..] == xs;
  }

  /** Dropping the first key of an enumeration enumerates the rest. */
  lemma EnumeratesTail<T>(m: map<int, T>, scan: seq<int>)
    requires Enumerates(scan, m) && |scan| > 0
    ensures Enumerates(scan[1..], m - {scan[0]})
  {
    var m', tail := m - {scan[0]}, scan[1..];
    forall i | 0 <= i < |tail| ensures tail[i] in m' {
      assert tail[i] == scan[i + 1];
      assert scan[0] != scan[i + 1];
    }
    forall j | j in m' ensures j in tail {
      assert j in scan;
      var i :| 0 <= i < |scan| && scan[i] == j;
      assert tail[i - 1] == j;
    }
  }

  /** The rows of an enumeration are its first row followed by the rows of
      the rest of the table. */
  lemma RowsTail<T>(m: map<int, T>, scan: seq<int>)
    requires Enumerates(scan, m) && |scan| > 0
    requires Enumerates(scan[1..], m - {scan[0]})
    ensures Rows(m, scan) == [m[scan[0]]] + Rows(m - {scan[0]}, scan[1..])
  {
    var rows, rest := Rows(m, scan), Rows(m - {scan[0]}, scan[1..]);
    forall i | 0 <= i < |rows| ensures rows[i] == ([m[scan[0]]] + rest)[i] {
      if i > 0 {
        assert rest[i - 1] == m[scan[i]];
      }
    }
  }

  lemma KeysWhereRemove<T>(m: map<int, T>, k: int, p: T -> bool)
    requires k in m
    ensures |KeysWhere(m, p)| == |KeysWhere(m - {k}, p)| + (if p(m[k]) then 1 else 0)
  {
    var s, s' := KeysWhere(m, p), KeysWhere(m - {k}, p);
    if p(m[k]) {
      assert s == s' + {k};
    } else {
      assert s == s';
    }
  }

  /** The number of rows a filtered query counts is the number of table
      rows satisfying the filter, whatever order the keys are enumerated. */
  lemma {:induction false} CountIsTableCount<T(!new)>(m: map<int, T>, scan: seq<int>, p: T -> bool)
    requires Enumerates(scan, m)
    ensures |Filter(Rows(m, scan), p)| == |KeysWhere(m, p)|
    decreases |scan|
  {
    if |scan| == 0 {
      assert forall j :: j in m ==> j in scan;
      assert KeysWhere(m, p) == {};
    } else {
      var k := scan[0];
      var m' := m - {k};
      EnumeratesTail(m, scan);
      RowsTail(m, scan);
      CountIsTableCount(m', scan[1..], p);
      FilterCons(m[k], Rows(m', scan[1..]), p);
      KeysWhereRemove(m, k, p);
    }
  }

  /** An enumeration has as many entries as the table has rows. */
  lemma EnumerationSize<T(!new)>(m: map<int, T>, scan: seq<int>)
    requires Enumerates(scan, m)
    ensures |scan| == |m|
  {
    var all: T -> bool := _ => true;
    CountIsTableCount(m, scan, all);
    FilterAllIsIdentity(Rows(m, scan), all);
    assert KeysWhere(m, all) == m.Keys;
  }

  lemma {:induction false} FilterAllIsIdentity<T(!new)>(xs: seq<T>, p: T -> bool)
    requires forall x :: p(x)
    ensures Filter(xs, p) == xs
  {
    if |xs| > 0 {
      FilterAllIsIdentity(xs[1..], p);
      FilterCons(xs[0], xs[1..], p);
      assert xs == [xs[0]] + xs[1..];
    }
  }

  /** Every row returned from an enumeration is a row of the table. */
  lemma RowsAreTableRows<T>(m: map<int, T>, scan: seq<int>)
    requires forall i :: 0 <= i < |scan| ==> scan[i] in m
    ensures forall x :: x in Rows(m, scan) ==> InTable(x, m)
  {
    forall x | x in Rows(m, scan) ensures InTable(x, m) {
      var i :| 0 <= i < |scan| && Rows(m, scan)[i] == x;
      var k := scan[i];
      assert k in m && m[k] == x;
    }
  }

  /** Every row of the table appears in an enumeration of it. */
  lemma RowsCoverTable<T>(m: map<int, T>, scan: seq<int>)
    requires Enumerates(scan, m)
    ensures forall x :: InTable(x, m) ==> x in Rows(m, scan)
  {
    forall x | InTable(x, m) ensures x in Rows(m, scan) {
      var k :| k in m && m[k] == x;
      assert k in scan;
      var i :| 0 <= i < |scan| && scan[i] == k;
      assert Rows(m, scan)[i] == x;
    }
  }

  /** A filtered enumeration holds exactly the table rows passing the filter. */
  lemma FilteredRows<T(!new)>(m: map<int, T>, scan: seq<int>, p: T -> bool)
    requires Enumerates(scan, m)
    ensures forall x :: x in Filter(Rows(m, scan), p) <==> InTable(x, m) && p(x)
  {
    var rows := Rows(m, scan);
    var r := Filter(rows, p);
    RowsAreTableRows(m, scan);
    RowsCoverTable(m, scan);
    forall x ensures x in r <==> InTable(x, m) && p(x) {
      assert x in r <==> x in multiset(r);
      assert x in rows <==> x in multiset(rows);
    }
  }

  /** A contiguous slice of a sorted sequence is sorted and holds rows of it. */
  lemma PageOfSorted<T>(xs: seq<T>, le: (T, T) -> bool, page: int, pageSize: int)
    requires page >= 1 && pageSize >= 1 && SortedBy(xs, le)
    ensures SortedBy(Page(xs, page, pageSize), le)
    ensures forall x :: x in Page(xs, page, pageSize) ==> x in xs
  {
    var off := (page - 1) * pageSize;
    var r := Page(xs, page, pageSize);
    assert r == Take(Skip(xs, off), pageSize);
    assert off <= |xs| ==> r == xs[off..][..|r|];
    assert off > |xs| ==> r == [];
  }

  /** `query.OrderBy(le)`, counted, then paged: the listing shape shared by
      the attendance, slot, line-item and catalog endpoints. */
  function OrderedPage<T(!new)>(rows: seq<T>, le: (T, T) -> bool, page: int, pageSize: int): (r: Paged<T>)
    requires TotalPreorder(le) && page >= 1 && pageSize >= 1
    ensures r.info.total == |rows|
    ensures r.info.totalPages == CeilDiv(|rows|, pageSize)
    ensures r.info.currentPage == page && r.info.pageSize == pageSize
    ensures |r.items| <= pageSize
    ensures SortedBy(r.items, le)
    ensures forall x :: x in r.items ==> x in rows
    ensures exists s :: IsSortingOf(s, rows, le) && r.items == Page(s, page, pageSize)
  {
    var sorted := SortBy(rows, le);
    PageOfSorted(sorted, le, page, pageSize);
    assert forall x :: x in sorted ==> x in multiset(rows);
    assert IsSortingOf(sorted, rows, le);
    Paginate(sorted, page, pageSize)
  }

  /** `s` is `rows` rearranged into `le` order. `OrderBy` is not a stable
      sort in SQL, so this is all a listing promises about its order. */
  ghost predicate IsSortingOf<T(!new)>(s: seq<T>, rows: seq<T>, le: (T, T) -> bool) {
    SortedBy(s, le) && multiset(s) == multiset(rows)
  }

  /** Walking the pages `1 .. totalPages` of one listing meets every row:
      the pages are cut from a single ordering, so no row is skipped. */
  lemma OrderedPagesCoverRows<T(!new)>(rows: seq<T>, le: (T, T) -> bool, pageSize: int, x: T)
    requires TotalPreorder(le) && pageSize >= 1 && x in rows
    ensures exists page :: 1 <= page <= CeilDiv(|rows|, pageSize) && x in OrderedPage(rows, le, page, pageSize).items
  {
    var sorted := SortBy(rows, le);
    assert x in multiset(sorted);
    var i :| 0 <= i < |sorted| && sorted[i] == x;
    RowOnSomePage(sorted, pageSize, i);
    var page :| 1 <= page <= CeilDiv(|sorted|, pageSize) && x in Page(sorted, page, pageSize);
    assert OrderedPage(rows, le, page, pageSize).items == Page(sorted, page, pageSize);
  }

  /** No two different rows compare equal under `le`: the sort key is
      unique among `rows`. */
  ghost predicate NoTies<T>(rows: seq<T>, le: (T, T) -> bool) {
    forall a, b :: a in rows && b in rows && le(a, b) && le(b, a) ==> a == b
  }

  /** Without ties there is only one way to sort the rows. */
  lemma {:induction false} SortingUnique<T(!new)>(s: seq<T>, t: seq<T>, rows: seq<T>, le: (T, T) -> bool)
    requires NoTies(rows, le) && IsSortingOf(s, rows, le) && IsSortingOf(t, rows, le)
    ensures s == t
  {
    if |s| > 0 {
      assert |t| == |multiset(t)| == |multiset(s)| == |s|;
      assert s[0] in multiset(t) && t[0] in multiset(s);
      assert s[0] in rows by { assert s[0] in multiset(rows); }
      assert t[0] in rows by { assert t[0] in multiset(rows); }
      assert s[0] == t[0];
      assert multiset(s) == multiset(rows) == multiset(t);
      assert s == [s[0]] + s[1..] && t == [t[0]] + t[1..];
      assert multiset(s) == multiset([s[0]]) + multiset(s[1..]);
      assert multiset(t) == multiset([t[0]]) + multiset(t[1..]);
      var head := multiset([s[0]]);
      forall y ensures multiset(s[1..])[y] == multiset(t[1..])[y] {
        assert (head + multiset(s[1..]))[y] == (head + multiset(t[1..]))[y];
      }
      assert multiset(s[1..]) == multiset(t[1..]);
      forall x | x in s[1..] ensures x in rows {
        assert x in multiset(rows);
      }
      SortingUnique(s[1..], t[1..], s[1..], le);
    } else {
      assert |t| == |multiset(t)| == |multiset(s)| == 0;
    }
  }

  /** Coverage for any listing that meets the page contract, even one whose
      every request breaks ties its own way (`pages(p)` is what request
      `p` shows): when the sort key has no ties, paging `1 .. totalPages`
      still meets every row. */
  lemma ContractPagesCoverRows<T(!new)>(rows: seq<T>, le: (T, T) -> bool, pageSize: int, x: T,
                                        pages: int -> seq<T>)
    requires TotalPreorder(le) && pageSize >= 1 && x in rows && NoTies(rows, le)
    requires forall p :: 1 <= p ==> exists s :: IsSortingOf(s, rows, le) && pages(p) == Page(s, p, pageSize)
    ensures exists p :: 1 <= p <= CeilDiv(|rows|, pageSize) && x in pages(p)
  {
    var sorted := SortBy(rows, le);
    assert IsSortingOf(sorted, rows, le);
    assert x in multiset(sorted);
    var i :| 0 <= i < |sorted| && sorted[i] == x;
    RowOnSomePage(sorted, pageSize, i);
    var p :| 1 <= p <= CeilDiv(|sorted|, pageSize) && x in Page(sorted, p, pageSize);
    var s :| IsSortingOf(s, rows, le) && pages(p) == Page(s, p, pageSize);
    SortingUnique(s, sorted, rows, le);
  }
}

=== FILE: models.dfy ===
/** The persisted records of the barbershop backend and the constraints
    their data annotations declare. `decimal` amounts are held in
    hundredths (cents); `DateTime` values are ticks, `default(DateTime)`
    being tick 0. A `[Required]` on a non-nullable `int` or `DateTime`
    can never fail, so it adds nothing to the validity predicates below. */
module Models {
  import opened Wrappers
  import opened Text
  import opened NumberText

  const Cents: int := 100
  /** `[Range(0, 10000)]` on a money amount. */
  const MaxAmount: int := 10000 * Cents
  const DefaultDate: int := 0
  const TicksPerHour: int := 36_000_000_000

  predicate InRange(x: int, lo: int, hi: int) {
    lo <= x <= hi
  }

  /** `decimal.Round(v, 0)` on an amount held in cents: the nearest whole
      number of units, a midpoint going to the even neighbour. */
  function RoundToUnits(x: int): (r: int)
    ensures r * Cents - Cents / 2 <= x <= r * Cents + Cents / 2
    ensures x - r * Cents == Cents / 2 || r * Cents - x == Cents / 2 ==> r % 2 == 0
  {
    var q := x / Cents;
    var rem := x % Cents;
    if rem < Cents / 2 then q
    else if rem > Cents / 2 then q + 1
    else if q % 2 == 0 then q
    else q + 1
  }

  /** The two clauses above pin the rounding down: any whole number within
      half a unit, and even on a midpoint, is the one `RoundToUnits` gives. */
  lemma RoundToUnitsUnique(x: int, n: int)
    requires n * Cents - Cents / 2 <= x <= n * Cents + Cents / 2
    requires x - n * Cents == Cents / 2 || n * Cents - x == Cents / 2 ==> n % 2 == 0
    ensures RoundToUnits(x) == n
  {
  }

  /** `[Range(0, 10000)]` on a `decimal` binds the `int` overload, which
      converts with `Convert.ToInt32`: the amount is rounded to whole units
      first, and a rounded value outside `int` throws `OverflowException`,
      which the attribute does not catch. */
  predicate RangeThrows(x: int) {
    !IsInt32(RoundToUnits(x))
  }

  /** What `[Range(0, 10000)]` accepts of an amount that does not throw. */
  predicate AmountInRange(x: int) {
    InRange(RoundToUnits(x), 0, 10000)
  }

  /** In cents: -0.50 through 10000.50 pass, both midpoints rounding to the
      even bound. */
  lemma AmountInRangeCents(x: int)
    ensures AmountInRange(x) <==> -Cents / 2 <= x <= MaxAmount + Cents / 2
  {
  }

  /** The conversion throws below -2147483648.50 and from 2147483647.50 on:
      the low midpoint rounds to the even `int.MinValue`, the high one past
      the odd `int.MaxValue`. */
  lemma RangeThrowsCents(x: int)
    ensures RangeThrows(x) <==> x < Int32Min * Cents - Cents / 2 || x >= Int32Max * Cents + Cents / 2
  {
  }

  /** An amount the conversion throws on is never in range. */
  lemma ThrowingAmountOutOfRange(x: int)
    requires RangeThrows(x)
    ensures !AmountInRange(x)
  {
  }

  /** A `string?` carrying `[Required]` and `[MaxLength(n)]`; the length is
      counted in UTF-16 code units. */
  predicate RequiredWithin(s: Option<string>, n: nat) {
    !IsNullOrWhiteSpace(s) && Utf16Length(s.value) <= n
  }

  // ---------------------------------------------------------------- Usuario

  /** A user or customer. `passwordHash` is the column the login reads. */
  datatype Usuario = Usuario(
    id: int,
    nombre: Option<string>,
    email: Option<string>,
    telefono: Option<string>,
    avatar: Option<string>,
    rolId: int,
    accedeAlSistema: bool,
    activo: bool,
    passwordHash: Option<string>)

  /** What `[EmailAddress]` accepts: exactly one `@`, neither first nor last. */
  predicate IsEmailShaped(s: string) {
    exists i :: 0 < i < |s| - 1 && s[i] == '@' && forall j :: 0 <= j < |s| && s[j] == '@' ==> j == i
  }

  /** The names of the fields whose annotations reject `u`. */
  function UsuarioErrors(u: Usuario): (r: set<string>)
    ensures r <= {"Nombre", "Email"}
    ensures "Nombre" in r <==> !RequiredWithin(u.nombre, 100)
    ensures r == {} <==> RequiredWithin(u.nombre, 100) && u.email.Some? && IsEmailShaped(u.email.value)
  {
    (if RequiredWithin(u.nombre, 100) then {} else {"Nombre"})
    + (if !IsNullOrWhiteSpace(u.email) && IsEmailShaped(u.email.value) then {} else {"Email"})
  }

  /** An ideographic space alone is blank, so the name is missing. */
  lemma IdeographicSpaceNameRejected(u: Usuario)
    requires u.nombre == Some("\U{3000}")
    ensures "Nombre" in UsuarioErrors(u)
  {
    assert IsWhiteSpace("\U{3000}"[0]);
  }

  /** Sixty characters beyond U+FFFF are 120 code units: too long a name. */
  lemma WideNameTooLong(u: Usuario, name: string)
    requires |name| == 60 && forall i :: 0 <= i < |name| ==> name[i] == '\U{1F600}'
    requires u.nombre == Some(name)
    ensures "Nombre" in UsuarioErrors(u)
  {
    Utf16LengthAllWide(name);
  }

  /** `new Usuario()`: every initialiser of the class. */
  function NewUsuario(): (u: Usuario)
    ensures u.activo && !u.accedeAlSistema
    ensures UsuarioErrors(u) == {"Nombre", "Email"}
  {
    Usuario(0, None, None, None, None, 0, false, true, None)
  }

  // ------------------------------------------------------------------ Turno

  /** An appointment slot, as far as the controllers read it. */
  datatype Turno = Turno(id: int, fechaHora: int)

  // ------------------------------------------------------- ProductoServicio

  /** A catalog item: a stock-tracked product or a service. */
  datatype ProductoServicio = ProductoServicio(
    id: int,
    nombre: Option<string>,
    descripcion: Option<string>,
    precio: Option<int>,
    esAlmacenable: Option<bool>,
    cantidad: Option<int>)

  /** `EsAlmacenable == true`: the storable listing's filter. */
  predicate IsStorable(p: ProductoServicio) {
    p.esAlmacenable == Some(true)
  }

  /** `!(EsAlmacenable ?? false)`: the service listing's filter. */
  predicate IsService(p: ProductoServicio) {
    !p.esAlmacenable.GetOr(false)
  }

  /** The rule both catalog writes enforce: a non-storable item (false or
      null) cannot carry a positive quantity; a null quantity is not > 0. */
  predicate StockRule(esAlmacenable: Option<bool>, cantidad: Option<int>) {
    !(!esAlmacenable.GetOr(false) && cantidad.Some? && cantidad.value > 0)
  }

  lemma ServiceIffNotStorable(p: ProductoServicio)
    ensures IsService(p) <==> !IsStorable(p)
  {
  }

  /** The names of the fields whose annotations reject `p`. */
  function ProductoErrors(p: ProductoServicio): (r: set<string>)
    ensures r <= {"Nombre", "Precio"}
    ensures "Nombre" in r <==> !RequiredWithin(p.nombre, 100)
    ensures "Precio" in r <==> p.precio.None? || !(-Cents / 2 <= p.precio.value <= MaxAmount + Cents / 2)
  {
    AmountInRangeCents(p.precio.GetOr(0));
    (if RequiredWithin(p.nombre, 100) then {} else {"Nombre"})
    + (if p.precio.Some? && AmountInRange(p.precio.value) then {} else {"Precio"})
  }

  /** Validating `p` throws instead of reporting: a null price skips the
      range check. */
  predicate ProductoValidationThrows(p: ProductoServicio) {
    p.precio.Some? && RangeThrows(p.precio.value)
  }

  /** `new ProductoServicio()`: a non-storable item with quantity 0, which
      already satisfies the stock rule. */
  function NewProductoServicio(): (p: ProductoServicio)
    ensures p.esAlmacenable == Some(false) && p.cantidad == Some(0)
    ensures IsService(p) && StockRule(p.esAlmacenable, p.cantidad)
    ensures p.descripcion.None?
  {
    ProductoServicio(0, None, None, None, Some(false), Some(0))
  }

  // --------------------------------------------------------------- Atencion

  /** An attendance (a completed visit). Its line items live in their own
      table and are reached through `DetalleAtencion.atencionId`. */
  datatype Atencion = Atencion(
    id: int,
    clienteId: int,
    barberoId: int,
    fecha: int,
    total: int,
    turnoId: Option<int>,
    pagoId: Option<int>)

  /** The names of the fields whose annotations reject `a`: only the total
      can fail. */
  function AtencionErrors(a: Atencion): (r: set<string>)
    ensures r <= {"Total"}
    ensures r == {} <==> -Cents / 2 <= a.total <= MaxAmount + Cents / 2
  {
    AmountInRangeCents(a.total);
    if AmountInRange(a.total) then {} else {"Total"}
  }

  /** Validating `a` throws instead of reporting. */
  predicate AtencionValidationThrows(a: Atencion) {
    RangeThrows(a.total)
  }

  /** The annotations accept the default date: `[Required]` on a
      `DateTime` cannot fail, which is why the create endpoint checks it by
      hand. Whatever the date, slot and payment, a total in range passes. */
  lemma DefaultFechaPassesAnnotations(a: Atencion)
    requires AmountInRange(a.total)
    ensures AtencionErrors(a.(fecha := DefaultDate)) == {}
    ensures AtencionErrors(a) == {}
  {
  }

  // -------------------------------------------------------- DetalleAtencion

  /** A line item of an attendance, with the unit price captured at sale. */
  datatype DetalleAtencion = DetalleAtencion(
    id: int,
    atencionId: int,
    productoServicioId: int,
    cantidad: int,
    precioUnitario: int)

  /** The names of the fields whose annotations reject `d`. */
  function DetalleErrors(d: DetalleAtencion): (r: set<string>)
    ensures r <= {"Cantidad", "PrecioUnitario"}
    ensures "Cantidad" in r <==> d.cantidad < 1 || d.cantidad > 0x7FFF_FFFF
    ensures "PrecioUnitario" in r <==> !(-Cents / 2 <= d.precioUnitario <= MaxAmount + Cents / 2)
  {
    AmountInRangeCents(d.precioUnitario);
    (if InRange(d.cantidad, 1, Int32Max) then {} else {"Cantidad"})
    + (if AmountInRange(d.precioUnitario) then {} else {"PrecioUnitario"})
  }

  /** Validating `d` throws instead of reporting: only the unit price is
      converted, since an `int` quantity always fits. */
  predicate DetalleValidationThrows(d: DetalleAtencion) {
    RangeThrows(d.precioUnitario)
  }

  /** `new DetalleAtencion()`: quantity 1, which the `[Range(1, ...)]`
      accepts. */
  function NewDetalleAtencion(): (d: DetalleAtencion)
    ensures d.cantidad == 1
    ensures DetalleErrors(d) == {}
  {
    DetalleAtencion(0, 0, 0, 1, 0)
  }

  // ----------------------------------------------------------------- Imagen

  /** The closed set of image kinds the `enum(...)` column admits. */
  datatype TipoImagen = AvatarUsuario | ProductoServicioImg | ComprobantePago

  function TipoName(t: TipoImagen): string {
    match t
    case AvatarUsuario => "AvatarUsuario"
    case ProductoServicioImg => "ProductoServicio"
    case ComprobantePago => "ComprobantePago"
  }

  function ParseTipo(s: string): (r: Option<TipoImagen>)
    ensures r.Some? ==> TipoName(r.value) == s
  {
    if s == "AvatarUsuario" then Some(AvatarUsuario)
    else if s == "ProductoServicio" then Some(ProductoServicioImg)
    else if s == "ComprobantePago" then Some(ComprobantePago)
    else None
  }

  /** The tag column holds exactly the three names. */
  lemma TipoRoundTrip(t: TipoImagen)
    ensures ParseTipo(TipoName(t)) == Some(t)
  {
  }

  /** The tag of catalog images, as the controllers compare it. */
  const ProductoServicioTag: string := "ProductoServicio"

  /** An image row. The tag is kept as the string the controllers compare. */
  datatype Imagen = Imagen(
    idImagen: int,
    ruta: Option<string>,
    tipoImagen: Option<string>,
    idRelacionado: Option<int>,
    fechaCreacion: int,
    activo: bool)

  /** The names of the fields whose annotations reject `i`. `[Column(TypeName
      = "enum(...)")]` is a mapping, not a validation attribute: the tag only
      has to be present here. */
  function ImagenErrors(i: Imagen): (r: set<string>)
    ensures r <= {"Ruta", "TipoImagen", "IdRelacionado"}
    ensures "Ruta" in r <==> !RequiredWithin(i.ruta, 255)
    ensures "TipoImagen" in r <==> IsNullOrWhiteSpace(i.tipoImagen)
    ensures "IdRelacionado" in r <==> i.idRelacionado.None?
  {
    (if RequiredWithin(i.ruta, 255) then {} else {"Ruta"})
    + (if IsNullOrWhiteSpace(i.tipoImagen) then {"TipoImagen"} else {})
    + (if i.idRelacionado.Some? then {} else {"IdRelacionado"})
  }

  /** What the `enum('AvatarUsuario','ProductoServicio','ComprobantePago')`
      column stores; the database, not model validation, refuses the rest. */
  predicate FitsTipoColumn(i: Imagen) {
    i.tipoImagen.Some? && ParseTipo(i.tipoImagen.value).Some?
  }

  /** An unknown kind passes validation and is refused only by the column. */
  lemma UnknownTipoPassesValidation(i: Imagen)
    requires i.tipoImagen == Some("Foo") && i.ruta == Some("/r") && i.idRelacionado.Some?
    ensures ImagenErrors(i) == {} && !FitsTipoColumn(i)
  {
    assert !IsBlank("Foo") by { assert !IsWhiteSpace("Foo"[0]); }
    assert !IsBlank("/r") by { assert !IsWhiteSpace("/r"[0]); }
  }

  /** `new Imagen()` at time `now`: active, stamped now, nothing else set. */
  function NewImagen(now: int): (i: Imagen)
    ensures i.activo && i.fechaCreacion == now
    ensures ImagenErrors(i) == {"Ruta", "TipoImagen", "IdRelacionado"}
  {
    Imagen(0, None, None, None, now, true)
  }

  // ------------------------------------------------------------------- Pago

  /** The payment methods, in declaration order. */
  datatype MetodoPago =
    Efectivo | TarjetaDebito | TarjetaCredito | Transferencia | MercadoPago | NaranjaX | QR | Otro

  /** The enum's underlying value. */
  function Ordinal(m: MetodoPago): nat {
    match m
    case Efectivo => 0
    case TarjetaDebito => 1
    case TarjetaCredito => 2
    case Transferencia => 3
    case MercadoPago => 4
    case NaranjaX => 5
    case QR => 6
    case Otro => 7
  }

  function FromOrdinal(k: int): (r: Option<MetodoPago>)
    ensures r.Some? <==> 0 <= k < 8
    ensures r.Some? ==> Ordinal(r.value) == k
  {
    if k == 0 then Some(Efectivo)
    else if k == 1 then Some(TarjetaDebito)
    else if k == 2 then Some(TarjetaCredito)
    else if k == 3 then Some(Transferencia)
    else if k == 4 then Some(MercadoPago)
    else if k == 5 then Some(NaranjaX)
    else if k == 6 then Some(QR)
    else if k == 7 then Some(Otro)
    else None
  }

  /** Exactly eight methods: the underlying values are 0..7, one each. */
  lemma MetodoPagoIsClosed(m: MetodoPago)
    ensures Ordinal(m) < 8 && FromOrdinal(Ordinal(m)) == Some(m)
  {
  }

  /** `decimal(10,2)`: hundredths, at most ten digits in all. */
  predicate FitsDecimal10_2(cents: int) {
    -10_000_000_000 < cents < 10_000_000_000
  }

  /** A payment against an attendance; the navigation to the attendance is
      optional and not stored. */
  datatype Pago = Pago(id: int, atencionId: int, metodoPago: MetodoPago, monto: int, fecha: int)

  /** The names of the fields whose annotations reject `p`: none can, since
      every `[Required]` field is a value type and `[Column(TypeName =
      "decimal(10,2)")]` is a mapping the database enforces on save. */
  function PagoErrors(p: Pago): (r: set<string>)
    ensures r == {}
  {
    {}
  }

  /** An amount too wide for the column passes validation. */
  lemma WideAmountPassesValidation(p: Pago)
    requires p.monto == 10_000_000_000
    ensures PagoErrors(p) == {} && !FitsDecimal10_2(p.monto)
  {
  }

  /** `new Pago()` constructed at `now`: dated now, first method, zero amount. */
  function NewPago(now: int): (p: Pago)
    ensures p.fecha == now && p.metodoPago == Efectivo && p.monto == 0
    ensures FitsDecimal10_2(p.monto)
  {
    Pago(0, 0, Efectivo, 0, now)
  }
}

=== FILE: number_text.dfy ===
/** Decimal text of integers: `int.ToString()` and `int.TryParse` with the
    default `NumberStyles.Integer` (surrounding white space, one optional
    leading sign, ASCII digits, Int32 range, trailing NUL characters). */
module NumberText {
  import opened Wrappers
  import opened Text

  const Int32Min: int := -0x8000_0000
  const Int32Max: int := 0x7FFF_FFFF

  /** The value fits a C# `int`. */
  predicate IsInt32(n: int) {
    Int32Min <= n <= Int32Max
  }

  predicate IsDigit(c: char) {
    '0' <= c <= '9'
  }

  predicate AllDigits(s: string) {
    forall i :: 0 <= i < |s| ==> IsDigit(s[i])
  }

  function DigitValue(c: char): nat
    requires IsDigit(c)
  {
    c as int - '0' as int
  }

  function DigitChar(d: nat): (c: char)
    requires d < 10
    ensures IsDigit(c) && DigitValue(c) == d
  {
    (d + '0' as int) as char
  }

  /** The number a run of decimal digits denotes, most significant first. */
  function DigitsValue(s: string): nat
    requires AllDigits(s)
  {
    if |s| == 0 then 0 else DigitsValue(s[..|s| - 1]) * 10 + DigitValue(s[|s| - 1])
  }

  /** Decimal digits of a natural number, without leading zeros. */
  function NatToText(n: nat): (r: string)
    ensures 1 <= |r| && AllDigits(r)
    ensures DigitsValue(r) == n
    ensures |r| > 1 ==> r[0] != '0'
  {
    if n < 10 then [DigitChar(n)]
    else
      var prefix := NatToText(n / 10);
      var r := prefix + [DigitChar(n % 10)];
      assert r[..|r| - 1] == prefix;
      r
  }

  /** `int.ToString()` under the invariant culture. */
  function IntToText(n: int): (r: string)
    ensures 1 <= |r|
    ensures r[0] == '-' || IsDigit(r[0])
    ensures IsDigit(r[|r| - 1])
  {
    if n < 0 then "-" + NatToText(-n) else NatToText(n)
  }

  /** The text after an optional leading sign, and whether it was `-`. */
  function SplitSign(t: string): (bool, string) {
    if |t| > 0 && t[0] == '-' then (true, t[1..])
    else if |t| > 0 && t[0] == '+' then (false, t[1..])
    else (false, t)
  }

  /** The white space `NumberStyles.Integer` skips before and after the
      number: tab, line feed, vertical tab, form feed, carriage return and
      space. Unlike `char.IsWhiteSpace` it excludes U+0085 and U+00A0. */
  predicate IsNumberWhite(c: char) {
    c == ' ' || '\t' <= c <= '\r'
  }

  /** `int.TryParse` accepts any run of NUL characters at the very end. */
  predicate IsNul(c: char) {
    c == '\0'
  }

  /** What `int.TryParse` reads as sign and digits: `s` without its leading
      white space, its trailing NULs and the white space before them. */
  function NumberBody(s: string): (r: string)
    ensures |r| <= |s|
    ensures r == [] || (!IsNumberWhite(r[0]) && !IsNumberWhite(r[|r| - 1]))
  {
    TrimEnd(TrimEnd(TrimStart(s, IsNumberWhite), IsNul), IsNumberWhite)
  }

  /** The body between permitted padding is read as is. */
  lemma NumberBodyOfPadded(lead: string, body: string, trail: string, nuls: string)
    requires forall i :: 0 <= i < |lead| ==> IsNumberWhite(lead[i])
    requires forall i :: 0 <= i < |trail| ==> IsNumberWhite(trail[i])
    requires forall i :: 0 <= i < |nuls| ==> IsNul(nuls[i])
    requires 1 <= |body| && !IsNumberWhite(body[0]) && !IsNumberWhite(body[|body| - 1]) && !IsNul(body[|body| - 1])
    ensures NumberBody(lead + body + trail + nuls) == body
  {
    assert lead + body + trail + nuls == lead + (body + trail + nuls);
    TrimStartPadded(lead, body + trail + nuls, IsNumberWhite);
    assert body + trail + nuls == (body + trail) + nuls;
    TrimEndPadded(body + trail, nuls, IsNul);
    TrimEndPadded(body, trail, IsNumberWhite);
  }

  /** The value of a sign and a digit run. */
  function SignedValue(neg: bool, digits: string): int
    requires AllDigits(digits)
  {
    if neg then 0 - DigitsValue(digits) else DigitsValue(digits)
  }

  /** `int.TryParse(s, out v)`: `Some(v)` on success, `None` when the text
      is not an integer or does not fit an `int`. */
  function TryParseInt32(s: string): (r: Option<int>)
    ensures var (neg, digits) := SplitSign(NumberBody(s));
      r.Some? <==> 1 <= |digits| && AllDigits(digits) && IsInt32(SignedValue(neg, digits))
    ensures var (neg, digits) := SplitSign(NumberBody(s));
      r.Some? ==> AllDigits(digits) && r.value == SignedValue(neg, digits)
    ensures r.Some? ==> IsInt32(r.value)
  {
    var (neg, digits) := SplitSign(NumberBody(s));
    if |digits| == 0 || !AllDigits(digits) then None
    else
      var v := SignedValue(neg, digits);
      if IsInt32(v) then Some(v) else None
  }

  /** Every text `int.TryParse` accepts is one with digits only after the sign. */
  lemma ParseRejectsNonDigits(s: string, i: int)
    requires var (_, digits) := SplitSign(NumberBody(s)); 0 <= i < |digits| && !IsDigit(digits[i])
    ensures TryParseInt32(s) == None
  {
  }

  /** A no-break space is not number white space, although `Trim` and
      `[Required]` treat it as white space. */
  lemma NoBreakSpaceRejected()
    ensures TryParseInt32("\U{00A0}7") == None
  {
    var s := "\U{00A0}7";
    assert TrimStart(s, IsNumberWhite) == s;
    assert NumberBody(s) == s;
  }

  /** The decimal text of a C# `int` parses back to the same `int`, with
      any white space around it and NULs after it. */
  lemma ParsePaddedIntToText(n: int, lead: string, trail: string, nuls: string)
    requires IsInt32(n)
    requires forall i :: 0 <= i < |lead| ==> IsNumberWhite(lead[i])
    requires forall i :: 0 <= i < |trail| ==> IsNumberWhite(trail[i])
    requires forall i :: 0 <= i < |nuls| ==> IsNul(nuls[i])
    ensures TryParseInt32(lead + IntToText(n) + trail + nuls) == Some(n)
  {
    var t := IntToText(n);
    NumberBodyOfPadded(lead, t, trail, nuls);
    var (neg, digits) := SplitSign(t);
    if n < 0 {
      assert t[1..] == NatToText(-n);
      assert neg && digits == NatToText(-n);
    } else {
      assert !neg && digits == NatToText(n);
    }
  }

  /** The decimal text of a C# `int` parses back to the same `int`. */
  lemma ParseIntToText(n: int)
    requires IsInt32(n)
    ensures TryParseInt32(IntToText(n)) == Some(n)
  {
    var t := IntToText(n);
    assert "" + t + "" + "" == t;
    ParsePaddedIntToText(n, "", "", "");
  }
}

=== FILE: pagination.dfy ===
/** The offset pagination every listing endpoint shares:
    `Skip((page - 1) * pageSize).Take(pageSize)` over the filtered, ordered
    rows, with `totalPages = (int)Math.Ceiling((double)total / pageSize)`. */
module Pagination {

  /** `Math.Ceiling(n / d)` for non-negative `n` and positive `d`. */
  function CeilDiv(n: nat, d: nat): (r: nat)
    requires d > 0
    ensures n <= r * d
    ensures r == 0 || (r - 1) * d < n
  {
    (n + d - 1) / d
  }

  /** LINQ `Skip(n)`: a non-positive count skips nothing. */
  function Skip<T>(xs: seq<T>, n: int): (r: seq<T>)
    ensures n <= 0 ==> r == xs
    ensures 0 <= n <= |xs| ==> r == xs[n..]
    ensures n >= |xs| ==> r == []
  {
    if n <= 0 then xs else if n >= |xs| then [] else xs[n..]
  }

  /** LINQ `Take(n)`: a non-positive count takes nothing. */
  function Take<T>(xs: seq<T>, n: int): (r: seq<T>)
    ensures n <= 0 ==> r == []
    ensures 0 <= n <= |xs| ==> r == xs[..n]
    ensures n >= |xs| ==> r == xs
  {
    if n <= 0 then [] else if n >= |xs| then xs else xs[..n]
  }

  /** Page `page` (1-based) of `xs`. */
  function Page<T>(xs: seq<T>, page: int, pageSize: int): (r: seq<T>)
    requires page >= 1 && pageSize >= 1
    ensures |r| <= pageSize
    ensures |r| == if |xs| <= (page - 1) * pageSize then 0
                   else if |xs| - (page - 1) * pageSize < pageSize then |xs| - (page - 1) * pageSize
                   else pageSize
    ensures forall i :: 0 <= i < |r| ==> r[i] == xs[(page - 1) * pageSize + i]
  {
    Take(Skip(xs, (page - 1) * pageSize), pageSize)
  }

  /** The pagination block of a listing response. */
  datatype PageInfo = PageInfo(totalPages: nat, currentPage: int, pageSize: int, total: nat)

  /** One page of a listing: the rows and the metadata. */
  datatype Paged<T> = Paged(items: seq<T>, info: PageInfo)

  /** Count first, then cut the page, exactly as every controller does. */
  function Paginate<T>(xs: seq<T>, page: int, pageSize: int): (r: Paged<T>)
    requires page >= 1 && pageSize >= 1
    ensures r.info.total == |xs|
    ensures r.info.currentPage == page && r.info.pageSize == pageSize
    ensures r.items == Page(xs, page, pageSize)
    ensures r.info.totalPages * pageSize >= |xs|
    ensures r.info.totalPages == 0 || (r.info.totalPages - 1) * pageSize < |xs|
  {
    Paged(Page(xs, page, pageSize), PageInfo(CeilDiv(|xs|, pageSize), page, pageSize, |xs|))
  }

  /** A page has rows exactly when its number is within `totalPages`. */
  lemma {:induction false} PageNonEmptyIff<T>(xs: seq<T>, page: int, pageSize: int)
    requires page >= 1 && pageSize >= 1
    ensures |Page(xs, page, pageSize)| > 0 <==> page <= CeilDiv(|xs|, pageSize)
  {
    var tp := CeilDiv(|xs|, pageSize);
    if page <= tp {
      assert (page - 1) * pageSize <= (tp - 1) * pageSize by {
        MulMonotone(page - 1, tp - 1, pageSize);
      }
    } else {
      assert tp * pageSize <= (page - 1) * pageSize by {
        MulMonotone(tp, page - 1, pageSize);
      }
    }
  }

  lemma MulMonotone(a: int, b: int, c: nat)
    requires a <= b
    ensures a * c <= b * c
  {
  }

  /** Every row of the listing is on exactly the page its position says, and
      that page is within `totalPages`: the pages cover the rows with no
      gap and no overlap. */
  lemma {:induction false} RowOnItsPage<T>(xs: seq<T>, pageSize: int, i: int)
    requires pageSize >= 1 && 0 <= i < |xs|
    ensures 1 <= i / pageSize + 1 <= CeilDiv(|xs|, pageSize)
    ensures Page(xs, i / pageSize + 1, pageSize)[i % pageSize] == xs[i]
    ensures xs[i] in Page(xs, i / pageSize + 1, pageSize)
  {
    var p := i / pageSize + 1;
    assert (p - 1) * pageSize + i % pageSize == i;
    PageNonEmptyIff(xs, p, pageSize);
  }

  /** Every row of a sequence is on one of its pages `1 .. totalPages`. */
  lemma RowOnSomePage<T>(xs: seq<T>, pageSize: int, i: int)
    requires pageSize >= 1 && 0 <= i < |xs|
    ensures exists page :: 1 <= page <= CeilDiv(|xs|, pageSize) && xs[i] in Page(xs, page, pageSize)
  {
    RowOnItsPage(xs, pageSize, i);
  }

  /** The worked example: 15 matching rows, `page = 2, pageSize = 10`
      returns the last 5 rows and `totalPages = 2`. */
  lemma SecondPageOfFifteen<T>(xs: seq<T>)
    requires |xs| == 15
    ensures Page(xs, 2, 10) == xs[10..]
    ensures Paginate(xs, 2, 10).info.totalPages == 2
  {
  }
}

=== FILE: productos.dfy ===
/** `api/productosservicios`: the two catalog listings (stock-tracked
    products and services), create and update with the stock rule, delete
    guarded by the line items, and the image rows attached to items. File
    handling is left to the file system; only the stored routes and image
    rows are modelled, and the generated file name is an input. */
module Productos {
  import opened Wrappers
  import opened Text
  import opened NumberText
  import opened Seqs
  import opened Pagination
  import opened Listing
  import opened Models
  import opened Store
  import opened Claims
  import Auth

  // ----------------------------------------------------------------- images

  /** An uploaded file: its length and the name it is stored under (a fresh
      GUID plus the original extension). */
  datatype Upload = Upload(length: int, storedName: string)

  /** `dto.Imagen != null && dto.Imagen.Length > 0`. */
  predicate HasUpload(u: Option<Upload>) {
    u.Some? && u.value.length > 0
  }

  /** An image row of type "ProductoServicio" attached to item `id`. */
  predicate IsCatalogImageOf(i: Imagen, id: int) {
    i.tipoImagen == Some(ProductoServicioTag) && i.idRelacionado == Some(id)
  }

  predicate IsActiveCatalogImageOf(i: Imagen, id: int) {
    IsCatalogImageOf(i, id) && i.activo
  }

  /** Position of the first active catalog image of item `id`
      (`FirstOrDefault` over the image table). */
  function FirstActiveImage(imgs: seq<Imagen>, id: int): (r: Option<nat>)
    ensures r.Some? ==> r.value < |imgs| && IsActiveCatalogImageOf(imgs[r.value], id)
    ensures r.Some? ==> forall j :: 0 <= j < r.value ==> !IsActiveCatalogImageOf(imgs[j], id)
    ensures r.None? <==> forall j :: 0 <= j < |imgs| ==> !IsActiveCatalogImageOf(imgs[j], id)
  {
    if |imgs| == 0 then None
    else if IsActiveCatalogImageOf(imgs[0], id) then Some(0)
    else
      match FirstActiveImage(imgs[1..], id)
      case None => None
      case Some(j) => Some(j + 1)
  }

  /** The route of the image shown with item `id`, if any (`imagen?.Ruta`). */
  function ImageRouteOf(imgs: seq<Imagen>, id: int): (r: Option<string>)
    ensures r.Some? ==>
      exists i :: 0 <= i < |imgs| && IsActiveCatalogImageOf(imgs[i], id) && imgs[i].ruta == r
        && forall j :: 0 <= j < i ==> !IsActiveCatalogImageOf(imgs[j], id)
    ensures (forall j :: 0 <= j < |imgs| ==> !IsActiveCatalogImageOf(imgs[j], id)) ==> r.None?
  {
    match FirstActiveImage(imgs, id)
    case None => None
    case Some(i) => imgs[i].ruta
  }

  /** One step of the `FirstOrDefault` scan behind `ImageRouteOf`. */
  lemma ImageRouteOfCons(imgs: seq<Imagen>, id: int)
    requires |imgs| > 0
    ensures ImageRouteOf(imgs, id)
      == if IsActiveCatalogImageOf(imgs[0], id) then imgs[0].ruta else ImageRouteOf(imgs[1..], id)
  {
  }

  /** Removing rows that are not catalog images of item `k`, in any number
      and anywhere, leaves the image shown with `k` alone. */
  lemma {:induction false} ImageRouteOfFilter(imgs: seq<Imagen>, keep: Imagen -> bool, k: int)
    requires forall x :: IsCatalogImageOf(x, k) ==> keep(x)
    ensures ImageRouteOf(Filter(imgs, keep), k) == ImageRouteOf(imgs, k)
  {
    if |imgs| > 0 {
      var f := Filter(imgs, keep);
      ImageRouteOfFilter(imgs[1..], keep, k);
      ImageRouteOfCons(imgs, k);
      if keep(imgs[0]) {
        assert f == [imgs[0]] + Filter(imgs[1..], keep);
        assert f[1..] == Filter(imgs[1..], keep);
        ImageRouteOfCons(f, k);
      } else {
        assert f == Filter(imgs[1..], keep);
      }
    }
  }

  /** `(EsAlmacenable ?? false) ? "productos" : "servicios"`. */
  function ImageFolder(esAlmacenable: Option<bool>): string {
    if esAlmacenable.GetOr(false) then "productos" else "servicios"
  }

  /** `$"/images/{baseFolder}/{id}/{fileName}"`. */
  function ImageRoute(esAlmacenable: Option<bool>, id: int, fileName: string): (r: string)
    ensures |r| > 8 + |fileName| && r[..8] == "/images/"
    ensures r[|r| - |fileName|..] == fileName && r[|r| - |fileName| - 1] == '/'
  {
    "/images/" + ImageFolder(esAlmacenable) + "/" + IntToText(id) + "/" + fileName
  }

  predicate NoSlash(s: string) {
    forall i :: 0 <= i < |s| ==> s[i] != '/'
  }

  lemma IntToTextNoSlash(n: int)
    ensures NoSlash(IntToText(n))
  {
    var t := IntToText(n);
    if n < 0 {
      assert t == "-" + NatToText(-n);
      assert forall i :: 1 <= i < |t| ==> t[i] == NatToText(-n)[i - 1];
    }
  }

  /** `a + "/" + b == c + "/" + d` with slash-free `a` and `c` splits at the
      first slash, so `a == c` and `b == d`. */
  lemma SplitAtFirstSlash(a: string, b: string, c: string, d: string)
    requires NoSlash(a) && NoSlash(c)
    requires a + "/" + b == c + "/" + d
    ensures a == c && b == d
  {
    var s := a + "/" + b;
    assert s[|a|] == '/';
    assert (c + "/" + d)[|c|] == '/';
    assert |a| == |c|;
    assert a == s[..|a|] == c;
    assert b == s[|a| + 1..] == d;
  }

  /** A route is its folder prefix followed by the item's part. */
  lemma RouteParts(s: Option<bool>, id: int, f: string)
    ensures ImageRoute(s, id, f) == ("/images/" + ImageFolder(s) + "/") + (IntToText(id) + "/" + f)
    ensures |"/images/" + ImageFolder(s) + "/"| == 18
    ensures ImageRoute(s, id, f)[8] == (if s.GetOr(false) then 'p' else 's')
  {
  }

  /** Stored routes identify their item: two images with the same route
      belong to the same kind of item, the same item id and the same file
      (file names are GUIDs with an extension, so without a slash). */
  lemma ImageRouteInjective(s1: Option<bool>, id1: int, f1: string, s2: Option<bool>, id2: int, f2: string)
    requires IsInt32(id1) && IsInt32(id2)
    requires ImageRoute(s1, id1, f1) == ImageRoute(s2, id2, f2)
    ensures ImageFolder(s1) == ImageFolder(s2) && id1 == id2 && f1 == f2
  {
    var r := ImageRoute(s1, id1, f1);
    RouteParts(s1, id1, f1);
    RouteParts(s2, id2, f2);
    assert ImageFolder(s1) == ImageFolder(s2);
    var t1, t2 := IntToText(id1), IntToText(id2);
    assert t1 + "/" + f1 == r[18..] == t2 + "/" + f2;
    IntToTextNoSlash(id1);
    IntToTextNoSlash(id2);
    SplitAtFirstSlash(t1, f1, t2, f2);
    ParseIntToText(id1);
    ParseIntToText(id2);
  }

  // --------------------------------------------------------------- listings

  /** A listing row: the item and the route of its first active image. */
  datatype ProductoConImagen = ProductoConImagen(producto: ProductoServicio, rutaImagen: Option<string>)

  datatype CatalogPage = CatalogPage(items: seq<ProductoConImagen>, info: PageInfo)

  /** The query string of the stock-tracked listing. */
  datatype StorableQuery = StorableQuery(
    sort: Option<string>,
    order: Option<string>,
    nombre: Option<string>,
    descripcion: Option<string>,
    precio: Option<int>,
    cantidad: Option<int>)

  /** Every filter of the query is absent, empty or out of range. */
  predicate NoActiveFilter(q: StorableQuery) {
    && IsNullOrEmpty(q.nombre) && IsNullOrEmpty(q.descripcion)
    && (q.precio.None? || q.precio.value <= 0) && (q.cantidad.None? || q.cantidad.value < 0)
  }

  /** The filters of the stock-tracked listing: name and description are
      ordinal substring matches, the price filter applies only when
      positive and the quantity filter only when non-negative. */
  function MatchesFilters(p: ProductoServicio, q: StorableQuery): (r: bool)
    ensures r && !IsNullOrEmpty(q.nombre) ==> p.nombre.Some? && Contains(p.nombre.value, q.nombre.value)
    ensures r && !IsNullOrEmpty(q.descripcion) ==> p.descripcion.Some? && Contains(p.descripcion.value, q.descripcion.value)
    ensures r && q.precio.Some? && q.precio.value > 0 ==> p.precio == q.precio
    ensures r && q.cantidad.Some? && q.cantidad.value >= 0 ==> p.cantidad == q.cantidad
    ensures NoActiveFilter(q) ==> r
  {
    && (IsNullOrEmpty(q.nombre) || (!IsNullOrEmpty(p.nombre) && Contains(p.nombre.value, q.nombre.value)))
    && (IsNullOrEmpty(q.descripcion)
        || (!IsNullOrEmpty(p.descripcion) && Contains(p.descripcion.value, q.descripcion.value)))
    && (!(q.precio.Some? && q.precio.value > 0) || p.precio == q.precio)
    && (!(q.cantidad.Some? && q.cantidad.value >= 0) || p.cantidad == q.cantidad)
  }

  /** A non-positive price filter or a negative quantity filter is ignored. */
  lemma IgnoredFilters(p: ProductoServicio, q: StorableQuery)
    requires q.precio.Some? && q.precio.value <= 0
    requires q.cantidad.Some? && q.cantidad.value < 0
    ensures MatchesFilters(p, q) == MatchesFilters(p, q.(precio := None, cantidad := None))
  {
  }

  datatype SortKey = ByNombre | ByPrecio | ByCantidad | ByDescripcion

  /** The sort switch of the stock-tracked listing: key matched after
      `ToLower`, name by default, descending exactly when `order` is "desc". */
  function StorableOrdering(sort: Option<string>, order: Option<string>): (r: (SortKey, bool))
    ensures r.1 <==> order == Some("desc")
    ensures r.0 == ByPrecio <==> sort.Some? && Lower(sort.value) == "precio"
    ensures r.0 == ByCantidad <==> sort.Some? && Lower(sort.value) == "cantidad"
    ensures r.0 != ByDescripcion
  {
    var desc := order == Some("desc");
    if sort.None? then (ByNombre, desc)
    else
      var k := Lower(sort.value);
      if k == "nombre" then (ByNombre, desc)
      else if k == "precio" then (ByPrecio, desc)
      else if k == "cantidad" then (ByCantidad, desc)
      else (ByNombre, desc)
  }

  /** The sort switch of the service listing: its default branch sorts by
      name ascending, whatever `order` says. */
  function ServiceOrdering(sort: Option<string>, order: Option<string>): (r: (SortKey, bool))
    ensures r.0 == ByPrecio <==> sort.Some? && Lower(sort.value) == "precio"
    ensures r.0 == ByDescripcion <==> sort.Some? && Lower(sort.value) == "descripcion"
    ensures r.0 != ByCantidad
    ensures r.1 <==> order == Some("desc") && sort.Some? && Lower(sort.value) in {"nombre", "precio", "descripcion"}
  {
    var desc := order == Some("desc");
    if sort.None? then (ByNombre, false)
    else
      var k := Lower(sort.value);
      if k == "nombre" then (ByNombre, desc)
      else if k == "precio" then (ByPrecio, desc)
      else if k == "descripcion" then (ByDescripcion, desc)
      else (ByNombre, false)
  }

  /** The sort key is matched case-insensitively in both listings. */
  lemma OrderingIgnoresCase(s: string, order: Option<string>)
    ensures StorableOrdering(Some(s), order) == StorableOrdering(Some(Lower(s)), order)
    ensures ServiceOrdering(Some(s), order) == ServiceOrdering(Some(Lower(s)), order)
  {
    LowerIdempotent(s);
  }

  /** Nulls first, then the ordinal string order. */
  predicate OptStrLe(a: Option<string>, b: Option<string>) {
    a.None? || (b.Some? && StrLe(a.value, b.value))
  }

  /** Nulls first, then the numeric order. */
  predicate OptIntLe(a: Option<int>, b: Option<int>) {
    a.None? || (b.Some? && a.value <= b.value)
  }

  predicate NombreLe(a: ProductoServicio, b: ProductoServicio) {
    OptStrLe(a.nombre, b.nombre)
  }

  predicate DescripcionLe(a: ProductoServicio, b: ProductoServicio) {
    OptStrLe(a.descripcion, b.descripcion)
  }

  predicate PrecioLe(a: ProductoServicio, b: ProductoServicio) {
    OptIntLe(a.precio, b.precio)
  }

  predicate CantidadLe(a: ProductoServicio, b: ProductoServicio) {
    OptIntLe(a.cantidad, b.cantidad)
  }

  function KeyLe(k: SortKey): (ProductoServicio, ProductoServicio) -> bool {
    match k
    case ByNombre => NombreLe
    case ByPrecio => PrecioLe
    case ByCantidad => CantidadLe
    case ByDescripcion => DescripcionLe
  }

  /** `OrderBy(key)` or `OrderByDescending(key)`. */
  function Ordering(key: (SortKey, bool)): (ProductoServicio, ProductoServicio) -> bool {
    if key.1 then Flip(KeyLe(key.0)) else KeyLe(key.0)
  }

  lemma OptStrLeIsPreorder()
    ensures forall a, b :: OptStrLe(a, b) || OptStrLe(b, a)
    ensures forall a, b, c :: OptStrLe(a, b) && OptStrLe(b, c) ==> OptStrLe(a, c)
  {
    forall a: Option<string>, b: Option<string> ensures OptStrLe(a, b) || OptStrLe(b, a) {
      if a.Some? && b.Some? { StrLeTotal(a.value, b.value); }
    }
    forall a: Option<string>, b: Option<string>, c: Option<string> | OptStrLe(a, b) && OptStrLe(b, c)
      ensures OptStrLe(a, c)
    {
      if a.Some? { StrLeTrans(a.value, b.value, c.value); }
    }
  }

  lemma OrderingIsPreorder(key: (SortKey, bool))
    ensures TotalPreorder(Ordering(key))
  {
    OptStrLeIsPreorder();
    assert TotalPreorder(KeyLe(key.0));
    if key.1 { FlipTotalPreorder(KeyLe(key.0)); }
  }

  /** Attach to each listed item the route of its first active image. */
  function WithImages(ps: seq<ProductoServicio>, imgs: seq<Imagen>): (r: seq<ProductoConImagen>)
    ensures |r| == |ps|
    ensures forall i :: 0 <= i < |r| ==> r[i] == ProductoConImagen(ps[i], ImageRouteOf(imgs, ps[i].id))
  {
    seq(|ps|, i requires 0 <= i < |ps| => ProductoConImagen(ps[i], ImageRouteOf(imgs, ps[i].id)))
  }

  /** The catalog rows passing `keep`, in enumeration order. */
  function Matching(db: Db, scan: seq<int>, keep: ProductoServicio -> bool): (r: seq<ProductoServicio>)
    requires Enumerates(scan, db.productos)
    ensures forall x :: x in r <==> keep(x) && InTable(x, db.productos)
    ensures |r| == |KeysWhere(db.productos, keep)|
  {
    CountIsTableCount(db.productos, scan, keep);
    FilteredRows(db.productos, scan, keep);
    Filter(Rows(db.productos, scan), keep)
  }

  /** The listing shape both catalog endpoints share: filter by `keep`,
      sort by `key`, page, and attach each item's image route. */
  function CatalogListing(db: Db, scan: seq<int>, keep: ProductoServicio -> bool, key: (SortKey, bool), page: int, pageSize: int): (r: CatalogPage)
    requires Enumerates(scan, db.productos) && page >= 1 && pageSize >= 1
    ensures r.info.total == |KeysWhere(db.productos, keep)|
    ensures r.info.totalPages == CeilDiv(r.info.total, pageSize)
    ensures |r.items| <= pageSize
    ensures forall i :: 0 <= i < |r.items| ==>
      && keep(r.items[i].producto)
      && InTable(r.items[i].producto, db.productos)
      && r.items[i].rutaImagen == ImageRouteOf(db.imagenes, r.items[i].producto.id)
    ensures forall i, j :: 0 <= i < j < |r.items| ==> Ordering(key)(r.items[i].producto, r.items[j].producto)
    ensures r.info.currentPage == page && r.info.pageSize == pageSize
    ensures exists s :: IsSortingOf(s, Matching(db, scan, keep), Ordering(key))
                     && r.items == WithImages(Page(s, page, pageSize), db.imagenes)
  {
    var rows := Matching(db, scan, keep);
    OrderingIsPreorder(key);
    var pg := OrderedPage(rows, Ordering(key), page, pageSize);
    assert forall i :: 0 <= i < |pg.items| ==> pg.items[i] in rows;
    CatalogPage(WithImages(pg.items, db.imagenes), pg.info)
  }

  /** Paging through `1 .. totalPages` of a catalog listing shows every
      item passing `keep`, with its image route. */
  lemma CatalogListingCovers(db: Db, scan: seq<int>, keep: ProductoServicio -> bool, key: (SortKey, bool),
                             pageSize: int, p: ProductoServicio)
    requires Enumerates(scan, db.productos) && pageSize >= 1 && InTable(p, db.productos) && keep(p)
    ensures exists page :: (1 <= page <= CeilDiv(|KeysWhere(db.productos, keep)|, pageSize)
      && ProductoConImagen(p, ImageRouteOf(db.imagenes, p.id)) in CatalogListing(db, scan, keep, key, page, pageSize).items)
  {
    var rows := Matching(db, scan, keep);
    OrderingIsPreorder(key);
    OrderedPagesCoverRows(rows, Ordering(key), pageSize, p);
    var page :| 1 <= page <= CeilDiv(|rows|, pageSize) && p in OrderedPage(rows, Ordering(key), page, pageSize).items;
    var items := OrderedPage(rows, Ordering(key), page, pageSize).items;
    WithImagesHas(items, db.imagenes, p);
    assert CatalogListing(db, scan, keep, key, page, pageSize).items == WithImages(items, db.imagenes);
  }

  /** Every listed item is shown with its own image route. */
  lemma WithImagesHas(ps: seq<ProductoServicio>, imgs: seq<Imagen>, p: ProductoServicio)
    requires p in ps
    ensures ProductoConImagen(p, ImageRouteOf(imgs, p.id)) in WithImages(ps, imgs)
  {
    var i :| 0 <= i < |ps| && ps[i] == p;
    assert WithImages(ps, imgs)[i] == ProductoConImagen(p, ImageRouteOf(imgs, p.id));
  }

  /** A stock-tracked item passing the query's filters. */
  predicate StorableMatch(q: StorableQuery, p: ProductoServicio) {
    IsStorable(p) && MatchesFilters(p, q)
  }

  /** The `Where` clauses of the stock-tracked listing as one filter. */
  function StorableFilter(q: StorableQuery): ProductoServicio -> bool {
    (p: ProductoServicio) => StorableMatch(q, p)
  }

  /** The action of GET api/productosservicios/almacenables: stock-tracked
      items that pass the filters, sorted, paged; the total counts every
      match before paging. */
  function ListAlmacenables(db: Db, scan: seq<int>, q: StorableQuery, page: int, pageSize: int): (r: CatalogPage)
    requires Enumerates(scan, db.productos) && page >= 1 && pageSize >= 1
    ensures r.info.total == |set k | k in db.productos && StorableMatch(q, db.productos[k])|
    ensures r.info.totalPages == CeilDiv(r.info.total, pageSize)
    ensures |r.items| <= pageSize
    ensures forall i :: 0 <= i < |r.items| ==>
      && IsStorable(r.items[i].producto)
      && MatchesFilters(r.items[i].producto, q)
      && InTable(r.items[i].producto, db.productos)
      && r.items[i].rutaImagen == ImageRouteOf(db.imagenes, r.items[i].producto.id)
    ensures forall i, j :: 0 <= i < j < |r.items| ==>
      Ordering(StorableOrdering(q.sort, q.order))(r.items[i].producto, r.items[j].producto)
    ensures r.info.currentPage == page && r.info.pageSize == pageSize
    ensures exists s :: IsSortingOf(s, Matching(db, scan, StorableFilter(q)), Ordering(StorableOrdering(q.sort, q.order)))
                     && r.items == WithImages(Page(s, page, pageSize), db.imagenes)
  {
    var keep := StorableFilter(q);
    assert KeysWhere(db.productos, keep) == set k | k in db.productos && StorableMatch(q, db.productos[k]);
    CatalogListing(db, scan, keep, StorableOrdering(q.sort, q.order), page, pageSize)
  }

  /** Paging through the stock-tracked listing shows every matching item. */
  lemma EveryStorableMatchListed(db: Db, scan: seq<int>, q: StorableQuery, pageSize: int, p: ProductoServicio)
    requires Enumerates(scan, db.productos) && pageSize >= 1 && InTable(p, db.productos) && StorableMatch(q, p)
    ensures exists page :: (1 <= page <= ListAlmacenables(db, scan, q, 1, pageSize).info.totalPages
      && ProductoConImagen(p, ImageRouteOf(db.imagenes, p.id)) in ListAlmacenables(db, scan, q, page, pageSize).items)
  {
    var keep, key := StorableFilter(q), StorableOrdering(q.sort, q.order);
    CatalogListingCovers(db, scan, keep, key, pageSize, p);
    var page :| 1 <= page <= CeilDiv(|KeysWhere(db.productos, keep)|, pageSize)
      && ProductoConImagen(p, ImageRouteOf(db.imagenes, p.id)) in CatalogListing(db, scan, keep, key, page, pageSize).items;
    assert ListAlmacenables(db, scan, q, page, pageSize) == CatalogListing(db, scan, keep, key, page, pageSize);
  }

  /** The action of GET api/productosservicios/noAlmacenables: items whose
      storable flag is false or null, sorted, paged. */
  function ListNoAlmacenables(db: Db, scan: seq<int>, sort: Option<string>, order: Option<string>, page: int, pageSize: int): (r: CatalogPage)
    requires Enumerates(scan, db.productos) && page >= 1 && pageSize >= 1
    ensures r.info.total == |set k | k in db.productos && IsService(db.productos[k])|
    ensures r.info.totalPages == CeilDiv(r.info.total, pageSize)
    ensures |r.items| <= pageSize
    ensures forall i :: 0 <= i < |r.items| ==>
      && IsService(r.items[i].producto)
      && InTable(r.items[i].producto, db.productos)
      && r.items[i].rutaImagen == ImageRouteOf(db.imagenes, r.items[i].producto.id)
    ensures forall i, j :: 0 <= i < j < |r.items| ==>
      Ordering(ServiceOrdering(sort, order))(r.items[i].producto, r.items[j].producto)
    ensures r.info.currentPage == page && r.info.pageSize == pageSize
    ensures exists s :: IsSortingOf(s, Matching(db, scan, IsService), Ordering(ServiceOrdering(sort, order)))
                     && r.items == WithImages(Page(s, page, pageSize), db.imagenes)
  {
    assert KeysWhere(db.productos, IsService) == set k | k in db.productos && IsService(db.productos[k]);
    CatalogListing(db, scan, IsService, ServiceOrdering(sort, order), page, pageSize)
  }

  /** Paging through the service listing shows every service. */
  lemma EveryServiceListed(db: Db, scan: seq<int>, sort: Option<string>, order: Option<string>, pageSize: int,
                           p: ProductoServicio)
    requires Enumerates(scan, db.productos) && pageSize >= 1 && InTable(p, db.productos) && IsService(p)
    ensures exists page :: (1 <= page <= ListNoAlmacenables(db, scan, sort, order, 1, pageSize).info.totalPages
      && ProductoConImagen(p, ImageRouteOf(db.imagenes, p.id)) in ListNoAlmacenables(db, scan, sort, order, page, pageSize).items)
  {
    var key := ServiceOrdering(sort, order);
    CatalogListingCovers(db, scan, IsService, key, pageSize, p);
    var page :| 1 <= page <= CeilDiv(|KeysWhere(db.productos, IsService)|, pageSize)
      && ProductoConImagen(p, ImageRouteOf(db.imagenes, p.id)) in CatalogListing(db, scan, IsService, key, page, pageSize).items;
    assert ListNoAlmacenables(db, scan, sort, order, page, pageSize) == CatalogListing(db, scan, IsService, key, page, pageSize);
  }

  /** With no filters every stock-tracked item matches. */
  lemma EmptyQueryMatchesAll(p: ProductoServicio, sort: Option<string>, order: Option<string>)
    ensures MatchesFilters(p, StorableQuery(sort, order, None, None, None, None))
  {
  }

  /** The two listings partition the catalog: with no filters, every item
      is counted by exactly one of them. */
  lemma ListingsPartitionCatalog(db: Db, scan: seq<int>, sort: Option<string>, order: Option<string>)
    requires Enumerates(scan, db.productos)
    ensures var q := StorableQuery(sort, order, None, None, None, None);
      ListAlmacenables(db, scan, q, 1, 1).info.total
      + ListNoAlmacenables(db, scan, sort, order, 1, 1).info.total == |db.productos|
  {
    CatalogSplits(db.productos, StorableQuery(sort, order, None, None, None, None));
  }

  /** Without filters, every key is either a storable match or a service. */
  lemma CatalogSplits(m: map<int, ProductoServicio>, q: StorableQuery)
    requires q.nombre.None? && q.descripcion.None? && q.precio.None? && q.cantidad.None?
    ensures |set k | k in m && StorableMatch(q, m[k])| + |set k | k in m && IsService(m[k])| == |m|
  {
    var a := set k | k in m && StorableMatch(q, m[k]);
    var b := set k | k in m && IsService(m[k]);
    forall k | k in m ensures (k in a) != (k in b) {
      ServiceIffNotStorable(m[k]);
      EmptyQueryMatchesAll(m[k], q.sort, q.order);
    }
    assert a * b == {};
    assert a + b == m.Keys;
    assert |a + b| == |a| + |b|;
  }

  // ------------------------------------------------------------ single item

  /** The action of GET api/productosservicios/{id}: the item and its first
      active image. */
  function FindProductoServicio(db: Db, id: int): (r: (Status, Option<(ProductoServicio, Option<Imagen>)>))
    ensures r.0 == Ok || r.0 == NotFound
    ensures r.0 == Ok <==> id in db.productos
    ensures r.0 == Ok ==> r.1.Some? && r.1.value.0 == db.productos[id]
    ensures r.0 == Ok ==> (r.1.value.1.None? <==> FirstActiveImage(db.imagenes, id).None?)
    ensures r.0 == Ok && r.1.value.1.Some? ==>
      && IsActiveCatalogImageOf(r.1.value.1.value, id)
      && r.1.value.1.value.ruta == ImageRouteOf(db.imagenes, id)
  {
    if id !in db.productos then (NotFound, None)
    else
      var img := match FirstActiveImage(db.imagenes, id) case None => None case Some(i) => Some(db.imagenes[i]);
      (Ok, Some((db.productos[id], img)))
  }

  /** The image key `newImageId` is unused. */
  predicate FreshImageId(imgs: seq<Imagen>, newImageId: int) {
    forall i :: 0 <= i < |imgs| ==> imgs[i].idImagen != newImageId
  }

  /** The form of a catalog create. */
  datatype ProductoCrear = ProductoCrear(
    nombre: Option<string>,
    descripcion: Option<string>,
    precio: Option<int>,
    esAlmacenable: Option<bool>,
    cantidad: Option<int>,
    imagen: Option<Upload>)

  /** The image row for item `id` stored under `fileName` at time `now`. */
  function CatalogImage(newImageId: int, esAlmacenable: Option<bool>, id: int, fileName: string, now: int): (i: Imagen)
    ensures IsActiveCatalogImageOf(i, id) && i.idImagen == newImageId && i.fechaCreacion == now
  {
    Imagen(newImageId, Some(ImageRoute(esAlmacenable, id, fileName)), Some(ProductoServicioTag), Some(id), now, true)
  }

  /** The action of POST api/productosservicios: the name is checked first,
      then the stock rule; the item gets key `newId` and, with an upload,
      one image row. */
  function CreateProductoServicio(db: Db, dto: ProductoCrear, newId: int, newImageId: int, now: int): (r: Response)
    requires newId !in db.productos && FreshImageId(db.imagenes, newImageId)
    ensures r.status == BadRequest(NombreRequired) <==> IsNullOrEmpty(dto.nombre)
    ensures r.status == BadRequest(ServiceWithStock) <==>
      !IsNullOrEmpty(dto.nombre) && !StockRule(dto.esAlmacenable, dto.cantidad)
    ensures r.status == Created <==> !IsNullOrEmpty(dto.nombre) && StockRule(dto.esAlmacenable, dto.cantidad)
    ensures r.status != Created ==> r.db == db
    ensures r.status == Created ==>
      && r.db.productos.Keys == db.productos.Keys + {newId}
      && r.db.productos[newId]
         == ProductoServicio(newId, dto.nombre, dto.descripcion, dto.precio, dto.esAlmacenable, dto.cantidad)
      && (forall k :: k in db.productos ==> r.db.productos[k] == db.productos[k])
      && r.db.(productos := db.productos, imagenes := db.imagenes) == db
    ensures r.status == Created && !HasUpload(dto.imagen) ==> r.db.imagenes == db.imagenes
    ensures r.status == Created && HasUpload(dto.imagen) ==>
      && |r.db.imagenes| == |db.imagenes| + 1
      && r.db.imagenes[..|db.imagenes|] == db.imagenes
      && r.db.imagenes[|db.imagenes|].ruta
         == Some(ImageRoute(dto.esAlmacenable, newId, dto.imagen.value.storedName))
      && IsActiveCatalogImageOf(r.db.imagenes[|db.imagenes|], newId)
  {
    if IsNullOrEmpty(dto.nombre) then Response(BadRequest(NombreRequired), db)
    else if !StockRule(dto.esAlmacenable, dto.cantidad) then Response(BadRequest(ServiceWithStock), db)
    else
      var p := ProductoServicio(newId, dto.nombre, dto.descripcion, dto.precio, dto.esAlmacenable, dto.cantidad);
      var imgs :=
        if HasUpload(dto.imagen)
        then db.imagenes + [CatalogImage(newImageId, p.esAlmacenable, newId, dto.imagen.value.storedName, now)]
        else db.imagenes;
      Response(Created, db.(productos := db.productos[newId := p], imagenes := imgs))
  }

  /** The form of a catalog update. */
  datatype ProductoForm = ProductoForm(
    id: int,
    nombre: Option<string>,
    descripcion: Option<string>,
    precio: Option<int>,
    esAlmacenable: Option<bool>,
    cantidad: Option<int>,
    imagen: Option<Upload>)

  /** The image rows after an update uploads `fileName` for item `id`: the
      first active catalog image of the item is rewritten in place (new
      route, new timestamp), or a new row is appended when there is none.
      Either way that route becomes the one shown with the item. */
  function UploadImage(imgs: seq<Imagen>, id: int, route: string, newImageId: int, now: int): (r: seq<Imagen>)
    ensures ImageRouteOf(r, id) == Some(route)
    ensures FirstActiveImage(imgs, id).Some? ==>
      && |r| == |imgs|
      && (forall j :: 0 <= j < |imgs| && j != FirstActiveImage(imgs, id).value ==> r[j] == imgs[j])
      && r[FirstActiveImage(imgs, id).value].idImagen == imgs[FirstActiveImage(imgs, id).value].idImagen
    ensures FirstActiveImage(imgs, id).None? ==>
      && |r| == |imgs| + 1
      && r[..|imgs|] == imgs
      && r[|imgs|].idImagen == newImageId
  {
    match FirstActiveImage(imgs, id)
    case Some(i) =>
      var r := imgs[i := imgs[i].(ruta := Some(route), fechaCreacion := now)];
      var f := FirstActiveImage(r, id);
      assert IsActiveCatalogImageOf(r[i], id);
      assert forall j :: 0 <= j < i ==> r[j] == imgs[j];
      assert f.Some? && f.value == i;
      r
    case None =>
      var img := Imagen(newImageId, Some(route), Some(ProductoServicioTag), Some(id), now, true);
      var r := imgs + [img];
      var f := FirstActiveImage(r, id);
      assert IsActiveCatalogImageOf(r[|imgs|], id);
      assert forall j :: 0 <= j < |imgs| ==> r[j] == imgs[j];
      assert f.Some? && f.value == |imgs|;
      r
  }

  /** The item's current active image has no route: reading it to delete
      the old file throws, which the action answers with 500. */
  predicate NullRouteShown(imgs: seq<Imagen>, id: int) {
    FirstActiveImage(imgs, id).Some? && imgs[FirstActiveImage(imgs, id).value].ruta.None?
  }

  /** The action of PUT api/productosservicios/{id}: id check, lookup, stock
      rule (no name check); five fields are overwritten, and an upload
      rewrites the current active image in place or adds one when there is
      none. */
  function UpdateProductoServicio(db: Db, id: int, dto: ProductoForm, newImageId: int, now: int): (r: Response)
    requires FreshImageId(db.imagenes, newImageId)
    ensures r.status == BadRequest(IdMismatch) <==> id != dto.id
    ensures r.status == NotFound <==> id == dto.id && id !in db.productos
    ensures r.status == BadRequest(ServiceWithStock) <==>
      id == dto.id && id in db.productos && !StockRule(dto.esAlmacenable, dto.cantidad)
    ensures r.status == ServerError <==>
      id == dto.id && id in db.productos && StockRule(dto.esAlmacenable, dto.cantidad)
      && HasUpload(dto.imagen) && NullRouteShown(db.imagenes, id)
    ensures r.status == Ok <==>
      id == dto.id && id in db.productos && StockRule(dto.esAlmacenable, dto.cantidad)
      && !(HasUpload(dto.imagen) && NullRouteShown(db.imagenes, id))
    ensures r.status != Ok ==> r.db == db
    ensures r.status == Ok ==>
      && r.db.productos.Keys == db.productos.Keys
      && r.db.productos[id].id == db.productos[id].id
      && r.db.productos[id].nombre == dto.nombre
      && r.db.productos[id].descripcion == dto.descripcion
      && r.db.productos[id].precio == dto.precio
      && r.db.productos[id].esAlmacenable == dto.esAlmacenable
      && r.db.productos[id].cantidad == dto.cantidad
      && (forall k :: k in db.productos && k != id ==> r.db.productos[k] == db.productos[k])
      && r.db.(productos := db.productos, imagenes := db.imagenes) == db
    ensures r.status == Ok && !HasUpload(dto.imagen) ==> r.db.imagenes == db.imagenes
    ensures r.status == Ok && HasUpload(dto.imagen) ==>
      && ImageRouteOf(r.db.imagenes, id) == Some(ImageRoute(dto.esAlmacenable, id, dto.imagen.value.storedName))
      && |r.db.imagenes| == |db.imagenes| + (if FirstActiveImage(db.imagenes, id).Some? then 0 else 1)
  {
    if id != dto.id then Response(BadRequest(IdMismatch), db)
    else if id !in db.productos then Response(NotFound, db)
    else if !StockRule(dto.esAlmacenable, dto.cantidad) then Response(BadRequest(ServiceWithStock), db)
    else if HasUpload(dto.imagen) && NullRouteShown(db.imagenes, id) then Response(ServerError, db)
    else Response(Ok, Updated(db, id, dto, newImageId, now))
  }

  /** The store after a successful catalog update. */
  function Updated(db: Db, id: int, dto: ProductoForm, newImageId: int, now: int): (r: Db)
    requires id in db.productos
    ensures r.productos.Keys == db.productos.Keys
    ensures r.productos[id] == db.productos[id].(nombre := dto.nombre, descripcion := dto.descripcion,
      precio := dto.precio, esAlmacenable := dto.esAlmacenable, cantidad := dto.cantidad)
    ensures forall k :: k in db.productos && k != id ==> r.productos[k] == db.productos[k]
    ensures r.(productos := db.productos, imagenes := db.imagenes) == db
  {
    var p := db.productos[id].(nombre := dto.nombre, descripcion := dto.descripcion, precio := dto.precio,
                               esAlmacenable := dto.esAlmacenable, cantidad := dto.cantidad);
    var imgs := if HasUpload(dto.imagen) then UploadedImages(db.imagenes, id, dto, newImageId, now) else db.imagenes;
    db.(productos := db.productos[id := p], imagenes := imgs)
  }

  /** The image rows after an update uploads `dto`'s file for item `id`. */
  function UploadedImages(imgs: seq<Imagen>, id: int, dto: ProductoForm, newImageId: int, now: int): (r: seq<Imagen>)
    requires HasUpload(dto.imagen)
    ensures ImageRouteOf(r, id) == Some(ImageRoute(dto.esAlmacenable, id, dto.imagen.value.storedName))
    ensures |r| == |imgs| + (if FirstActiveImage(imgs, id).Some? then 0 else 1)
  {
    UploadImage(imgs, id, ImageRoute(dto.esAlmacenable, id, dto.imagen.value.storedName), newImageId, now)
  }

  /** Some image row attached to item `id` has no route. */
  predicate HasNullRoute(imgs: seq<Imagen>, id: int) {
    exists j :: 0 <= j < |imgs| && IsCatalogImageOf(imgs[j], id) && imgs[j].ruta.None?
  }

  /** Some line item sells item `id`. */
  predicate HasDetalleFor(db: Db, id: int) {
    exists k :: k in db.detalles && db.detalles[k].productoServicioId == id
  }

  /** The action of DELETE api/productosservicios/{id}: 404 for an unknown item, 400 while a
      line item sells it; otherwise the item and every "ProductoServicio"
      image row attached to it, active or not, go. An attached row without a
      route makes the file clean-up throw, and `folderDeleteFails` is the
      file system refusing to delete the item's image folder; both are
      answered 500 before anything is saved. */
  function RemoveProductoServicio(db: Db, id: int, folderDeleteFails: bool): (r: Response)
    ensures r.status == NotFound <==> id !in db.productos
    ensures r.status == BadRequest(Referenced("DetalleAtencion")) <==> id in db.productos && HasDetalleFor(db, id)
    ensures r.status == ServerError <==>
      id in db.productos && !HasDetalleFor(db, id) && (HasNullRoute(db.imagenes, id) || folderDeleteFails)
    ensures r.status == Ok <==>
      id in db.productos && !HasDetalleFor(db, id) && !HasNullRoute(db.imagenes, id) && !folderDeleteFails
    ensures r.status != Ok ==> r.db == db
    ensures r.status == Ok ==>
      && r.db.productos.Keys == db.productos.Keys - {id}
      && (forall k :: k in r.db.productos ==> r.db.productos[k] == db.productos[k])
      && (forall x :: x in r.db.imagenes <==> x in db.imagenes && !IsCatalogImageOf(x, id))
      && (forall x :: multiset(r.db.imagenes)[x] == if IsCatalogImageOf(x, id) then 0 else multiset(db.imagenes)[x])
      && (forall k :: k != id ==> ImageRouteOf(r.db.imagenes, k) == ImageRouteOf(db.imagenes, k))
      && r.db.(productos := db.productos, imagenes := db.imagenes) == db
  {
    if id !in db.productos then Response(NotFound, db)
    else if HasDetalleFor(db, id) then Response(BadRequest(Referenced("DetalleAtencion")), db)
    else if HasNullRoute(db.imagenes, id) || folderDeleteFails then Response(ServerError, db)
    else
      var imgs := Filter(db.imagenes, NotImageOf(id));
      assert forall x :: x in imgs <==> x in multiset(imgs);
      forall k | k != id ensures ImageRouteOf(imgs, k) == ImageRouteOf(db.imagenes, k) {
        ImageRouteOfFilter(db.imagenes, NotImageOf(id), k);
      }
      Response(Ok, db.(productos := db.productos - {id}, imagenes := imgs))
  }

  /** `i => !(i.TipoImagen == "ProductoServicio" && i.IdRelacionado == id)`. */
  function NotImageOf(id: int): Imagen -> bool {
    (i: Imagen) => !IsCatalogImageOf(i, id)
  }

  /** Position of the first image row with key `idImagen` (`FindAsync`). */
  function ImageIndex(imgs: seq<Imagen>, idImagen: int): (r: Option<nat>)
    ensures r.Some? ==> r.value < |imgs| && imgs[r.value].idImagen == idImagen
    ensures r.None? <==> forall j :: 0 <= j < |imgs| ==> imgs[j].idImagen != idImagen
  {
    if |imgs| == 0 then None
    else if imgs[0].idImagen == idImagen then Some(0)
    else
      match ImageIndex(imgs[1..], idImagen)
      case None => None
      case Some(j) => Some(j + 1)
  }

  /** The action of DELETE api/productosservicios/imagen/{idImagen}: 404 for an unknown key,
      500 when the row has no route (the file clean-up throws), otherwise
      exactly that row is removed. */
  function RemoveImagen(db: Db, idImagen: int): (r: Response)
    ensures r.status == NotFound <==> FreshImageId(db.imagenes, idImagen)
    ensures r.status == ServerError <==>
      !FreshImageId(db.imagenes, idImagen) && db.imagenes[ImageIndex(db.imagenes, idImagen).value].ruta.None?
    ensures r.status in {NotFound, ServerError, Ok}
    ensures r.status != Ok ==> r.db == db
    ensures r.status == Ok ==>
      && |r.db.imagenes| == |db.imagenes| - 1
      && (exists i :: 0 <= i < |db.imagenes| && db.imagenes[i].idImagen == idImagen
           && multiset(r.db.imagenes) + multiset{db.imagenes[i]} == multiset(db.imagenes))
      && ImageIndex(db.imagenes, idImagen).Some?
      && r.db.imagenes == db.imagenes[..ImageIndex(db.imagenes, idImagen).value]
                          + db.imagenes[ImageIndex(db.imagenes, idImagen).value + 1..]
      && r.db.(imagenes := db.imagenes) == db
  {
    match ImageIndex(db.imagenes, idImagen)
    case None => Response(NotFound, db)
    case Some(i) =>
      if db.imagenes[i].ruta.None? then Response(ServerError, db)
      else
        var imgs := db.imagenes[..i] + db.imagenes[i + 1..];
        assert db.imagenes == db.imagenes[..i] + [db.imagenes[i]] + db.imagenes[i + 1..];
        Response(Ok, db.(imagenes := imgs))
  }

  /** `Path.IsPathRooted` on a Unix host. */
  predicate IsPathRooted(p: string) {
    |p| > 0 && p[0] == '/'
  }

  /** The directory the images are saved under and served from. */
  const WebRoot: string := "wwwroot"

  predicate IsSlash(c: char) {
    c == '/'
  }

  /** `Path.Combine("wwwroot", route.TrimStart('/'))`: the trimmed route
      never starts with a separator, so it is always joined under
      "wwwroot", and the joined path is relative. */
  function ServedPath(route: string): (r: string)
    ensures !IsPathRooted(r)
    ensures |r| >= |WebRoot| && r[..|WebRoot|] == WebRoot
    ensures TrimStart(route, IsSlash) != [] ==> r == WebRoot + ("/" + TrimStart(route, IsSlash))
  {
    var t := TrimStart(route, IsSlash);
    if t == [] then WebRoot
    else
      var r := WebRoot + ("/" + t);
      assert forall i :: 0 <= i < |WebRoot| ==> r[i] == WebRoot[i];
      r
  }

  /** The action of GET api/productosservicios/{id}/imagen. 404 when the
      item has no active catalog image or its route is empty. Otherwise the
      controller returns `PhysicalFile(ServedPath(route), ...)`, whose
      executor throws on a path that is not rooted: 500, with no body. */
  function FindImagen(db: Db, id: int): (r: (Status, Option<string>))
    ensures r.0 == ServerError || r.0 == NotFound
    ensures r.1.None?
    ensures r.0 == ServerError <==> FirstActiveImage(db.imagenes, id).Some? && !IsNullOrEmpty(ImageRouteOf(db.imagenes, id))
    ensures r.0 == ServerError ==>
      && !IsPathRooted(ServedPath(ImageRouteOf(db.imagenes, id).value))
      && exists i :: 0 <= i < |db.imagenes| && IsActiveCatalogImageOf(db.imagenes[i], id) && db.imagenes[i].ruta.Some?
  {
    match FirstActiveImage(db.imagenes, id)
    case None => (NotFound, None)
    case Some(i) =>
      if IsNullOrEmpty(db.imagenes[i].ruta) then (NotFound, None)
      else (ServerError, None)
  }

  /** A route with exactly one leading slash is served from "wwwroot"
      followed by the route itself. */
  lemma ServedPathOfSlashedRoute(route: string)
    requires |route| >= 2 && route[0] == '/' && route[1] != '/'
    ensures ServedPath(route) == WebRoot + route
  {
    var rest := route[1..];
    assert IsSlash(route[0]) && !IsSlash(rest[0]);
    assert TrimStart(rest, IsSlash) == rest;
    assert TrimStart(route, IsSlash) == rest;
    assert route == "/" + rest;
  }

  /** Every route the upload writes is served from under the web root. */
  lemma ServedPathOfImageRoute(s: Option<bool>, id: int, f: string)
    ensures ServedPath(ImageRoute(s, id, f)) == WebRoot + ImageRoute(s, id, f)
  {
    var route := ImageRoute(s, id, f);
    assert route[..8][0] == '/' && route[..8][1] == 'i';
    ServedPathOfSlashedRoute(route);
  }

  /** A created item reads back by its key, with the uploaded image when
      there was one (and the item key had no image rows yet). */
  lemma FindAfterCreate(db: Db, dto: ProductoCrear, newId: int, newImageId: int, now: int)
    requires newId !in db.productos && FreshImageId(db.imagenes, newImageId)
    requires FirstActiveImage(db.imagenes, newId).None?
    requires CreateProductoServicio(db, dto, newId, newImageId, now).status == Created
    ensures var f := FindProductoServicio(CreateProductoServicio(db, dto, newId, newImageId, now).db, newId);
      && f.0 == Ok
      && f.1.value.0 == ProductoServicio(newId, dto.nombre, dto.descripcion, dto.precio, dto.esAlmacenable, dto.cantidad)
      && (f.1.value.1.Some? <==> HasUpload(dto.imagen))
      && (HasUpload(dto.imagen) ==>
            f.1.value.1.value.ruta == Some(ImageRoute(dto.esAlmacenable, newId, dto.imagen.value.storedName)))
  {
    var r := CreateProductoServicio(db, dto, newId, newImageId, now);
    var n := |db.imagenes|;
    if HasUpload(dto.imagen) {
      var imgs := r.db.imagenes;
      assert forall j :: 0 <= j < n ==> imgs[j] == db.imagenes[j] by {
        assert imgs[..n] == db.imagenes;
      }
      var i := FirstActiveImage(imgs, newId);
      assert i.Some? && i.value == n;
    }
  }

  /** After an update with an upload, the image endpoint looks up the new
      route, and serving it fails. */
  lemma FindImagenAfterUpdate(db: Db, id: int, dto: ProductoForm, newImageId: int, now: int)
    requires FreshImageId(db.imagenes, newImageId)
    requires UpdateProductoServicio(db, id, dto, newImageId, now).status == Ok && HasUpload(dto.imagen)
    ensures var imgs := UpdateProductoServicio(db, id, dto, newImageId, now).db.imagenes;
      && ImageRouteOf(imgs, id) == Some(ImageRoute(dto.esAlmacenable, id, dto.imagen.value.storedName))
      && FindImagen(UpdateProductoServicio(db, id, dto, newImageId, now).db, id) == (ServerError, None)
  {
    var imgs := UpdateProductoServicio(db, id, dto, newImageId, now).db.imagenes;
    assert FirstActiveImage(imgs, id).Some?;
  }

  // ---------------------------------------------------------- authorization

  /** `[Authorize(Roles = roles)]` in front of a write: the filter's refusal
      with the database untouched, or the action's own answer. */
  function Gate(user: Option<seq<Claim>>, roles: seq<string>, db: Db, action: Response): (r: Response)
    ensures Allowed(user, roles) ==> r == action
    ensures !Allowed(user, roles) ==> r.db == db && Some(r.status) == Refusal(user, roles)
  {
    match Refusal(user, roles)
    case Some(refused) => Response(refused, db)
    case None => action
  }

  /** `[Authorize(Roles = roles)]` in front of a read: the filter's refusal
      without a body, or the action's own answer. */
  function GateRead<T>(user: Option<seq<Claim>>, roles: seq<string>, action: (Status, Option<T>)): (r: (Status, Option<T>))
    ensures Allowed(user, roles) ==> r == action
    ensures !Allowed(user, roles) ==> r.1.None? && Some(r.0) == Refusal(user, roles)
  {
    match Refusal(user, roles)
    case Some(refused) => (refused, None)
    case None => action
  }

  /** GET api/productosservicios/almacenables, open to administrators and
      barbers. */
  function GetProductosAlmacenables(db: Db, user: Option<seq<Claim>>, scan: seq<int>, q: StorableQuery,
                                    page: int, pageSize: int): (r: (Status, Option<CatalogPage>))
    requires Enumerates(scan, db.productos) && page >= 1 && pageSize >= 1
    ensures r.0 == Ok <==> Allowed(user, AdminOrBarber)
    ensures r.0 == Unauthorized <==> user.None?
    ensures r.0 == Forbidden <==> user.Some? && !InAnyRole(user.value, AdminOrBarber)
    ensures r.0 == Ok ==> r.1 == Some(ListAlmacenables(db, scan, q, page, pageSize))
    ensures r.0 != Ok ==> r.1.None?
  {
    GateRead(user, AdminOrBarber, (Ok, Some(ListAlmacenables(db, scan, q, page, pageSize))))
  }

  /** GET api/productosservicios/noAlmacenables, open to administrators and
      barbers. */
  function GetProductosNoAlmacenables(db: Db, user: Option<seq<Claim>>, scan: seq<int>, sort: Option<string>,
                                      order: Option<string>, page: int, pageSize: int): (r: (Status, Option<CatalogPage>))
    requires Enumerates(scan, db.productos) && page >= 1 && pageSize >= 1
    ensures r.0 == Ok <==> Allowed(user, AdminOrBarber)
    ensures r.0 == Unauthorized <==> user.None?
    ensures r.0 == Forbidden <==> user.Some? && !InAnyRole(user.value, AdminOrBarber)
    ensures r.0 == Ok ==> r.1 == Some(ListNoAlmacenables(db, scan, sort, order, page, pageSize))
    ensures r.0 != Ok ==> r.1.None?
  {
    GateRead(user, AdminOrBarber, (Ok, Some(ListNoAlmacenables(db, scan, sort, order, page, pageSize))))
  }

  /** GET api/productosservicios/{id}, open to administrators and barbers. */
  function GetProductoServicio(db: Db, user: Option<seq<Claim>>, id: int): (r: (Status, Option<(ProductoServicio, Option<Imagen>)>))
    ensures r.0 == Unauthorized <==> user.None?
    ensures r.0 == Forbidden <==> user.Some? && !InAnyRole(user.value, AdminOrBarber)
    ensures Allowed(user, AdminOrBarber) ==> r == FindProductoServicio(db, id)
    ensures !Allowed(user, AdminOrBarber) ==> r.1.None?
  {
    GateRead(user, AdminOrBarber, FindProductoServicio(db, id))
  }

  /** POST api/productosservicios, open to administrators and barbers. */
  function PostProductoServicio(db: Db, user: Option<seq<Claim>>, dto: ProductoCrear, newId: int, newImageId: int,
                                now: int): (r: Response)
    requires newId !in db.productos && FreshImageId(db.imagenes, newImageId)
    ensures r.status == Unauthorized <==> user.None?
    ensures r.status == Forbidden <==> user.Some? && !InAnyRole(user.value, AdminOrBarber)
    ensures Allowed(user, AdminOrBarber) ==> r == CreateProductoServicio(db, dto, newId, newImageId, now)
    ensures !Allowed(user, AdminOrBarber) ==> r.db == db
  {
    Gate(user, AdminOrBarber, db, CreateProductoServicio(db, dto, newId, newImageId, now))
  }

  /** PUT api/productosservicios/{id}, open to administrators and barbers. */
  function PutProductoServicio(db: Db, user: Option<seq<Claim>>, id: int, dto: ProductoForm, newImageId: int,
                               now: int): (r: Response)
    requires FreshImageId(db.imagenes, newImageId)
    ensures r.status == Unauthorized <==> user.None?
    ensures r.status == Forbidden <==> user.Some? && !InAnyRole(user.value, AdminOrBarber)
    ensures Allowed(user, AdminOrBarber) ==> r == UpdateProductoServicio(db, id, dto, newImageId, now)
    ensures !Allowed(user, AdminOrBarber) ==> r.db == db
  {
    Gate(user, AdminOrBarber, db, UpdateProductoServicio(db, id, dto, newImageId, now))
  }

  /** DELETE api/productosservicios/{id}, open to administrators only. */
  function DeleteProductoServicio(db: Db, user: Option<seq<Claim>>, id: int, folderDeleteFails: bool): (r: Response)
    ensures r.status == Unauthorized <==> user.None?
    ensures r.status == Forbidden <==> user.Some? && !InAnyRole(user.value, AdminOnly)
    ensures Allowed(user, AdminOnly) ==> r == RemoveProductoServicio(db, id, folderDeleteFails)
    ensures !Allowed(user, AdminOnly) ==> r.db == db
  {
    Gate(user, AdminOnly, db, RemoveProductoServicio(db, id, folderDeleteFails))
  }

  /** DELETE api/productosservicios/imagen/{idImagen}, open to administrators
      only. */
  function DeleteImagen(db: Db, user: Option<seq<Claim>>, idImagen: int): (r: Response)
    ensures r.status == Unauthorized <==> user.None?
    ensures r.status == Forbidden <==> user.Some? && !InAnyRole(user.value, AdminOnly)
    ensures Allowed(user, AdminOnly) ==> r == RemoveImagen(db, idImagen)
    ensures !Allowed(user, AdminOnly) ==> r.db == db
  {
    Gate(user, AdminOnly, db, RemoveImagen(db, idImagen))
  }

  /** GET api/productosservicios/{id}/imagen, open to administrators and
      barbers. */
  function GetImagen(db: Db, user: Option<seq<Claim>>, id: int): (r: (Status, Option<string>))
    ensures r.0 == Unauthorized <==> user.None?
    ensures r.0 == Forbidden <==> user.Some? && !InAnyRole(user.value, AdminOrBarber)
    ensures Allowed(user, AdminOrBarber) ==> r == FindImagen(db, id)
    ensures !Allowed(user, AdminOrBarber) ==> r.1.None?
  {
    GateRead(user, AdminOrBarber, FindImagen(db, id))
  }

  /** The role claim of a login token is the numeric role id, which names
      neither role. If such a token were accepted as a principal, every
      catalog endpoint would answer it 403, whatever the request. The token
      the login mints carries no issuer or audience, so the host's token
      validation already rejects it and the endpoints answer 401. */
  lemma LoginTokenLockedOut(db: Db, u: Usuario, scan: seq<int>, q: StorableQuery, sort: Option<string>,
                            order: Option<string>, page: int, pageSize: int, id: int, idImagen: int,
                            dto: ProductoCrear, form: ProductoForm, newId: int, newImageId: int, now: int,
                            folderDeleteFails: bool)
    requires Enumerates(scan, db.productos) && page >= 1 && pageSize >= 1
    requires newId !in db.productos && FreshImageId(db.imagenes, newImageId)
    ensures var user := Some(Auth.TokenClaims(u));
      && GetProductosAlmacenables(db, user, scan, q, page, pageSize).0 == Forbidden
      && GetProductosNoAlmacenables(db, user, scan, sort, order, page, pageSize).0 == Forbidden
      && GetProductoServicio(db, user, id).0 == Forbidden
      && PostProductoServicio(db, user, dto, newId, newImageId, now) == Response(Forbidden, db)
      && PutProductoServicio(db, user, id, form, newImageId, now) == Response(Forbidden, db)
      && DeleteProductoServicio(db, user, id, folderDeleteFails) == Response(Forbidden, db)
      && DeleteImagen(db, user, idImagen) == Response(Forbidden, db)
      && GetImagen(db, user, id).0 == Forbidden
  {
    Auth.LoginTokenHasNoRoleName(u);
  }
}

=== FILE: router.dfy ===
/** The client's route table and its global `beforeEach` guard. Paths are
    matched as the router does by default: ignoring letter case and a
    trailing slash. The catch-all record ranks below every other, and no
    two other patterns overlap, so the first matching record in table
    order is the one the router picks. */
module Router {
  import opened Wrappers
  import opened Text

  datatype Pattern =
    | Exact(path: string)       // a static path
    | WithParam(prefix: string) // `prefix` followed by one `:id` segment
    | CatchAll                  // `/:catchAll(.*)`

  datatype RouteRecord = RouteRecord(pattern: Pattern, name: Option<string>, requiresAuth: bool, redirect: Option<string>)

  const LoginPath: string := "/login"
  const DashboardPath: string := "/dashboard"

  const Routes: seq<RouteRecord> := [
    RouteRecord(Exact("/"), None, false, Some(LoginPath)),
    RouteRecord(Exact(LoginPath), Some("Login"), false, None),
    RouteRecord(Exact("/clientes"), Some("Clientes"), true, None),
    RouteRecord(Exact("/clientes/nuevo"), Some("CrearCliente"), true, None),
    RouteRecord(WithParam("/clientes/editar/"), Some("EditarCliente"), true, None),
    RouteRecord(Exact(DashboardPath), Some("Dashboard"), true, None),
    RouteRecord(Exact("/home"), Some("Home"), true, None),
    RouteRecord(CatchAll, None, false, Some(LoginPath))
  ]

  /** The path as the matcher sees it: lower case, one trailing slash
      dropped (the root path keeps its slash). */
  function Normalize(path: string): (r: string)
    ensures |path| > 1 && path[|path| - 1] == '/' ==> |r| == |path| - 1
    ensures !(|path| > 1 && path[|path| - 1] == '/') ==> |r| == |path|
    ensures forall i :: 0 <= i < |r| ==> r[i] == LowerChar(path[i])
  {
    var p := if |path| > 1 && path[|path| - 1] == '/' then path[..|path| - 1] else path;
    Lower(p)
  }

  /** One trailing slash does not change the path the matcher sees. */
  lemma NormalizeIgnoresTrailingSlash(p: string)
    requires |p| >= 1 && p[|p| - 1] != '/'
    ensures Normalize(p + "/") == Normalize(p)
  {
    assert (p + "/")[..|p|] == p;
  }

  /** Nor does the letter case of the path. */
  lemma NormalizeIgnoresCase(p: string)
    ensures Normalize(Lower(p)) == Normalize(p)
  {
    var a, b := Normalize(Lower(p)), Normalize(p);
    assert |p| > 0 ==> (Lower(p)[|p| - 1] == '/' <==> p[|p| - 1] == '/');
    assert |a| == |b|;
    forall i | 0 <= i < |a| ensures a[i] == b[i] {
      assert a[i] == LowerChar(LowerChar(p[i]));
    }
  }

  function Matches(pattern: Pattern, path: string): (r: bool)
    ensures pattern == CatchAll ==> r
    ensures r && pattern.Exact? ==> |path| == |pattern.path| || |path| == |pattern.path| + 1
    ensures r && pattern.WithParam? ==> |pattern.prefix| < |path|
  {
    var n := Normalize(path);
    match pattern
    case Exact(e) => n == e
    case WithParam(prefix) =>
      |prefix| < |n| && n[..|prefix|] == prefix && forall i :: |prefix| <= i < |n| ==> n[i] != '/'
    case CatchAll => true
  }

  /** Index of the first record at or after `i` matching `path`. */
  function FirstMatch(path: string, i: nat): (r: nat)
    requires i < |Routes|
    ensures i <= r < |Routes| && Matches(Routes[r].pattern, path)
    ensures forall j :: i <= j < r ==> !Matches(Routes[j].pattern, path)
    decreases |Routes| - i
  {
    if Matches(Routes[i].pattern, path) then i
    else if i + 1 == |Routes| then assert false; i
    else FirstMatch(path, i + 1)
  }

  /** The record the router matches for `path`. */
  function MatchRecord(path: string): (r: RouteRecord)
    ensures r in Routes && Matches(r.pattern, path)
  {
    Routes[FirstMatch(path, 0)]
  }

  /** A resolved target: the path navigated to (after any redirect) and the
      record it matched. */
  datatype Location = Location(path: string, record: RouteRecord)

  /** Redirect records are followed before any guard runs; both redirect
      to the login page, which does not redirect again. */
  function Resolve(path: string): (r: Location)
    ensures r.record in Routes && r.record.redirect.None?
    ensures MatchRecord(path).redirect.Some? ==> r.path == LoginPath && r.record.name == Some("Login")
    ensures MatchRecord(path).redirect.None? ==> r == Location(path, MatchRecord(path))
  {
    var rec := MatchRecord(path);
    if rec.redirect.Some? then
      assert rec.redirect.value == LoginPath;
      assert Normalize(LoginPath) == LoginPath;
      assert FirstMatch(LoginPath, 0) == 1;
      Location(rec.redirect.value, MatchRecord(rec.redirect.value))
    else Location(path, rec)
  }

  datatype Decision = Proceed | RedirectTo(path: string)

  /** The `beforeEach` guard: a protected target without a session goes to
      the login page; the login page with a session goes to the dashboard;
      everything else proceeds. `to.path` is compared exactly as typed. */
  function Guard(to: Location, loggedIn: bool): (r: Decision)
    ensures r == RedirectTo(LoginPath) <==> to.record.requiresAuth && !loggedIn
    ensures r == RedirectTo(DashboardPath) <==> to.path == LoginPath && loggedIn
    ensures r == Proceed <==> (!to.record.requiresAuth || loggedIn) && !(to.path == LoginPath && loggedIn)
  {
    if to.record.requiresAuth && !loggedIn then RedirectTo(LoginPath)
    else if to.path == LoginPath && loggedIn then RedirectTo(DashboardPath)
    else Proceed
  }

  /** Navigating to `path`: resolve, then ask the guard. */
  function Navigate(path: string, loggedIn: bool): (r: Decision)
    ensures r == RedirectTo(LoginPath) <==> !loggedIn && MatchRecord(path).requiresAuth
    ensures r == RedirectTo(DashboardPath) <==>
      loggedIn && (path == LoginPath || MatchRecord(path).redirect.Some?)
    ensures r.RedirectTo? ==> r.path == LoginPath || r.path == DashboardPath
  {
    Guard(Resolve(path), loggedIn)
  }

  /** The root and every path no other record matches land on the login
      page. */
  lemma UnknownPathsGoToLogin(path: string)
    requires MatchRecord(path).pattern == CatchAll || Normalize(path) == "/"
    ensures Resolve(path).path == LoginPath
  {
    if Normalize(path) == "/" {
      assert Matches(Routes[0].pattern, path);
      assert FirstMatch(path, 0) == 0;
    }
  }

  /** Every named record other than the login page is protected. */
  lemma NamedRoutesProtected()
    ensures forall i :: 0 <= i < |Routes| && Routes[i].name.Some? && Routes[i].name != Some("Login") ==> Routes[i].requiresAuth
    ensures forall i :: 0 <= i < |Routes| && Routes[i].redirect.None? ==> Routes[i].name.Some?
  {
  }

  /** The guard's redirects are final: navigating to a redirect target
      with the same session always proceeds. */
  lemma GuardFixedPoint(to: Location, loggedIn: bool)
    requires Guard(to, loggedIn).RedirectTo?
    ensures Navigate(Guard(to, loggedIn).path, loggedIn) == Proceed
  {
    var target := Guard(to, loggedIn).path;
    assert Normalize(LoginPath) == LoginPath;
    assert Normalize(DashboardPath) == DashboardPath;
    assert FirstMatch(LoginPath, 0) == 1;
    assert FirstMatch(DashboardPath, 0) == 5;
  }

  /** A navigation settles after at most one redirect. */
  lemma NavigationSettles(path: string, loggedIn: bool)
    ensures Navigate(path, loggedIn) == Proceed
      || Navigate(Navigate(path, loggedIn).path, loggedIn) == Proceed
  {
    if Navigate(path, loggedIn).RedirectTo? {
      GuardFixedPoint(Resolve(path), loggedIn);
    }
  }

  /** The login page reached through another spelling is not sent to the
      dashboard: it matches the login record, but the guard compares the
      path as typed. */
  lemma LoginSpellingBypassesGuard()
    ensures Resolve("/LOGIN").record.name == Some("Login")
    ensures Navigate("/LOGIN", true) == Proceed
  {
    assert Normalize("/LOGIN") == LoginPath;
    assert !Matches(Routes[0].pattern, "/LOGIN");
    assert FirstMatch("/LOGIN", 0) == 1;
  }
}

=== FILE: seqs.dfy ===
/** The LINQ operators the listings are built from: `Where` (Filter) and
    `OrderBy` / `OrderByDescending` (SortBy under a total preorder). */
module Seqs {

  /** `Where(p)`: the rows satisfying `p`, in their original order. */
  function Filter<T(!new)>(xs: seq<T>, p: T -> bool): (r: seq<T>)
    ensures |r| <= |xs|
    ensures forall i :: 0 <= i < |r| ==> p(r[i])
    ensures forall x :: multiset(r)[x] == if p(x) then multiset(xs)[x] else 0
  {
    if |xs| == 0 then []
    else
      assert xs == [xs[0]] + xs[1..];
      (if p(xs[0]) then [xs[0]] else []) + Filter(xs[1..], p)
  }

  /** Two complementary filters split a table: every row lands in exactly
      one of them, so together they hold the table's rows once each. */
  lemma FilterPartition<T(!new)>(xs: seq<T>, p: T -> bool, q: T -> bool)
    requires forall x :: q(x) == !p(x)
    ensures multiset(Filter(xs, p)) + multiset(Filter(xs, q)) == multiset(xs)
    ensures |Filter(xs, p)| + |Filter(xs, q)| == |xs|
  {
    var a, b := Filter(xs, p), Filter(xs, q);
    assert multiset(a) + multiset(b) == multiset(xs) by {
      forall x
        ensures (multiset(a) + multiset(b))[x] == multiset(xs)[x]
      {
      }
    }
    assert |multiset(a) + multiset(b)| == |multiset(xs)|;
  }

  ghost predicate TotalPreorder<T(!new)>(le: (T, T) -> bool) {
    && (forall a, b :: le(a, b) || le(b, a))
    && (forall a, b, c :: le(a, b) && le(b, c) ==> le(a, c))
  }

  /** Every earlier element is `le` every later one. */
  predicate SortedBy<T>(xs: seq<T>, le: (T, T) -> bool) {
    forall i, j :: 0 <= i < j < |xs| ==> le(xs[i], xs[j])
  }

  /** The reversed order, as `OrderByDescending` uses it. */
  function Flip<T>(le: (T, T) -> bool): (T, T) -> bool {
    (a, b) => le(b, a)
  }

  lemma FlipTotalPreorder<T(!new)>(le: (T, T) -> bool)
    requires TotalPreorder(le)
    ensures TotalPreorder(Flip(le))
  {
  }

  /** Insert `x` into a sorted sequence in front of the first element it is
      `le`. */
  function Insert<T(!new)>(x: T, s: seq<T>, le: (T, T) -> bool): (r: seq<T>)
    requires TotalPreorder(le) && SortedBy(s, le)
    ensures SortedBy(r, le)
    ensures multiset(r) == multiset(s) + multiset{x}
  {
    if |s| == 0 then [x]
    else if le(x, s[0]) then
      assert forall j :: 0 <= j < |s| ==> le(x, s[j]) by {
        forall j | 0 <= j < |s| ensures le(x, s[j]) {
          if j > 0 { assert le(s[0], s[j]); }
        }
      }
      [x] + s
    else
      var t := Insert(x, s[1..], le);
      assert s == [s[0]] + s[1..];
      assert le(s[0], x);
      assert forall y :: y in multiset(t) ==> le(s[0], y) by {
        forall y | y in multiset(t) ensures le(s[0], y) {
          assert y == x || y in multiset(s[1..]);
          if y != x {
            var j :| 0 <= j < |s[1..]| && s[1..][j] == y;
            assert le(s[0], s[j + 1]);
          }
        }
      }
      assert forall j :: 0 <= j < |t| ==> le(s[0], t[j]) by {
        forall j | 0 <= j < |t| ensures le(s[0], t[j]) {
          assert t[j] in multiset(t);
        }
      }
      [s[0]] + t
  }

  /** `OrderBy` with the comparison `le`: a sorted permutation of `xs`. */
  function SortBy<T(!new)>(xs: seq<T>, le: (T, T) -> bool): (r: seq<T>)
    requires TotalPreorder(le)
    ensures SortedBy(r, le)
    ensures multiset(r) == multiset(xs)
    ensures |r| == |xs|
  {
    if |xs| == 0 then []
    else
      assert xs == [xs[0]] + xs[1..];
      var r := Insert(xs[0], SortBy(xs[1..], le), le);
      assert |multiset(r)| == |multiset(xs)|;
      r
  }
}

=== FILE: session.dfy ===
/** `auth.service`: the client's session kept in `sessionStorage`, a map
    from key to string. `JSON.parse` is a parameter: it yields the parsed
    value or `None` when it throws. */
module Session {
  import opened Wrappers
  import opened JsObjects

  type Storage = map<string, string>

  const KeyToken: string := "token"
  const KeyUser: string := "user"

  /** A call that returns a value or throws. */
  datatype Outcome<T> = Returns(value: T) | Throws

  /** `sessionStorage.getItem(k)`: `null` for a missing key. */
  function GetItem(s: Storage, k: string): (r: Option<string>)
    ensures r.Some? <==> k in s
    ensures r.Some? ==> r.value == s[k]
  {
    if k in s then Some(s[k]) else None
  }

  /** What a successful login stores: the token and the serialised user
      summary. */
  function Remember(s: Storage, token: string, userJson: string): (r: Storage)
    ensures GetItem(r, KeyToken) == Some(token) && GetItem(r, KeyUser) == Some(userJson)
    ensures forall k :: k in s && k !in {KeyToken, KeyUser} ==> k in r && r[k] == s[k]
  {
    s[KeyToken := token][KeyUser := userJson]
  }

  /** `logout`, without the page navigation. */
  function Logout(s: Storage): (r: Storage)
    ensures KeyToken !in r && KeyUser !in r
    ensures forall k :: k in s && k !in {KeyToken, KeyUser} ==> k in r && r[k] == s[k]
    ensures r.Keys <= s.Keys
  {
    s - {KeyToken, KeyUser}
  }

  function GetToken(s: Storage): Option<string> {
    GetItem(s, KeyToken)
  }

  /** `!!getToken()`: a stored, non-empty token. */
  function IsAuthenticated(s: Storage): (r: bool)
    ensures r <==> KeyToken in s && |s[KeyToken]| > 0
  {
    var t := GetToken(s);
    t.Some? && |t.value| > 0
  }

  /** Logging out always ends the session. */
  lemma LogoutEndsSession(s: Storage)
    ensures !IsAuthenticated(Logout(s))
  {
  }

  /** Logging in with a non-empty token starts one. */
  lemma RememberStartsSession(s: Storage, token: string, userJson: string)
    requires |token| > 0
    ensures IsAuthenticated(Remember(s, token, userJson))
  {
  }

  /** `getUser`: `null` when nothing (or the empty string) is stored,
      otherwise the parsed value, and a throw when it does not parse. */
  function GetUser(s: Storage, parse: string -> Option<JsValue>): (r: Outcome<JsValue>)
    ensures (KeyUser !in s || s[KeyUser] == "") ==> r == Returns(Null)
    ensures KeyUser in s && s[KeyUser] != "" ==>
      r == (if parse(s[KeyUser]).Some? then Returns(parse(s[KeyUser]).value) else Throws)
  {
    match GetItem(s, KeyUser)
    case None => Returns(Null)
    case Some(text) =>
      if text == "" then Returns(Null)
      else match parse(text)
        case None => Throws
        case Some(v) => Returns(v)
  }

  /** After a login stores `userJson`, `getUser` gives back its parse (a
      throw when it does not parse), or `null` for the empty string. */
  lemma GetUserAfterRemember(s: Storage, token: string, userJson: string, parse: string -> Option<JsValue>)
    ensures userJson == "" ==> GetUser(Remember(s, token, userJson), parse) == Returns(Null)
    ensures userJson != "" && parse(userJson).Some? ==>
      GetUser(Remember(s, token, userJson), parse) == Returns(parse(userJson).value)
    ensures userJson != "" && parse(userJson).None? ==> GetUser(Remember(s, token, userJson), parse) == Throws
  {
  }

  /** `isRole(role)`: `user && user.rol === role`, which yields the user
      value itself when it is falsy. */
  function IsRole(s: Storage, parse: string -> Option<JsValue>, role: JsValue): (r: Outcome<JsValue>)
    ensures r.Throws? <==> GetUser(s, parse).Throws?
    ensures r.Returns? && Truthy(r.value) ==> r.value == Bool(true)
    ensures r == Returns(Bool(true)) <==>
      exists v :: GetUser(s, parse) == Returns(v) && Truthy(v) && StrictEq(Prop(v, "rol"), role)
    ensures forall v :: GetUser(s, parse) == Returns(v) && !Truthy(v) ==> r == Returns(v)
    ensures forall v :: GetUser(s, parse) == Returns(v) && Truthy(v) && !StrictEq(Prop(v, "rol"), role) ==>
      r == Returns(Bool(false))
    ensures KeyUser !in s ==> r == Returns(Null)
  {
    match GetUser(s, parse)
    case Throws => Throws
    case Returns(user) =>
      if !Truthy(user) then Returns(user) else Returns(Bool(StrictEq(Prop(user, "rol"), role)))
  }

  /** The user summary a login stores, once parsed back: keys `id`,
      `nombre`, `email` and `rolId`, never `rol`. */
  predicate IsLoginSummary(v: JsValue) {
    v.Obj? && v.fields.Keys == {"id", "nombre", "email", "rolId"}
  }

  /** With the summary a login stores, `isRole` is never true for a
      defined role: it reads a field the summary does not have. */
  lemma IsRoleNeverHolds(s: Storage, parse: string -> Option<JsValue>, role: JsValue)
    requires KeyUser in s && s[KeyUser] != ""
    requires parse(s[KeyUser]).Some? && IsLoginSummary(parse(s[KeyUser]).value)
    requires role != Undefined
    ensures IsRole(s, parse, role) == Returns(Bool(false))
  {
    var v := parse(s[KeyUser]).value;
    assert "rol" !in v.fields;
  }
}

=== FILE: store.dfy ===
/** The database the controllers share, the statuses they answer with, and
    the update semantics of Entity Framework that every `Put` endpoint uses. */
module Store {
  import opened Wrappers
  import opened Models

  /** Why a request was answered 400. */
  datatype Reason =
    | InvalidModel(fields: set<string>)  // automatic `[ApiController]` validation
    | IdMismatch                         // URL id differs from body id
    | MissingFecha                       // `Fecha == default`
    | UnknownAtencion                    // no attendance with that id
    | UnknownProducto                    // no catalog item with that id
    | Referenced(table: string)           // a dependent row blocks the delete
    | ParentGone(relation: string)       // line item whose parent vanished
    | NombreRequired                     // catalog create without a name
    | ServiceWithStock                   // non-storable item with quantity > 0
    | MissingCredentials                 // login without email or password

  datatype Status =
    | Ok
    | Created
    | NoContent
    | BadRequest(why: Reason)
    | NotFound
    | Unauthorized  // no authenticated principal
    | Forbidden     // authenticated, but in none of the required roles
    | ServerError  // an exception escapes the action

  predicate IsSuccess(s: Status) {
    s.Ok? || s.Created? || s.NoContent?
  }

  /** The tables. The image table keeps storage order because the image
      lookups take the first matching row. */
  datatype Db = Db(
    usuarios: map<int, Usuario>,
    turnos: map<int, Turno>,
    productos: map<int, ProductoServicio>,
    atenciones: map<int, Atencion>,
    detalles: map<int, DetalleAtencion>,
    imagenes: seq<Imagen>)

  /** The status of a write and the database after it. */
  datatype Response = Response(status: Status, db: Db)

  /** `Entry(row).State = Modified; SaveChanges()` for key `id`, followed by
      the controllers' `DbUpdateConcurrencyException` handler. An UPDATE of a
      missing row always fails; `saveFails` is a conflict raised for any
      other reason. After a failure the answer is 404 exactly when no row
      with the id remains, and otherwise the exception propagates. */
  function SaveUpdate<T>(m: map<int, T>, id: int, row: T, saveFails: bool): (r: (Status, map<int, T>))
    ensures r.0 == Ok || r.0 == NotFound || r.0 == ServerError
    ensures r.0 == Ok <==> id in m && !saveFails
    ensures r.0 == NotFound <==> id !in m
    ensures r.0 == Ok ==> r.1.Keys == m.Keys && r.1[id] == row
    ensures r.0 == Ok ==> forall k :: k in m && k != id ==> r.1[k] == m[k]
    ensures r.0 != Ok ==> r.1 == m
  {
    if id in m && !saveFails then (Ok, m[id := row])
    else if id !in m then (NotFound, m)
    else (ServerError, m)
  }

  /** The key `Add` followed by `SaveChanges` stores a new row under: a
      non-zero id sent in the body is inserted as given, and a zero id is
      replaced by the key the database generates. */
  function InsertKey(id: int, generated: int): (k: int)
    ensures id != 0 ==> k == id
    ensures id == 0 ==> k == generated
  {
    if id != 0 then id else generated
  }

  /** `FindAsync(id)` answered as the GET-by-id endpoints do: 404 when the
      key is absent, otherwise 200 with the row. */
  function Find<T>(m: map<int, T>, id: int): (r: (Status, Option<T>))
    ensures r.0 == Ok || r.0 == NotFound
    ensures r.0 == Ok <==> id in m
    ensures r.0 == Ok ==> r.1 == Some(m[id])
    ensures r.0 == NotFound ==> r.1 == None
  {
    if id in m then (Ok, Some(m[id])) else (NotFound, None)
  }
}

=== FILE: text.dfy ===
/** String helpers with the .NET semantics the controllers rely on:
    `string.IsNullOrEmpty`, `char.IsWhiteSpace`, `string.Length` in UTF-16
    code units, `string.Contains` (ordinal), `ToLower` on the
    ASCII letters, `TrimStart` / `TrimEnd`, and an ordinal lexicographic order that stands in
    for the database collation used by `OrderBy`. */
module Text {
  import opened Wrappers

  /** `string.IsNullOrEmpty`. */
  predicate IsNullOrEmpty(s: Option<string>) {
    s.None? || s.value == ""
  }

  /** `char.IsWhiteSpace`: the separators of the Unicode categories Zs, Zl
      and Zp, plus tab through carriage return and U+0085. */
  predicate IsWhiteSpace(c: char) {
    || c == ' ' || ('\t' <= c <= '\r') || c == '\U{0085}' || c == '\U{00A0}'
    || c == '\U{1680}' || ('\U{2000}' <= c <= '\U{200A}') || c == '\U{2028}' || c == '\U{2029}'
    || c == '\U{202F}' || c == '\U{205F}' || c == '\U{3000}'
  }

  /** `string.Length`: .NET strings count UTF-16 code units, so a character
      beyond U+FFFF (a surrogate pair) counts twice. */
  function Utf16Length(s: string): (r: nat)
    ensures |s| <= r <= 2 * |s|
    ensures (forall i :: 0 <= i < |s| ==> s[i] <= '\U{FFFF}') ==> r == |s|
  {
    if |s| == 0 then 0 else Utf16Length(s[..|s| - 1]) + (if s[|s| - 1] > '\U{FFFF}' then 2 else 1)
  }

  /** Characters beyond U+FFFF take two code units each. */
  lemma {:induction false} Utf16LengthAllWide(s: string)
    requires forall i :: 0 <= i < |s| ==> s[i] > '\U{FFFF}'
    ensures Utf16Length(s) == 2 * |s|
  {
    if |s| > 0 {
      Utf16LengthAllWide(s[..|s| - 1]);
    }
  }

  predicate IsBlank(s: string) {
    forall i :: 0 <= i < |s| ==> IsWhiteSpace(s[i])
  }

  /** `string.IsNullOrWhiteSpace`: what `[Required]` rejects on a string. */
  predicate IsNullOrWhiteSpace(s: Option<string>) {
    s.None? || IsBlank(s.value)
  }

  /** `TrimStart(chars)`: drop the leading characters `white` accepts. */
  function TrimStart(s: string, white: char -> bool): (r: string)
    ensures |r| <= |s| && r == s[|s| - |r|..]
    ensures forall i :: 0 <= i < |s| - |r| ==> white(s[i])
    ensures r == [] || !white(r[0])
  {
    if |s| == 0 || !white(s[0]) then s
    else
      var t := s[1..];
      var r := TrimStart(t, white);
      assert t[|t| - |r|..] == s[|s| - |r|..];
      assert forall i :: 0 < i < |s| - |r| ==> s[i] == t[i - 1];
      r
  }

  /** `TrimEnd(chars)`: drop the trailing characters `white` accepts. */
  function TrimEnd(s: string, white: char -> bool): (r: string)
    ensures |r| <= |s| && r == s[..|r|]
    ensures forall i :: |r| <= i < |s| ==> white(s[i])
    ensures r == [] || !white(r[|r| - 1])
  {
    if |s| == 0 || !white(s[|s| - 1]) then s
    else
      var r := TrimEnd(s[..|s| - 1], white);
      assert forall i :: |r| <= i < |s| - 1 ==> s[i] == s[..|s| - 1][i];
      r
  }

  /** Leading characters `white` accepts are exactly what `TrimStart`
      drops: it stops at the first other character. */
  lemma TrimStartPadded(lead: string, s: string, white: char -> bool)
    requires forall i :: 0 <= i < |lead| ==> white(lead[i])
    requires s == [] || !white(s[0])
    ensures TrimStart(lead + s, white) == s
  {
    var t := lead + s;
    var r := TrimStart(t, white);
    assert r == t[|lead|..];
  }

  /** Trailing characters `white` accepts are exactly what `TrimEnd` drops. */
  lemma TrimEndPadded(s: string, trail: string, white: char -> bool)
    requires forall i :: 0 <= i < |trail| ==> white(trail[i])
    requires s == [] || !white(s[|s| - 1])
    ensures TrimEnd(s + trail, white) == s
  {
    var t := s + trail;
    var r := TrimEnd(t, white);
    assert forall i :: 0 <= i < |s| ==> t[i] == s[i];
    assert forall i :: |s| <= i < |t| ==> t[i] == trail[i - |s|];
    assert r == t[..|r|];
  }

  /** `needle` occurs in `hay` starting at index `i`. */
  predicate OccursAt(needle: string, hay: string, i: int) {
    0 <= i && i + |needle| <= |hay| && hay[i..i + |needle|] == needle
  }

  /** Ordinal `hay.Contains(needle)`. */
  function Contains(hay: string, needle: string): (r: bool)
    ensures r <==> exists i :: OccursAt(needle, hay, i)
    decreases |hay|
  {
    if |needle| <= |hay| && hay[..|needle|] == needle then
      assert OccursAt(needle, hay, 0);
      true
    else if |hay| == 0 then
      false
    else
      var r := Contains(hay[1..], needle);
      assert forall i :: OccursAt(needle, hay[1..], i) ==> OccursAt(needle, hay, i + 1);
      assert forall i :: OccursAt(needle, hay, i) && i > 0 ==> OccursAt(needle, hay[1..], i - 1);
      r
  }

  /** `char.ToLowerInvariant` restricted to the ASCII letters. */
  function LowerChar(c: char): char {
    if 'A' <= c <= 'Z' then (c as int + 32) as char else c
  }

  function Lower(s: string): (r: string)
    ensures |r| == |s|
    ensures forall i :: 0 <= i < |s| ==> r[i] == LowerChar(s[i])
  {
    seq(|s|, i requires 0 <= i < |s| => LowerChar(s[i]))
  }

  /** Lower-casing twice is lower-casing once, so a key already matched
      case-insensitively matches again after any re-casing. */
  lemma LowerIdempotent(s: string)
    ensures Lower(Lower(s)) == Lower(s)
  {
  }

  /** Ordinal lexicographic order: a proper prefix comes first, otherwise the
      first differing character decides. */
  predicate StrLe(a: string, b: string)
    decreases |a|
  {
    if |a| == 0 then true
    else if |b| == 0 then false
    else if a[0] != b[0] then a[0] < b[0]
    else StrLe(a[1..], b[1..])
  }

  lemma {:induction false} StrLeTotal(a: string, b: string)
    ensures StrLe(a, b) || StrLe(b, a)
    decreases |a|
  {
    if |a| > 0 && |b| > 0 && a[0] == b[0] {
      StrLeTotal(a[1..], b[1..]);
    }
  }

  lemma {:induction false} StrLeTrans(a: string, b: string, c: string)
    requires StrLe(a, b) && StrLe(b, c)
    ensures StrLe(a, c)
    decreases |a|
  {
    if |a| > 0 && |b| > 0 && |c| > 0 && a[0] == b[0] && b[0] == c[0] {
      StrLeTrans(a[1..], b[1..], c[1..]);
    }
  }
}

=== FILE: turnos.dfy ===
/** `api/turnos`: listing ordered by date and time, get by id, create with
    the date check, update by id, and delete guarded by the attendances. */
module Turnos {
  import opened Wrappers
  import opened Seqs
  import opened Pagination
  import opened Listing
  import opened Models
  import opened Store

  /** `OrderBy(t => t.FechaHora)`. */
  predicate FechaHoraLe(a: Turno, b: Turno) {
    a.fechaHora <= b.fechaHora
  }

  lemma FechaHoraLeIsPreorder()
    ensures TotalPreorder(FechaHoraLe)
  {
  }

  /** GET api/turnos: one page of all slots, earliest first. */
  function GetTurnos(db: Db, scan: seq<int>, page: int, pageSize: int): (r: Paged<Turno>)
    requires Enumerates(scan, db.turnos) && page >= 1 && pageSize >= 1
    ensures r.info.total == |db.turnos|
    ensures r.info.totalPages == CeilDiv(|db.turnos|, pageSize)
    ensures |r.items| <= pageSize
    ensures SortedBy(r.items, FechaHoraLe)
    ensures forall t :: t in r.items ==> InTable(t, db.turnos)
    ensures r.info.currentPage == page && r.info.pageSize == pageSize
    ensures exists s :: IsSortingOf(s, Rows(db.turnos, scan), FechaHoraLe) && r.items == Page(s, page, pageSize)
  {
    EnumerationSize(db.turnos, scan);
    RowsAreTableRows(db.turnos, scan);
    FechaHoraLeIsPreorder();
    OrderedPage(Rows(db.turnos, scan), FechaHoraLe, page, pageSize)
  }

  /** Paging through `1 .. totalPages` shows every slot in the table. */
  lemma EveryTurnoListed(db: Db, scan: seq<int>, pageSize: int, t: Turno)
    requires Enumerates(scan, db.turnos) && pageSize >= 1 && InTable(t, db.turnos)
    ensures exists page :: 1 <= page <= CeilDiv(|db.turnos|, pageSize) && t in GetTurnos(db, scan, page, pageSize).items
  {
    var rows := Rows(db.turnos, scan);
    RowsCoverTable(db.turnos, scan);
    EnumerationSize(db.turnos, scan);
    FechaHoraLeIsPreorder();
    OrderedPagesCoverRows(rows, FechaHoraLe, pageSize, t);
    var page :| 1 <= page <= CeilDiv(|rows|, pageSize) && t in OrderedPage(rows, FechaHoraLe, page, pageSize).items;
    assert GetTurnos(db, scan, page, pageSize) == OrderedPage(rows, FechaHoraLe, page, pageSize);
  }

  /** GET api/turnos/{id}. */
  function GetTurno(db: Db, id: int): (r: (Status, Option<Turno>))
    ensures r.0 == Ok <==> id in db.turnos
    ensures r.0 == Ok ==> r.1 == Some(db.turnos[id])
  {
    Find(db.turnos, id)
  }

  /** Some attendance is booked on slot `id`. */
  predicate HasAtencionFor(db: Db, id: int) {
    exists k :: k in db.atenciones && db.atenciones[k].turnoId == Some(id)
  }

  /** POST api/turnos: refused only when the date is the default value. */
  function PostTurno(db: Db, t: Turno, newId: int): (r: Response)
    requires newId !in db.turnos
    ensures r.status == Created <==> t.fechaHora != DefaultDate && InsertKey(t.id, newId) !in db.turnos
    ensures r.status == BadRequest(MissingFecha) <==> t.fechaHora == DefaultDate
    ensures r.status == ServerError <==> t.fechaHora != DefaultDate && InsertKey(t.id, newId) in db.turnos
    ensures r.status != Created ==> r.db == db
    ensures r.status == Created ==> var key := InsertKey(t.id, newId);
      && r.db.turnos.Keys == db.turnos.Keys + {key}
      && r.db.turnos[key] == t.(id := key)
      && (forall k :: k in db.turnos ==> r.db.turnos[k] == db.turnos[k])
      && r.db.(turnos := db.turnos) == db
  {
    var key := InsertKey(t.id, newId);
    if t.fechaHora == DefaultDate then Response(BadRequest(MissingFecha), db)
    else if key in db.turnos then Response(ServerError, db)
    else Response(Created, db.(turnos := db.turnos[key := t.(id := key)]))
  }

  /** PUT api/turnos/{id}. */
  function PutTurno(db: Db, id: int, t: Turno, saveFails: bool): (r: Response)
    ensures id != t.id ==> r.status == BadRequest(IdMismatch) && r.db == db
    ensures r.status == Ok <==> id == t.id && id in db.turnos && !saveFails
    ensures r.status == NotFound <==> id == t.id && id !in db.turnos
    ensures r.status == Ok ==>
      && r.db.turnos.Keys == db.turnos.Keys
      && r.db.turnos[id] == t
      && r.db.(turnos := db.turnos) == db
    ensures r.status != Ok ==> r.db == db
  {
    if id != t.id then Response(BadRequest(IdMismatch), db)
    else
      var (st, m) := SaveUpdate(db.turnos, id, t, saveFails);
      Response(st, db.(turnos := m))
  }

  /** DELETE api/turnos/{id}: refused while an attendance references it. */
  function DeleteTurno(db: Db, id: int): (r: Response)
    ensures r.status == NotFound <==> id !in db.turnos
    ensures r.status == BadRequest(Referenced("Atencion")) <==> id in db.turnos && HasAtencionFor(db, id)
    ensures r.status == Ok <==> id in db.turnos && !HasAtencionFor(db, id)
    ensures r.status != Ok ==> r.db == db
    ensures r.status == Ok ==>
      && r.db.turnos.Keys == db.turnos.Keys - {id}
      && (forall k :: k in r.db.turnos ==> r.db.turnos[k] == db.turnos[k])
      && r.db.(turnos := db.turnos) == db
  {
    if id !in db.turnos then Response(NotFound, db)
    else if HasAtencionFor(db, id) then Response(BadRequest(Referenced("Atencion")), db)
    else Response(Ok, db.(turnos := db.turnos - {id}))
  }

  /** A created slot reads back under its key as stored. */
  lemma GetAfterPost(db: Db, t: Turno, newId: int)
    requires newId !in db.turnos && PostTurno(db, t, newId).status == Created
    ensures var key := InsertKey(t.id, newId);
      GetTurno(PostTurno(db, t, newId).db, key) == (Ok, Some(t.(id := key)))
  {
  }

  /** A successful update reads back as the body sent. */
  lemma GetAfterPut(db: Db, id: int, t: Turno, saveFails: bool)
    requires PutTurno(db, id, t, saveFails).status == Ok
    ensures GetTurno(PutTurno(db, id, t, saveFails).db, id) == (Ok, Some(t))
  {
  }
}

=== FILE: usuario_service.dfy ===
/** The request bodies and query parameters `UsuarioService` builds before
    handing them to the HTTP client. */
module UsuarioService {
  import opened JsObjects

  /** The five fields every user payload copies or forces. */
  const UserKeys: set<string> := {"nombre", "email", "telefono", "rolId", "accedeAlSistema"}

  /** `new URLSearchParams({ page, pageSize, ...filtros })` with the
      parameters' defaults `page = 1` and `pageSize = 10`. */
  function QueryParams(page: JsValue, pageSize: JsValue, filtros: JsObject): (r: JsObject)
    ensures r.Keys == {"page", "pageSize"} + filtros.Keys
    ensures forall k :: k in filtros ==> r[k] == filtros[k]
    ensures "page" !in filtros ==> r["page"] == (if page == Undefined then Num(1) else page)
    ensures "pageSize" !in filtros ==> r["pageSize"] == (if pageSize == Undefined then Num(10) else pageSize)
  {
    Spread(map["page" := DefaultParam(page, Num(1)), "pageSize" := DefaultParam(pageSize, Num(10))], filtros)
  }

  /** A `page` filter replaces the page argument, whatever it was. */
  lemma FilterOverridesPage(page: JsValue, page2: JsValue, pageSize: JsValue, filtros: JsObject)
    requires "page" in filtros
    ensures QueryParams(page, pageSize, filtros) == QueryParams(page2, pageSize, filtros)
  {
  }

  function UserPayload(d: JsObject): (r: JsObject)
    ensures r.Keys == UserKeys
    ensures forall k :: k in {"nombre", "email", "telefono", "rolId"} ==> r[k] == Get(d, k)
    ensures r["accedeAlSistema"] == Coalesce(Get(d, "accedeAlSistema"), Bool(false))
  {
    map["nombre" := Get(d, "nombre"), "email" := Get(d, "email"), "telefono" := Get(d, "telefono"),
        "rolId" := Get(d, "rolId"), "accedeAlSistema" := Coalesce(Get(d, "accedeAlSistema"), Bool(false))]
  }

  /** `crearUsuario`: the password travels only when the user may sign in
      and a password was given. */
  function CrearUsuario(d: JsObject): (r: JsObject)
    ensures "password" in r <==> Truthy(Get(d, "accedeAlSistema")) && Truthy(Get(d, "password"))
    ensures r.Keys == UserKeys + (if "password" in r then {"password"} else {})
    ensures "password" in r ==> r["password"] == Get(d, "password")
    ensures r["accedeAlSistema"] == (if IsNullish(Get(d, "accedeAlSistema")) then Bool(false) else Get(d, "accedeAlSistema"))
    ensures forall k :: k in UserKeys - {"accedeAlSistema"} ==> r[k] == Get(d, k)
  {
    var data := UserPayload(d);
    if Truthy(Get(d, "accedeAlSistema")) && Truthy(Get(d, "password")) then data["password" := Get(d, "password")]
    else data
  }

  /** `actualizarUsuario`: never a password, never `activo`. */
  function ActualizarUsuario(d: JsObject): (r: JsObject)
    ensures r.Keys == UserKeys
    ensures "password" !in r && "activo" !in r
    ensures forall k :: k in UserKeys - {"accedeAlSistema"} ==> r[k] == Get(d, k)
    ensures r["accedeAlSistema"] == (if IsNullish(Get(d, "accedeAlSistema")) then Bool(false) else Get(d, "accedeAlSistema"))
  {
    UserPayload(d)
  }

  /** The customer role id the client forces. */
  const ClienteRol: int := 3

  /** `crearCliente`: customer role, no system access, whatever the input. */
  function CrearCliente(d: JsObject): (r: JsObject)
    ensures r.Keys == UserKeys
    ensures r["rolId"] == Num(ClienteRol) && r["accedeAlSistema"] == Bool(false)
    ensures forall k :: k in {"nombre", "email", "telefono"} ==> r[k] == Get(d, k)
  {
    map["nombre" := Get(d, "nombre"), "email" := Get(d, "email"), "telefono" := Get(d, "telefono"),
        "rolId" := Num(ClienteRol), "accedeAlSistema" := Bool(false)]
  }

  /** `actualizarCliente`: forced as on create, with `activo` passed on. */
  function ActualizarCliente(d: JsObject): (r: JsObject)
    ensures r.Keys == UserKeys + {"activo"}
    ensures r["rolId"] == Num(ClienteRol) && r["accedeAlSistema"] == Bool(false)
    ensures r["activo"] == Get(d, "activo")
    ensures "password" !in r
  {
    CrearCliente(d)["activo" := Get(d, "activo")]
  }

  /** A customer payload cannot be talked into another role, system access
      or a password: inputs agreeing on name, email and phone give the same
      body. */
  lemma CrearClienteIgnoresOtherFields(d: JsObject, e: JsObject)
    requires forall k :: k in {"nombre", "email", "telefono"} ==> Get(d, k) == Get(e, k)
    ensures CrearCliente(d) == CrearCliente(e)
  {
  }

  /** The create and the update build the same body, except for the
      password the create may add. */
  lemma CrearIsActualizarPlusPassword(d: JsObject)
    ensures CrearUsuario(d) - {"password"} == ActualizarUsuario(d)
    ensures !(Truthy(Get(d, "accedeAlSistema")) && Truthy(Get(d, "password"))) ==> CrearUsuario(d) == ActualizarUsuario(d)
  {
    assert "password" !in UserKeys;
  }
}

=== FILE: usuarios.dfy ===
/** `api/usuarios`: listing of the active users, get by id (active or
    not), create behind model validation, update by id, and logical delete. */
module Usuarios {
  import opened Wrappers
  import opened Seqs
  import opened Pagination
  import opened Listing
  import opened Models
  import opened Store

  predicate IsActive(u: Usuario) {
    u.activo
  }

  /** `Where(u => u.Activo)` over the table, in storage order. */
  function ActiveUsers(db: Db, scan: seq<int>): (r: seq<Usuario>)
    requires Enumerates(scan, db.usuarios)
    ensures forall u :: u in r <==> InTable(u, db.usuarios) && u.activo
    ensures |r| == |KeysWhere(db.usuarios, IsActive)|
  {
    var rows := Rows(db.usuarios, scan);
    CountIsTableCount(db.usuarios, scan, IsActive);
    RowsAreTableRows(db.usuarios, scan);
    RowsCoverTable(db.usuarios, scan);
    var r := Filter(rows, IsActive);
    assert forall u :: u in r <==> u in multiset(r);
    r
  }

  /** GET api/usuarios: one page of active users, in no imposed order; the
      total and the page count cover the active users only. */
  function GetUsuarios(db: Db, scan: seq<int>, page: int, pageSize: int): (r: Paged<Usuario>)
    requires Enumerates(scan, db.usuarios) && page >= 1 && pageSize >= 1
    ensures r.info.total == |KeysWhere(db.usuarios, IsActive)|
    ensures r.info.totalPages == CeilDiv(|KeysWhere(db.usuarios, IsActive)|, pageSize)
    ensures |r.items| <= pageSize
    ensures forall u :: u in r.items ==> u.activo && InTable(u, db.usuarios)
    ensures r.info.currentPage == page && r.info.pageSize == pageSize
    ensures r.items == Page(ActiveUsers(db, scan), page, pageSize)
  {
    var active := ActiveUsers(db, scan);
    var r := Paginate(active, page, pageSize);
    assert forall u :: u in r.items ==> u in active;
    r
  }

  /** Paging through `1 .. totalPages` shows every active user, and only
      active users are shown at all. */
  lemma EveryActiveUserListed(db: Db, scan: seq<int>, pageSize: int, u: Usuario)
    requires Enumerates(scan, db.usuarios) && pageSize >= 1 && InTable(u, db.usuarios) && u.activo
    ensures exists page :: 1 <= page <= CeilDiv(|KeysWhere(db.usuarios, IsActive)|, pageSize)
                        && u in GetUsuarios(db, scan, page, pageSize).items
  {
    var active := ActiveUsers(db, scan);
    var i :| 0 <= i < |active| && active[i] == u;
    RowOnSomePage(active, pageSize, i);
    var page :| 1 <= page <= CeilDiv(|active|, pageSize) && u in Page(active, page, pageSize);
    assert GetUsuarios(db, scan, page, pageSize).items == Page(active, page, pageSize);
  }

  /** GET api/usuarios/{id}: found whether active or not. */
  function GetUsuario(db: Db, id: int): (r: (Status, Option<Usuario>))
    ensures r.0 == Ok <==> id in db.usuarios
    ensures r.0 == Ok ==> r.1 == Some(db.usuarios[id])
  {
    Find(db.usuarios, id)
  }

  /** POST api/usuarios: 400 listing the failing fields, otherwise exactly
      one user is added. */
  function PostUsuario(db: Db, u: Usuario, newId: int): (r: Response)
    requires newId !in db.usuarios
    ensures r.status == Created <==> UsuarioErrors(u) == {} && InsertKey(u.id, newId) !in db.usuarios
    ensures r.status == BadRequest(InvalidModel(UsuarioErrors(u))) <==> UsuarioErrors(u) != {}
    ensures r.status == ServerError <==> UsuarioErrors(u) == {} && InsertKey(u.id, newId) in db.usuarios
    ensures r.status != Created ==> r.db == db
    ensures r.status == Created ==> var key := InsertKey(u.id, newId);
      && r.db.usuarios.Keys == db.usuarios.Keys + {key}
      && |r.db.usuarios| == |db.usuarios| + 1
      && r.db.usuarios[key] == u.(id := key)
      && (forall k :: k in db.usuarios ==> r.db.usuarios[k] == db.usuarios[k])
      && r.db.(usuarios := db.usuarios) == db
  {
    var errs := UsuarioErrors(u);
    var key := InsertKey(u.id, newId);
    if errs != {} then Response(BadRequest(InvalidModel(errs)), db)
    else if key in db.usuarios then Response(ServerError, db)
    else Response(Created, db.(usuarios := db.usuarios[key := u.(id := key)]))
  }

  /** PUT api/usuarios/{id}. */
  function PutUsuario(db: Db, id: int, u: Usuario, saveFails: bool): (r: Response)
    ensures UsuarioErrors(u) == {} && id != u.id ==> r.status == BadRequest(IdMismatch) && r.db == db
    ensures r.status == Ok <==> UsuarioErrors(u) == {} && id == u.id && id in db.usuarios && !saveFails
    ensures r.status == NotFound <==> UsuarioErrors(u) == {} && id == u.id && id !in db.usuarios
    ensures r.status == Ok ==>
      && r.db.usuarios.Keys == db.usuarios.Keys
      && r.db.usuarios[id] == u
      && r.db.(usuarios := db.usuarios) == db
    ensures r.status != Ok ==> r.db == db
  {
    var errs := UsuarioErrors(u);
    if errs != {} then Response(BadRequest(InvalidModel(errs)), db)
    else if id != u.id then Response(BadRequest(IdMismatch), db)
    else
      var (st, m) := SaveUpdate(db.usuarios, id, u, saveFails);
      Response(st, db.(usuarios := m))
  }

  /** DELETE api/usuarios/{id}: logical delete; the row stays, inactive. */
  function DeleteUsuario(db: Db, id: int): (r: Response)
    ensures r.status == NoContent <==> id in db.usuarios
    ensures r.status != NoContent ==> r.status == NotFound && r.db == db
    ensures r.db.usuarios.Keys == db.usuarios.Keys
    ensures r.status == NoContent ==>
      && !r.db.usuarios[id].activo
      && r.db.usuarios[id].(activo := true) == db.usuarios[id].(activo := true)
      && (forall k :: k in db.usuarios && k != id ==> r.db.usuarios[k] == db.usuarios[k])
      && r.db.(usuarios := db.usuarios) == db
  {
    if id !in db.usuarios then Response(NotFound, db)
    else Response(NoContent, db.(usuarios := db.usuarios[id := db.usuarios[id].(activo := false)]))
  }

  /** Deleting twice is deleting once: same answer, same database. */
  lemma DeleteUsuarioIdempotent(db: Db, id: int)
    ensures DeleteUsuario(DeleteUsuario(db, id).db, id) == DeleteUsuario(db, id)
  {
    if id in db.usuarios {
      var once := DeleteUsuario(db, id).db;
      assert once.usuarios[id := once.usuarios[id].(activo := false)] == once.usuarios;
    }
  }

  /** A deleted user is still found by id, marked inactive, and no longer
      counted by the listing. */
  lemma DeletedUserStillRetrievable(db: Db, id: int)
    requires id in db.usuarios
    ensures var after := DeleteUsuario(db, id).db;
      && GetUsuario(after, id).0 == Ok
      && !GetUsuario(after, id).1.value.activo
      && id !in KeysWhere(after.usuarios, IsActive)
  {
  }
}

=== FILE: venta.dfy ===
/** The sale view: an attendance with its priced lines and optional
    payment. Its total is derived on every read, never stored. Amounts are
    cents. */
module Venta {
  import opened Wrappers
  import opened Models

  datatype DetalleVenta = DetalleVenta(
    productoServicioId: int,
    nombreProducto: string,
    cantidad: int,
    precioUnitario: int)

  datatype PagoInfo = PagoInfo(pagoId: int, metodoPago: MetodoPago, monto: int, fechaPago: int)

  datatype VentaDto = VentaDto(
    atencionId: int,
    clienteNombre: string,
    fechaAtencion: int,
    detalles: seq<DetalleVenta>,
    pago: Option<PagoInfo>)

  /** `Cantidad * PrecioUnitario`. */
  function Subtotal(d: DetalleVenta): (r: int)
    ensures d.cantidad >= 0 && d.precioUnitario >= 0 ==> r >= 0
    ensures d.cantidad == 0 || d.precioUnitario == 0 ==> r == 0
    ensures d.cantidad == 1 ==> r == d.precioUnitario
  {
    d.cantidad * d.precioUnitario
  }

  /** Splitting a quantity splits the subtotal. */
  lemma SubtotalAdditive(d: DetalleVenta, n: int, m: int)
    ensures Subtotal(d.(cantidad := n + m)) == Subtotal(d.(cantidad := n)) + Subtotal(d.(cantidad := m))
  {
    assert (n + m) * d.precioUnitario == n * d.precioUnitario + m * d.precioUnitario;
  }

  /** `n` lines of one unit each. */
  function Units(d: DetalleVenta, n: nat): (r: seq<DetalleVenta>)
    ensures |r| == n && forall i :: 0 <= i < n ==> r[i] == d.(cantidad := 1)
  {
    seq(n, _ => d.(cantidad := 1))
  }

  /** A line of `n` units costs what `n` one-unit lines of it sum to. */
  lemma {:induction false} SubtotalIsRepeatedPrice(d: DetalleVenta, n: nat)
    ensures Subtotal(d.(cantidad := n)) == Sum(Units(d, n))
  {
    if n > 0 {
      SubtotalIsRepeatedPrice(d, n - 1);
      assert Units(d, n)[..n - 1] == Units(d, n - 1);
      SubtotalAdditive(d, n - 1, 1);
    }
  }

  /** `Sum(d => d.Subtotal)`, folded left to right. */
  function Sum(ds: seq<DetalleVenta>): (r: int)
    ensures |ds| == 1 ==> r == Subtotal(ds[0])
    ensures (forall i :: 0 <= i < |ds| ==> Subtotal(ds[i]) == 0) ==> r == 0
  {
    if |ds| == 0 then 0 else Sum(ds[..|ds| - 1]) + Subtotal(ds[|ds| - 1])
  }

  /** `TotalVenta`: derived from the lines on every read. */
  function TotalVenta(v: VentaDto): (r: int)
    ensures v.detalles == [] ==> r == 0
    ensures (forall i :: 0 <= i < |v.detalles| ==> v.detalles[i].cantidad >= 0 && v.detalles[i].precioUnitario >= 0)
            ==> r >= 0
  {
    var lines := v.detalles;
    assert (forall i :: 0 <= i < |lines| ==> lines[i].cantidad >= 0 && lines[i].precioUnitario >= 0) ==> Sum(lines) >= 0 by {
      if forall i :: 0 <= i < |lines| ==> lines[i].cantidad >= 0 && lines[i].precioUnitario >= 0 {
        SumNonNegative(lines);
      }
    }
    Sum(lines)
  }

  /** `new VentaDto()`: no lines, no payment. */
  function NewVenta(): (v: VentaDto)
    ensures v.detalles == [] && v.pago.None? && v.clienteNombre == ""
    ensures TotalVenta(v) == 0
  {
    VentaDto(0, "", DefaultDate, [], None)
  }

  /** The total of two runs of lines is the sum of their totals. */
  lemma {:induction false} SumAppend(a: seq<DetalleVenta>, b: seq<DetalleVenta>)
    ensures Sum(a + b) == Sum(a) + Sum(b)
    decreases |b|
  {
    if |b| == 0 {
      assert a + b == a;
    } else {
      var b' := b[..|b| - 1];
      assert (a + b)[..|a + b| - 1] == a + b';
      SumAppend(a, b');
    }
  }

  /** Appending a line raises the total by exactly its subtotal. */
  lemma AppendLine(v: VentaDto, d: DetalleVenta)
    ensures TotalVenta(v.(detalles := v.detalles + [d])) == TotalVenta(v) + Subtotal(d)
  {
    SumAppend(v.detalles, [d]);
    assert Sum([d]) == Subtotal(d) by { assert [d][..0] == []; }
  }

  /** Removing the same line from two equal bags leaves equal bags. */
  lemma CancelOne(a: multiset<DetalleVenta>, b: multiset<DetalleVenta>, x: DetalleVenta)
    requires a + multiset{x} == b + multiset{x}
    ensures a == b
  {
    forall y ensures a[y] == b[y] {
      assert (a + multiset{x})[y] == (b + multiset{x})[y];
    }
  }

  /** The total of lines ordered any other way is the same. */
  lemma {:induction false} SumPermutation(a: seq<DetalleVenta>, b: seq<DetalleVenta>)
    requires multiset(a) == multiset(b)
    ensures Sum(a) == Sum(b)
    decreases |a|
  {
    if |a| == 0 {
      assert |b| == |multiset(b)| == 0;
    } else {
      var x := a[|a| - 1];
      var a' := a[..|a| - 1];
      assert a == a' + [x];
      assert x in multiset(b);
      var i :| 0 <= i < |b| && b[i] == x;
      var b' := b[..i] + b[i + 1..];
      assert b == b[..i] + [x] + b[i + 1..];
      assert multiset(b) == multiset(b') + multiset{x};
      assert multiset(a) == multiset(a') + multiset{x};
      CancelOne(multiset(a'), multiset(b'), x);
      SumPermutation(a', b');
      SumAppend(b[..i] + [x], b[i + 1..]);
      SumAppend(b[..i], [x]);
      SumAppend(b[..i], b[i + 1..]);
      assert Sum([x]) == Subtotal(x) by { assert [x][..0] == []; }
    }
  }

  /** Reordering the lines does not change the total. */
  lemma TotalIgnoresOrder(v: VentaDto, w: VentaDto)
    requires multiset(v.detalles) == multiset(w.detalles)
    ensures TotalVenta(v) == TotalVenta(w)
  {
    SumPermutation(v.detalles, w.detalles);
  }

  /** The payment, customer name and date play no part in the total. */
  lemma TotalIgnoresPago(v: VentaDto, p: Option<PagoInfo>, nombre: string, fecha: int)
    ensures TotalVenta(v.(pago := p, clienteNombre := nombre, fechaAtencion := fecha)) == TotalVenta(v)
  {
  }

  /** With non-negative quantities and prices the total is non-negative. */
  lemma {:induction false} SumNonNegative(ds: seq<DetalleVenta>)
    requires forall i :: 0 <= i < |ds| ==> ds[i].cantidad >= 0 && ds[i].precioUnitario >= 0
    ensures Sum(ds) >= 0
  {
    if |ds| > 0 {
      SumNonNegative(ds[..|ds| - 1]);
    }
  }
}

=== FILE: wrappers.dfy ===
/** The nullable-value wrapper used throughout the model: a C# `T?`, a
    JavaScript `null`-or-value, a lookup that may miss. */
module Wrappers {

  datatype Option<+T> = None | Some(value: T) {

    /** The C# `??` operator: the wrapped value, or `default` when null. */
    function GetOr(default: T): T {
      match this
      case Some(v) => v
      case None => default
    }
  }
}
